=== FILE: README.md ===
# torch-em core, modelled in Dafny

This project models three parts of torch-em, the PyTorch training and
evaluation library for microscopy segmentation, and proves what they promise.

- **The trainer** (`DefaultTrainer`). Files: `trainer.dfy`, `trainer_props.dfy`,
  `manifest.dfy`.
  - Construction runs its checks. `_initialize` derives the iteration and epoch
    budgets. `fit` runs its epoch loop, with per-epoch training and validation,
    the "best"/"latest" checkpoint bookkeeping and early stopping.
  - `save_checkpoint` and `load_checkpoint` are modelled, and so is the
    reconstruction manifest. `_build_init` writes the manifest and the
    `Deserializer` reads it back.
  - The trainer is a class whose fields are the counters, the budgets, the
    manifest, state tokens for model, optimizer, gradient scaler and
    scheduler, and the checkpoint folder (a map from slot name to what was
    saved). Each method is proved equal to a pure function of the old state.
  - The lemmas prove:
    - the checkpoint round trip;
    - the budgets that `fit` keeps;
    - when "best" is saved;
    - when training stops early;
    - that the manifest gives back every component.
- **The evaluation of enhancers on random forests** (`evaluate_enhancers`,
  `load_predictions` and the forest subsampling). Files: `evaluation.dfy`,
  `eval_props.dfy`, `predictions.dfy`, `keys.dfy`, `arrays.dfy`, `selection.dfy`.
  - The prediction file is a class holding a map from hierarchical key to
    array. Each prediction is get-or-compute against it.
  - `process_chunk` fills a score array of `len(enhancers) + 1` rows and one
    column per forest, in the source's nested loops.
  - The dispatch on the number of dimensions runs one chunk, or one chunk
    per slice followed by the mean.
  - The lemmas prove:
    - without a file, every score is the metric of a freshly computed
      prediction;
    - with a file, nothing stored is overwritten, and a second run returns
      the same table without computing anything;
    - the keys written for the slices of a prediction are read back by
      `load_predictions` as the stack of those slices, in index order.
- **Generic transforms** (`Tile.forward`, `Compose.__call__`,
  `Rescale.__call__`). File: `transforms.dfy`.
  - `Tile` is modelled on shapes.
  - `Compose` chains transforms, and the first exception ends the chain.
  - `Rescale` dispatches on `with_channels`, with the resizing function as a
    parameter.

`common.dfy` holds the shared `Option`/`Result` datatypes. It also holds the
kinds of Python exception that the code raises, so that each contract can
name the exception.

Python integers become Dafny's unbounded integers. Python's `//` is written
out as floor division (`Selection.FloorDiv`). `np.inf` becomes the `Inf` case
of `Trainer.Metric`. Strings are compared code point by code point
(`Selection.Below`).

## Model

| member | source | states |
|---|---|---|
| Trainer.InitCheck | torch_em/trainer/default_trainer.py:38-42 | `TypeError` exactly when there is no name and the logger is not a `WandbLogger`; otherwise `ValueError` exactly when a loader has no `shuffle` attribute; nothing else is raised |
| Trainer.DefaultTrainer.Create | torch_em/trainer/default_trainer.py:38-67 | construction fails exactly when a check fails, with that check's exception; otherwise the new trainer has all counters at 0, a scaler iff mixed precision is on, a scheduler iff one was given, the name it was given and the checkpoint folder as it is on disk |
| Trainer.DefaultTrainer.constructor | torch_em/trainer/default_trainer.py:44-67 | once the checks pass: iteration, epoch and best epoch are 0, there are no budgets, the name is the one given (possibly `None`) and the checkpoints are those the folder already holds, which may be an earlier trainer's |
| Trainer.DefaultTrainer.SaveCheckpoint | torch_em/trainer/default_trainer.py:270-286 | the slot `name` now holds the trainer's counters, states and manifest, the best metric passed in and the extra entries; nothing else changes (a save before `_initialize` is under "Left out") |
| Trainer.AsDict | torch_em/trainer/default_trainer.py:272-285 | the scaler and scheduler states are in the dictionary when those objects exist; every extra entry other than those two is written as given; the counters and model state are written unless an extra entry overrides them (`TrainerProps.SaveProvides` and `TrainerProps.OptionalKeys` state the rest) |
| Trainer.Assign | torch_em/trainer/default_trainer.py:300-313 | a successful assignment of one entry leaves the checkpoints and the manifest alone, and changes whether a scaler or scheduler exists only through that entry |
| Trainer.LoadOne | torch_em/trainer/default_trainer.py:300-313 | a missing key (`KeyError`) leaves the trainer as it was; so does a value the typed state cannot hold, which Python would assign (see "Left out") |
| Trainer.LoadParts | torch_em/trainer/default_trainer.py:300-313 | reading entries in order never touches the checkpoints or the manifest; success means every key read was present |
| Trainer.LoadSpec | torch_em/trainer/default_trainer.py:288-313 | a named slot fails the assertion of `checkpoint_folder` (:71) with nothing changed when the trainer has no name; with a name, a slot that does not exist only warns and changes nothing; an argument that is neither a name nor a dictionary raises `RuntimeError`; loading never changes the checkpoints, the manifest or the name |
| Trainer.DefaultTrainer.LoadCheckpoint | torch_em/trainer/default_trainer.py:288-313 | the new state and the outcome are those of `LoadSpec` on the old state, the assertion of a name for a slot included |
| Trainer.DefaultTrainer.LoadDict | torch_em/trainer/default_trainer.py:300-313 | the statements that read a dictionary, in order: the four counters, model and optimizer, then the scaler and the scheduler if they exist |
| Trainer.DefaultTrainer.LoadCounters | torch_em/trainer/default_trainer.py:300-303 | the four counter statements; a failure stops there, with the earlier assignments kept |
| Trainer.DefaultTrainer.LoadStates | torch_em/trainer/default_trainer.py:305-313 | the model, optimizer, scaler and scheduler statements; scaler and scheduler state are read only for objects that exist |
| Trainer.DefaultTrainer.LoadStep | torch_em/trainer/default_trainer.py:300-313 | one statement on the way to the whole load: a failure ends the load, a success leaves the rest to run |
| Trainer.DefaultTrainer.LoadPart | torch_em/trainer/default_trainer.py:300-313 | one statement: a missing key raises `KeyError` and changes nothing |
| Trainer.DefaultTrainer.AssignPart | torch_em/trainer/default_trainer.py:300-313 | the assignment of one entry that was found; a value the typed state cannot hold changes nothing, where Python would assign it (see "Left out") |
| Trainer.CeilDiv | torch_em/trainer/default_trainer.py:249 | `ceil(i / b)`: the least `r` with `r * b >= i` |
| Trainer.InitSpec | torch_em/trainer/default_trainer.py:236-268 | a missing component fails the assertion and changes nothing; on success `max_iteration = iteration + iterations`, `max_epoch = epoch + ceil(iterations / batches)`, the trainer has a name and the best metric returned is `inf` |
| Trainer.DefaultTrainer.Initialize | torch_em/trainer/default_trainer.py:236-268 | the new state and result are those of `InitSpec` |
| Trainer.Budget | torch_em/trainer/default_trainer.py:248-264 | the counters and checkpoints stay; `max_iteration = iteration + iterations`; it fails exactly when the training loader is empty (`ZeroDivisionError`) or there is still no name once the logger has run (`AssertionError` of `checkpoint_folder`); on success the best metric is `inf`, the manifest is `_build_init`'s, the name is the logger's and `(max_epoch - epoch) * batches >= iterations` |
| Trainer.LoggerName | torch_em/trainer/default_trainer.py:258-262 | a name already given is kept; without a logger there is still no name |
| Trainer.DefaultTrainer.SetBudgets | torch_em/trainer/default_trainer.py:248-264 | the budgets, the manifest and the logger's name after the optional load: the state and result of `Budget`; an empty training loader fails on the division, a trainer still without a name on the assertion |
| Trainer.PrepareSpec | torch_em/trainer/default_trainer.py:257-264 | only the manifest and the name change: the manifest becomes `_build_init`'s and the name the logger's; it fails exactly when there is still no name, with `AssertionError`, and otherwise returns `inf` |
| Trainer.DefaultTrainer.Prepare | torch_em/trainer/default_trainer.py:257-264 | the new state and result are those of `PrepareSpec` |
| Trainer.TrainSpec | torch_em/trainer/default_trainer.py:383-417 | an epoch fails exactly when the loader has no batches or `log_image_interval` is 0, and always with `ZeroDivisionError`; the `%` of the first batch fails before anything is updated |
| Trainer.DefaultTrainer.TrainEpoch | torch_em/trainer/default_trainer.py:383-417 | the loop of batches with its `break` at the budget computes `TrainSpec`: the number of steps taken and the trainer after them; a `log_image_interval` of 0 raises `ZeroDivisionError` at the first batch with nothing changed, and so does an empty loader at the division |
| Trainer.EpochEnd | torch_em/trainer/default_trainer.py:396-413 | one epoch of `b` batches adds between 1 and `b` to the counter, never passes a budget it started under, and stops short of `b` steps only at the budget |
| Trainer.DefaultTrainer.TrainStep | torch_em/trainer/default_trainer.py:399-411 | one step advances the iteration counter and the model, optimizer and scaler states by one |
| Trainer.MeanScore | torch_em/trainer/default_trainer.py:383-442 | the mean is finite, and fails with `ZeroDivisionError` exactly when there are no validation batches (line 441) or `log_image_interval` is 0 (line 385) |
| Trainer.DefaultTrainer.Validate | torch_em/trainer/default_trainer.py:425-445 | the accumulating loop returns the mean of the batch metrics, `MeanScore`; a `log_image_interval` of 0 raises `ZeroDivisionError` at the first batch |
| Trainer.Bookkeep | torch_em/trainer/default_trainer.py:341-347 | a strictly better metric becomes the best and the current epoch the best epoch; otherwise both stay (`TrainerProps.BookkeepSaves` states what is saved) |
| Trainer.EpochStep | torch_em/trainer/default_trainer.py:335-352 | one epoch raises exactly when a loader is empty or `log_image_interval` is 0, and then `ZeroDivisionError`; the epoch counter and the budgets do not change inside the loop body |
| Trainer.DefaultTrainer.Epoch | torch_em/trainer/default_trainer.py:335-352 | train, validate, step the scheduler, save "best" on strict improvement and "latest" always, check early stopping: the state and status of `EpochStep` |
| Trainer.DefaultTrainer.Advance | torch_em/trainer/default_trainer.py:334-354 | one turn of the loop, with the epoch increment, on the way to the whole loop's result |
| Trainer.Loop | torch_em/trainer/default_trainer.py:333-354 | the only exception the epoch loop raises is `ZeroDivisionError` |
| Trainer.LoopBounds | torch_em/trainer/default_trainer.py:333-354 | the loop keeps both budgets and advances the epoch by at most `n`; it completes exactly when it advanced by all `n` epochs |
| Trainer.DefaultTrainer.RunEpochs | torch_em/trainer/default_trainer.py:333-354 | `max_epoch - epoch` turns of the loop, left early on a stop or an exception: the state and outcome of `Loop` |
| Trainer.FitSpec | torch_em/trainer/default_trainer.py:315-366 | a missing component fails the assertion with nothing changed; after a successful `_initialize` the budgets stay, the epoch ends between its start and the start plus `max_epoch - epoch`, and the only exception is `ZeroDivisionError`, which keeps the name; a `fit` that raises nothing drops a generated name (:361-362) and keeps a given one |
| Trainer.DefaultTrainer.Fit | torch_em/trainer/default_trainer.py:315-366 | the new state and outcome are those of `FitSpec`: initialise, then run the remaining epochs |
| TrainerProps.CopyPartsOverlay | torch_em/trainer/default_trainer.py:300-313 | assigning the saved entries one by one is the same as taking them over all at once |
| TrainerProps.LoadProvided | torch_em/trainer/default_trainer.py:300-313 | a dictionary that holds every entry read, with the recorded kind, loads without error |
| TrainerProps.SaveProvides | torch_em/trainer/default_trainer.py:272-285 | the dictionary a save writes holds every entry a load of the same trainer reads, with the saved values |
| TrainerProps.SaveLoadRoundTrip | torch_em/trainer/default_trainer.py:270-313 | saving and then loading into a trainer that has a scaler and scheduler iff the saver did restores iteration, epoch, best epoch, best metric and every state |
| TrainerProps.SaveThenLoad | torch_em/trainer/default_trainer.py:270-313 | for a trainer with a name, loading the slot just saved changes only the `best_metric` attribute, which becomes the saved best metric |
| TrainerProps.OptionalKeys | torch_em/trainer/default_trainer.py:282-285 | the scaler and scheduler entries are present iff those objects exist |
| TrainerProps.MissingScalerState | torch_em/trainer/default_trainer.py:300-311 | a checkpoint saved without a scaler and loaded into a trainer with one raises `KeyError("scaler_state")`, after the six earlier entries have been assigned |
| TrainerProps.LoadPrefix | torch_em/trainer/default_trainer.py:300-313 | entries that are present are all assigned before a later entry is looked at |
| TrainerProps.ResumeRestartsBest | torch_em/trainer/default_trainer.py:245-268 | for a trainer with a name, resuming from a checkpoint takes over its counters and the budgets build on them, but the best metric returned is still `inf` |
| TrainerProps.NamelessResume | torch_em/trainer/default_trainer.py:236-262 | a trainer without a name that resumes from a slot fails the assertion of `checkpoint_folder` (:71) in the load (:245-246), before the logger can give it a name, and nothing changes |
| TrainerProps.RefitNameless | torch_em/trainer/default_trainer.py:315-362 | after a `fit` with a generated name that raised nothing, the next `fit` that resumes from a slot fails that assertion |
| TrainerProps.TrainEpochBounds | torch_em/trainer/default_trainer.py:396-413 | with a non-zero `log_image_interval`, the counter advances by the number of batches run; an epoch that starts under the budget adds between 1 and `b` and never passes the budget, and it stops short of the budget only when the batches run out; one that starts at or over the budget runs exactly one batch |
| TrainerProps.EpochBudget | torch_em/trainer/default_trainer.py:333-354 | without early stopping and with a non-zero `log_image_interval`, an epoch under the budget completes with `iteration = min(iteration + b, max_iteration)` |
| TrainerProps.LoopBudget | torch_em/trainer/default_trainer.py:333-354 | with the same settings, `n` epochs that start under the budget use `min(n * b, budget left)` iterations and advance the epoch by `n` |
| TrainerProps.FitBudget | torch_em/trainer/default_trainer.py:248-250 | without early stopping, with a non-zero `log_image_interval` and a non-empty validation loader, `fit(I)` raises nothing and ends with `iteration = start + I` and `epoch = start + ceil(I / b)` |
| TrainerProps.LoopUsesBudget | torch_em/trainer/default_trainer.py:333-354 | under the same settings, the epoch loop from budgets just set for `I` iterations completes, runs exactly `I` iterations and advances the epoch by `ceil(I / b)` |
| TrainerProps.FitRuns | torch_em/trainer/default_trainer.py:315-362 | after a successful `_initialize`, `fit` is the epoch loop from `inf` over the `max_epoch - epoch` epochs left, followed by the end of `fit` |
| TrainerProps.SaveSavesManifest | torch_em/trainer/default_trainer.py:270-286 | a save writes its slot with the manifest the trainer holds and leaves every other slot as it was |
| TrainerProps.WritesTrans | torch_em/trainer/default_trainer.py:270-286 | two runs of saves with the same manifest compose: every slot is either as it was before both or holds that manifest |
| TrainerProps.BookkeepSavesManifest | torch_em/trainer/default_trainer.py:341-347 | the "best" and "latest" saves of the bookkeeping write the manifest the trainer holds, and "latest" then holds it |
| TrainerProps.EpochSavesManifest | torch_em/trainer/default_trainer.py:335-347 | an epoch keeps `init_data`, the slots it writes hold it, the other slots stay, and an epoch that raises nothing leaves "latest" holding it |
| TrainerProps.LoopSavesManifest | torch_em/trainer/default_trainer.py:334-352 | the same over any number of epochs |
| TrainerProps.InitKeepsFolder | torch_em/trainer/default_trainer.py:236-264 | `_initialize` writes no slot, and on success the trainer holds `_build_init`'s manifest |
| TrainerProps.FitSavesManifest | torch_em/trainer/default_trainer.py:236-279 | `fit` saves only after `_initialize` has set `init_data` (:257): every slot it writes holds the manifest `_build_init` made, the slots already in the folder that it does not write stay as they were, and a `fit` that runs an epoch and raises nothing leaves "latest" holding that manifest |
| TrainerProps.ZeroIntervalRaises | torch_em/trainer/default_trainer.py:383-402 | `fit` with `log_image_interval = 0` and a non-zero budget raises `ZeroDivisionError` in the first batch, leaving the trainer as `_initialize` left it |
| TrainerProps.EpochStopsEarly | torch_em/trainer/default_trainer.py:348-352 | an epoch stops the loop exactly when it ends more than `early_stopping` epochs after the best one, before the epoch counter advances |
| TrainerProps.EarlyStopping | torch_em/trainer/default_trainer.py:348-354 | the loop stops early only at such an epoch, and never when `early_stopping` is `None` |
| TrainerProps.BookkeepSaves | torch_em/trainer/default_trainer.py:341-347 | "best" is saved with `best_epoch := epoch` only on strict improvement and is otherwise left as it was; "latest" is saved every epoch with the best metric so far |
| TrainerProps.SavedBest | torch_em/trainer/default_trainer.py:272-280 | a save records the best metric passed in and the best epoch |
| TrainerProps.BookkeepKeepsBest | torch_em/trainer/default_trainer.py:341-347 | "best" keeps holding the best metric and its epoch, and the best metric never gets worse |
| TrainerProps.EpochKeepsBest | torch_em/trainer/default_trainer.py:335-354 | the same for a whole epoch, across the epoch increment |
| TrainerProps.ScoreSumBounds | torch_em/trainer/default_trainer.py:432-439 | the sum of `n` batch metrics lies between `n * lo` and `n * hi` |
| TrainerProps.MeanBounds | torch_em/trainer/default_trainer.py:432-442 | with batches and a non-zero `log_image_interval`, the validation metric lies within the bounds of the batch metrics |
| Manifest.BuildInitKeys | torch_em/trainer/default_trainer.py:198-234 | the manifest holds exactly the four class/kwargs pairs, the six settings, the dataset and loader-kwargs entries of both loaders, and the scheduler pair iff there is a scheduler |
| Manifest.BuildInit | torch_em/trainer/default_trainer.py:198-234 | every base entry is written as it is and the scheduler pair is present exactly when there is a scheduler (`BuildInitKeys`, `BuildInitComponents`, `BuildInitSettings` and `BuildInitLoaders` state what the entries hold) |
| Manifest.BaseEntryKept | torch_em/trainer/default_trainer.py:231-233 | writing the scheduler pair changes none of the other entries |
| Manifest.StoresScheduler | torch_em/trainer/default_trainer.py:231-233 | with a scheduler its class path and arguments are recorded; without one neither a `lr_scheduler` nor a `lr_scheduler_class` entry exists |
| Manifest.BuildInitComponents | torch_em/trainer/default_trainer.py:213-221 | model, loss, optimizer and metric are recorded under `<name>_class` and `<name>_kwargs`, never under `<name>` itself |
| Manifest.BuildInitSettings | torch_em/trainer/default_trainer.py:222-227 | device, log image interval, mixed precision, early stopping and the logger class and arguments are recorded |
| Manifest.BuildInitLoaders | torch_em/trainer/default_trainer.py:206-210 | both loaders' datasets and arguments are recorded under the keys `load_loader` reads |
| Manifest.RemoveTrailing | torch_em/trainer/default_trainer.py:152 | `(p + "_loader").replace("_loader", "")` is `p` when no `_` occurs in `p` |
| Manifest.TrainLoaderKeys | torch_em/trainer/default_trainer.py:152-153 | `load_loader("train_loader")` reads `train_dataset` and `train_loader_kwargs`, the keys `_update_loader` writes |
| Manifest.ValLoaderKeys | torch_em/trainer/default_trainer.py:152-153 | likewise `val_dataset` and `val_loader_kwargs` |
| Manifest.NewDeserializer | torch_em/trainer/default_trainer.py:110-113 | the device given, or else the recorded one; no recorded device raises `KeyError` |
| Manifest.LoadLoader | torch_em/trainer/default_trainer.py:151-157 | succeeds exactly when both keys are present and the arguments are keyword arguments; the loader wraps the stored dataset with the stored arguments |
| Manifest.LoadGeneric | torch_em/trainer/default_trainer.py:132-149 | a stored literal is returned first; a missing or `None` class gives `None` if optional, else `RuntimeError`; an instance is of an importable class, built with the dynamic arguments |
| Manifest.Load | torch_em/trainer/default_trainer.py:123-130 | names ending in `_loader` are loaders, `device` is the deserializer's device |
| Manifest.LoadComponentBack | torch_em/trainer/default_trainer.py:135-149 | a recorded component is built again from its recorded class and arguments |
| Manifest.LoadLiteralBack | torch_em/trainer/default_trainer.py:135-136 | a recorded setting is returned as it is |
| Manifest.LoadLoaderBack | torch_em/trainer/default_trainer.py:151-157 | a recorded loader is rebuilt around the same dataset with the same arguments and its `shuffle` |
| Manifest.ReadBack | torch_em/trainer/default_trainer.py:167-186 | `_get_trainer_kwargs` on any manifest that describes a trainer gives back its components, loaders and settings |
| Manifest.GetTrainerArgs | torch_em/trainer/default_trainer.py:167-186 | on success the optimizer is an importable class built on the model's parameters, the scheduler one built on the optimizer, both loaders are data loaders and the device is the deserializer's (`ReadBack` states the round trip) |
| Manifest.ManifestRoundTrip | torch_em/trainer/default_trainer.py:110-234 | reading back what `_build_init` wrote restores every component: the optimizer is built on the model's parameters and the scheduler on the optimizer, with the datasets, settings and the requested or recorded device |
| Keys.Digits | torch_em/shallow2deep/shallow2deep_eval.py:144 | the decimal digits of a number: non-empty, all digits |
| Keys.Pad4 | torch_em/shallow2deep/shallow2deep_eval.py:144 | `f"{z:04}"` has at least four characters, all digits (`Pad4Reads`: exactly four below 10000, and read back as `z`) |
| Keys.ValueDigits | torch_em/shallow2deep/shallow2deep_eval.py:191 | the digits of `n` read back as `n` |
| Keys.Pad4Reads | torch_em/shallow2deep/shallow2deep_eval.py:144 | `f"{z:04}"` has at least four characters, exactly four below 10000, and `int` reads it back as `z` |
| Keys.ParseInt | torch_em/shallow2deep/shallow2deep_eval.py:191 | `int(s)` succeeds exactly on a non-empty string of digits with an optional sign, and its value is the digits' value, negated after `-` |
| Keys.LastSlash | torch_em/shallow2deep/shallow2deep_eval.py:190-191 | finds the last `/`, or proves there is none |
| Keys.JoinSplit | torch_em/shallow2deep/shallow2deep_eval.py:190 | `"/".join(s.split("/")) == s` |
| Keys.ParentOfChild | torch_em/shallow2deep/shallow2deep_eval.py:190-191 | a key `p/seg` splits back into the parent `p` and the last segment `seg` |
| Keys.SliceKeys | torch_em/shallow2deep/shallow2deep_eval.py:190-191 | the key of slice `z` has the whole-volume key as its parent, and its last segment reads back as `z`, for both forest and enhancer keys |
| Keys.RfKey | torch_em/shallow2deep/shallow2deep_eval.py:142-144 | `rf_name` or `f"{rf_name}/{z:04}"`; no contract of its own: `SliceKeys` and `SliceKeysDiffer` state its properties |
| Keys.EnhKey | torch_em/shallow2deep/shallow2deep_eval.py:148-150 | `f"{enh_name}/{rf_name}"` or with `/{z:04}` appended; no contract of its own: `SliceKeys` and `SliceKeysDiffer` state its properties |
| Keys.SliceKeysDiffer | torch_em/shallow2deep/shallow2deep_eval.py:144-150 | different slices are stored under different keys |
| Arrays.Lead | torch_em/shallow2deep/shallow2deep_eval.py:119 | `pred[(None,) * k]` adds `k` leading axes of length one and keeps the elements |
| Arrays.First | torch_em/shallow2deep/shallow2deep_eval.py:125-135 | `pred[0]` drops the leading axis; a 0-d array or an empty leading axis raises `IndexError` |
| Arrays.Stack | torch_em/shallow2deep/shallow2deep_eval.py:207 | stacking adds a leading axis of the number of slices; no slices, or slices of different shapes, raise `ValueError` |
| Arrays.StackAt | torch_em/shallow2deep/shallow2deep_eval.py:207 | indexing a stack at `k` gives back slice `k` |
| Arrays.AtLead | torch_em/shallow2deep/shallow2deep_eval.py:119 | indexing a lifted array at 0 gives it back |
| Evaluation.RfSpec | torch_em/shallow2deep/shallow2deep_eval.py:110-122 | the file only grows (nothing it held changes), and a forest prediction returned with a file is the one the file now holds under its name |
| Evaluation.EnhSpec | torch_em/shallow2deep/shallow2deep_eval.py:124-137 | the same for an enhancer prediction |
| Evaluation.RfCases | torch_em/shallow2deep/shallow2deep_eval.py:110-122 | without a file: the forest's prediction; a stored key is returned unchanged and nothing is computed or stored; otherwise the prediction gains leading axes up to `len(axes) + 2`, is stored and returned, or the assertion fails when it has more axes |
| Evaluation.EnhCases | torch_em/shallow2deep/shallow2deep_eval.py:124-137 | without a file: the enhancer output with its batch axis dropped; a stored key is returned unchanged; otherwise a forest prediction without `len(axes) + 2` axes cannot be labelled (`ValueError`), and the output is stored only if it has a batch axis |
| Evaluation.RequireRf | torch_em/shallow2deep/shallow2deep_eval.py:110-122 | the result and the new file contents are those of the get-or-compute `RfSpec` |
| Evaluation.RequireEnh | torch_em/shallow2deep/shallow2deep_eval.py:124-137 | the result and the new file contents are those of the get-or-compute `EnhSpec` |
| Evaluation.ColumnSpec | torch_em/shallow2deep/shallow2deep_eval.py:141-155 | after forest `i` and `j` enhancers there are `i` finished columns and `j` scores in the current one |
| Evaluation.ForestSpec | torch_em/shallow2deep/shallow2deep_eval.py:141-157 | after `i` forests there are `i` score columns |
| Evaluation.ColumnFails | torch_em/shallow2deep/shallow2deep_eval.py:147-153 | once an enhancer fails, the rest of the forest fails with its error and nothing more is stored |
| Evaluation.ForestFails | torch_em/shallow2deep/shallow2deep_eval.py:141-157 | once a forest fails, the chunk fails with its error |
| Evaluation.EnhancerNames | torch_em/shallow2deep/shallow2deep_eval.py:160 | `list(models.keys())`, in order |
| Evaluation.ForestNames | torch_em/shallow2deep/shallow2deep_eval.py:159 | `list(ilps.keys())`, in order |
| Evaluation.Transpose | torch_em/shallow2deep/shallow2deep_eval.py:155-159 | row `j`, column `i` of the table is entry `j` of the column of forest `i` |
| Evaluation.TransposeOf | torch_em/shallow2deep/shallow2deep_eval.py:140-159 | an array whose entries are those of the columns is their transpose |
| Evaluation.Rows | torch_em/shallow2deep/shallow2deep_eval.py:159 | the rows of the score array, entry for entry |
| Evaluation.ChunkSpec | torch_em/shallow2deep/shallow2deep_eval.py:139-161 | a table of `len(enhancers) + 1` rows and one column per forest, labelled with the enhancer names followed by "rf-score"; a forest named "enhancer" makes the `insert` of the label column raise `ValueError` after the predictions are stored, so a table never has one; the file is what the forest loop left |
| Evaluation.ScoreEnhancer | torch_em/shallow2deep/shallow2deep_eval.py:148-155 | writes only `scores[j, i]`, the metric of enhancer `j` on forest `i`'s prediction |
| Evaluation.NextEnhancer | torch_em/shallow2deep/shallow2deep_eval.py:147-155 | one turn of the enhancer loop; a failure ends the forest |
| Evaluation.ScoreEnhancers | torch_em/shallow2deep/shallow2deep_eval.py:147-155 | the enhancer loop fills rows `0 .. len(enhancers) - 1` of column `i`, and no other entry, as `ColumnSpec` says |
| Evaluation.ScoreColumn | torch_em/shallow2deep/shallow2deep_eval.py:147-157 | the enhancer scores of column `i`, then the forest's own score in the last row |
| Evaluation.ScoreForest | torch_em/shallow2deep/shallow2deep_eval.py:141-157 | column `i` receives the scores on forest `i`; the other columns stay as they are |
| Evaluation.NextForest | torch_em/shallow2deep/shallow2deep_eval.py:141-157 | one turn of the forest loop; a failure ends the chunk |
| Evaluation.ScoreForests | torch_em/shallow2deep/shallow2deep_eval.py:140-157 | after the loop, column `i` of the array holds the score column of forest `i` given by `ForestSpec` |
| Evaluation.ProcessChunk | torch_em/shallow2deep/shallow2deep_eval.py:139-161 | the table and the new file contents are those of `ChunkSpec`, including the `ValueError` of the label column for a forest named "enhancer" |
| Evaluation.MeanTable | torch_em/shallow2deep/shallow2deep_eval.py:172 | the mean over no slice tables raises `ValueError`; the values of the mean are in `EvalProps.MeanEntry` and `MeanWithin` |
| Evaluation.SlicesSpec | torch_em/shallow2deep/shallow2deep_eval.py:168-171 | one table per slice processed |
| Evaluation.SlicesFail | torch_em/shallow2deep/shallow2deep_eval.py:169-171 | once a slice fails, the evaluation fails with its error |
| Evaluation.EvaluateSpec | torch_em/shallow2deep/shallow2deep_eval.py:93-176 | a shape mismatch fails the assertion and a number of dimensions other than 2 or 3 raises `ValueError`, both with the file unchanged; a single chunk is labelled with the enhancer names, then "rf-score", and has one column per forest |
| Evaluation.EvaluateEnhancers | torch_em/shallow2deep/shallow2deep_eval.py:93-176 | a shape mismatch fails the assertion; 2d data and 3d data taken as a whole are one chunk ("yx" or "zyx"); 3d data with `is2d` is one "yx" chunk per slice, then the mean; any other number of dimensions raises `ValueError`: the result and file contents of `EvaluateSpec` |
| EvalProps.EnhancerScoresMeaning | torch_em/shallow2deep/shallow2deep_eval.py:125-154 | freshly computed enhancer scores succeed exactly when every output has a batch axis, and score `j` is then the metric of enhancer `j`; otherwise `IndexError` |
| EvalProps.ColumnNoFile | torch_em/shallow2deep/shallow2deep_eval.py:111-128 | without a file the enhancer loop computes the fresh scores and no file appears |
| EvalProps.ForestNoFile | torch_em/shallow2deep/shallow2deep_eval.py:141-157 | without a file the forest loop computes the fresh score columns |
| EvalProps.ForestScoresSucceed | torch_em/shallow2deep/shallow2deep_eval.py:141-157 | the fresh columns of `n` forests succeed exactly when each forest's enhancer scores do |
| EvalProps.ForestScoresMeaning | torch_em/shallow2deep/shallow2deep_eval.py:141-157 | fresh column `i` is forest `i`'s enhancer scores followed by its own metric |
| EvalProps.ForestScoresError | torch_em/shallow2deep/shallow2deep_eval.py:127 | the only error of the fresh scores is `IndexError` |
| EvalProps.FreshScores | torch_em/shallow2deep/shallow2deep_eval.py:141-157 | without a file, entry `j` of column `i` is the metric of enhancer `j` on forest `i`'s prediction and the last entry is the metric of forest `i`'s prediction, both directions of when this succeeds included |
| EvalProps.ChunkNoFile | torch_em/shallow2deep/shallow2deep_eval.py:139-161 | without a file a chunk is the transposed table of the fresh scores; it fails with `IndexError` when a fresh score does, else with `ValueError` exactly when a forest is named "enhancer" |
| EvalProps.ChunkSucceeds | torch_em/shallow2deep/shallow2deep_eval.py:139-161 | a chunk succeeds exactly when its forest loop does and no forest is named "enhancer"; with that name it raises `ValueError` and leaves the file the loop left |
| EvalProps.RfGrows | torch_em/shallow2deep/shallow2deep_eval.py:113-121 | a forest prediction never overwrites what the file holds |
| EvalProps.EnhGrows | torch_em/shallow2deep/shallow2deep_eval.py:129-136 | an enhancer prediction never overwrites what the file holds |
| EvalProps.ColumnGrows | torch_em/shallow2deep/shallow2deep_eval.py:141-155 | the file left after part of a forest's column extends the one it started with |
| EvalProps.ForestGrows | torch_em/shallow2deep/shallow2deep_eval.py:141-157 | the same over any number of forests |
| EvalProps.ChunkGrows | torch_em/shallow2deep/shallow2deep_eval.py:139-161 | the same for a chunk |
| EvalProps.SlicesGrow | torch_em/shallow2deep/shallow2deep_eval.py:168-171 | the same over any number of slices |
| EvalProps.EvaluateGrows | torch_em/shallow2deep/shallow2deep_eval.py:93-176 | `evaluate_enhancers` only adds predictions to the file: everything it held before is still there, unchanged |
| EvalProps.RfReplay | torch_em/shallow2deep/shallow2deep_eval.py:114-115 | a forest prediction that succeeded is found again, unchanged, in any file that extends the one it left |
| EvalProps.EnhReplay | torch_em/shallow2deep/shallow2deep_eval.py:130-131 | the same for an enhancer prediction |
| EvalProps.ColumnReplay | torch_em/shallow2deep/shallow2deep_eval.py:141-155 | part of a column, replayed on such a file, gives the same progress and stores nothing |
| EvalProps.ForestReplay | torch_em/shallow2deep/shallow2deep_eval.py:141-157 | the same for the first `n` forests |
| EvalProps.ChunkReplay | torch_em/shallow2deep/shallow2deep_eval.py:139-161 | a chunk run again on the file it left returns the same table and leaves the file as it is |
| EvalProps.SlicesReplay | torch_em/shallow2deep/shallow2deep_eval.py:168-171 | the same for the first `n` slices |
| EvalProps.EvaluateReplay | torch_em/shallow2deep/shallow2deep_eval.py:93-176 | after a successful run, a second run with the same `save_path` returns the same table and leaves the file as it is, so every prediction is read back rather than stored again |
| EvalProps.MeanConstant | torch_em/shallow2deep/shallow2deep_eval.py:172 | slices that all score alike average to that same table |
| EvalProps.SumEntry | torch_em/shallow2deep/shallow2deep_eval.py:171-172 | entry `(j, i)` of the element-wise sum of the slice tables is the sum of entry `(j, i)` over the slices |
| EvalProps.MeanEntry | torch_em/shallow2deep/shallow2deep_eval.py:172 | for aligned slice tables, entry `(j, i)` of the mean is the sum of entry `(j, i)` over the slices divided by their number |
| EvalProps.MeanWithin | torch_em/shallow2deep/shallow2deep_eval.py:172 | entry `(j, i)` of the mean lies within any bounds that entry `(j, i)` of every slice table keeps |
| EvalProps.SlicesLabelled | torch_em/shallow2deep/shallow2deep_eval.py:168-171 | every slice table of a successful run has the enhancer names and "rf-score" as rows and the forests as columns |
| EvalProps.EvaluateSlices | torch_em/shallow2deep/shallow2deep_eval.py:167-172 | 3d data taken slice by slice succeeds exactly when every slice does and there is at least one; the table then has the enhancer names and "rf-score" as rows and the forests as columns, and entry `(j, i)` is the average of entry `(j, i)` over the slice tables |
| EvalProps.MeanShape | torch_em/shallow2deep/shallow2deep_eval.py:172 | the mean keeps the labels and shape of the slice tables |
| Predictions.IndexOf | torch_em/shallow2deep/shallow2deep_eval.py:194 | finds the position of index `z` among the slices, or proves it is not there |
| Predictions.SetSliceDistinct | torch_em/shallow2deep/shallow2deep_eval.py:194 | `pred[z] = data` keeps the slice indices distinct |
| Predictions.Visit | torch_em/shallow2deep/shallow2deep_eval.py:184-198 | a dataset adds its name, or its parent's name when its last segment is an integer, and a group adds nothing; no other entry changes; a whole dataset is stored under its name and a slice makes the parent an entry of slices |
| Predictions.Gather | torch_em/shallow2deep/shallow2deep_eval.py:184-201 | the visits in order; no contract of its own: `GatherNames`, `GatherGathered` and `GatherDistinct` state its properties |
| Predictions.GatherNames | torch_em/shallow2deep/shallow2deep_eval.py:184-201 | the names gathered are exactly those of the datasets visited, a slice under its parent's name |
| Predictions.VisitFits | torch_em/shallow2deep/shallow2deep_eval.py:184-198 | in a hierarchical file, a slice's parent never holds a whole array, and the whole entries stay those of datasets |
| Predictions.VisitDistinct | torch_em/shallow2deep/shallow2deep_eval.py:184-198 | visiting keeps the indices of every entry of slices distinct |
| Predictions.GatherGathered | torch_em/shallow2deep/shallow2deep_eval.py:200-201 | the same as `VisitFits` after any number of visits |
| Predictions.GatherDistinct | torch_em/shallow2deep/shallow2deep_eval.py:200-201 | any file gathers distinct slice indices |
| Predictions.SortIncreasing | torch_em/shallow2deep/shallow2deep_eval.py:206 | `sorted(pred.items())` puts distinct indices in increasing order and keeps every slice |
| Predictions.SortSorted | torch_em/shallow2deep/shallow2deep_eval.py:206 | slices already in order stay as they are |
| Predictions.SortSlices | torch_em/shallow2deep/shallow2deep_eval.py:206 | the sorted slices are as many as the slices (`SortIncreasing` states the order and the permutation) |
| Predictions.GatherSorted | torch_em/shallow2deep/shallow2deep_eval.py:184-207 | sorting the slices gathered under any name puts them in increasing index order and keeps every one of them |
| Predictions.ToVol | torch_em/shallow2deep/shallow2deep_eval.py:203-207 | a whole array is returned as it is; a stack of slices has one leading entry per slice |
| Predictions.ToVols | torch_em/shallow2deep/shallow2deep_eval.py:209 | the result has the same names, each `to_vol` of its entry, and fails with `ValueError` exactly when one entry does |
| Predictions.LoadPredictions | torch_em/shallow2deep/shallow2deep_eval.py:179-211 | the loop over the visited nodes, with its mutated dictionary, computes `LoadSpec` |
| Predictions.LoadSpec | torch_em/shallow2deep/shallow2deep_eval.py:179-211 | on success the names loaded are exactly those of the datasets, a slice under its parent's name; the only error is `ValueError` |
| Predictions.GatherSlices | torch_em/shallow2deep/shallow2deep_eval.py:184-198 | the slices `0 .. n-1` of one prediction, visited in order, gather as `{0: s0, ..., n-1: s(n-1)}` under its name |
| Predictions.LoadSlices | torch_em/shallow2deep/shallow2deep_eval.py:179-211 | slices stored under keys that name them load back as their stack under the prediction's own name |
| Predictions.LoadRfSlices | torch_em/shallow2deep/shallow2deep_eval.py:179-211 | the per-slice datasets `name/0000`, `name/0001`, ... that the evaluation writes load back as their stack |
| Predictions.WholeLoaded | torch_em/shallow2deep/shallow2deep_eval.py:197-209 | a dataset whose last segment is not an integer is loaded as it is, under its own name |
| Selection.BelowTotal | torch_em/shallow2deep/shallow2deep_eval.py:33 | two different paths are ordered one way or the other |
| Selection.BelowTransitive | torch_em/shallow2deep/shallow2deep_eval.py:33 | the string order is transitive |
| Selection.Sort | torch_em/shallow2deep/shallow2deep_eval.py:33 | as many paths as were given (`SortSpec` states the order and the permutation) |
| Selection.SortSpec | torch_em/shallow2deep/shallow2deep_eval.py:33 | `rf_paths.sort()` orders the paths and keeps every one of them |
| Selection.FloorDivBounds | torch_em/shallow2deep/shallow2deep_eval.py:37 | `a // b` rounds down whatever the signs |
| Selection.Forward | torch_em/shallow2deep/shallow2deep_eval.py:37 | `s[::step]` has `Strides(len(s), step)` elements, all taken from `s` (`ForwardOffsets` states which) |
| Selection.EveryStep | torch_em/shallow2deep/shallow2deep_eval.py:37 | `s[::step]` raises `ValueError` exactly when the step is zero |
| Selection.Take | torch_em/shallow2deep/shallow2deep_eval.py:37 | `s[:n]`, a negative `n` counting from the end |
| Selection.ForwardOffsets | torch_em/shallow2deep/shallow2deep_eval.py:37 | element `k` of `s[::step]` is `s[k * step]` |
| Selection.BackwardAt | torch_em/shallow2deep/shallow2deep_eval.py:37 | element `k` of `s[::-step]` is element `k * step` counted from the end |
| Selection.SelectRegular | torch_em/shallow2deep/shallow2deep_eval.py:37 | `n_forests == 0` raises `ZeroDivisionError` |
| Selection.SelectTooMany | torch_em/shallow2deep/shallow2deep_eval.py:37 | asking for more forests than there are makes the step zero, so `ValueError` |
| Selection.SelectRegularSpec | torch_em/shallow2deep/shallow2deep_eval.py:32-37 | asking for `n` of at least `n` forests gives exactly `n`: the sorted paths at multiples of `len // n`, sorted, and all of them among the given paths |
| Selection.SelectNegative | torch_em/shallow2deep/shallow2deep_eval.py:37 | a negative count walks the sorted paths backwards with step `len // n` negated, then drops `abs(n)` from the end; without paths `ValueError` |
| Selection.BackwardTake | torch_em/shallow2deep/shallow2deep_eval.py:37 | `s[::-step][:n]` for a negative `n`: the backward stride without its last `abs(n)` elements |
| Transforms.PadTo | torch_em/transform/generic.py:21-26 | padding to `m` gives `max(len, m)` entries |
| Transforms.PadKeeps | torch_em/transform/generic.py:21-26 | padding adds leading ones and keeps the rest in place |
| Transforms.TileShape | torch_em/transform/generic.py:21-30 | as many axes as the larger of the rank and the number of repetitions (`TileExact`, `TileSucceeds` and `TileOnce` state the sizes) |
| Transforms.TileKind | torch_em/transform/generic.py:19-32 | tensors and arrays are tiled unless a tiled size is negative, which raises `RuntimeError` for a tensor and `ValueError` for an array; anything else raises `NotImplementedError` |
| Transforms.TileSpec | torch_em/transform/generic.py:17-32 | a tensor stays a tensor and an array an array |
| Transforms.TileForward | torch_em/transform/generic.py:17-32 | the rank check, then the branch on the input kind: the result of `TileSpec` |
| Transforms.Repeat | torch_em/transform/generic.py:21-28 | the two insertion loops and `repeat` give the padded shapes multiplied axis by axis |
| Transforms.TileRankChecked | torch_em/transform/generic.py:18-30 | with `match_shape_exactly` and a known shape, tiling fails exactly when the rank differs from the number of repetitions, the input is neither a tensor nor an array, or a tiled size is negative; a rank mismatch fails the assertion |
| Transforms.TileSucceeds | torch_em/transform/generic.py:18-30 | tiling a tensor or array succeeds exactly when the rank check passes and no tiled size is negative; output axis `i` is padded input axis `i` times padded repetition `i` |
| Transforms.TileExact | torch_em/transform/generic.py:28-30 | with matching ranks axis `i` is multiplied by repetition `i` |
| Transforms.NaturalRepsTile | torch_em/transform/generic.py:21-30 | repetition counts that are all non-negative never give a negative size |
| Transforms.TileNegative | torch_em/transform/generic.py:28-30 | a negative count against a non-empty axis makes `repeat` raise `RuntimeError` and `np.tile` raise `ValueError` |
| Transforms.TileOnce | torch_em/transform/generic.py:28-30 | repetitions of one keep the element count |
| Transforms.Chain | torch_em/transform/generic.py:40-44 | no transforms raise `IndexError`; one transform is applied to the inputs as it is |
| Transforms.ComposeCall | torch_em/transform/generic.py:40-44 | the loop that reassigns `outputs` computes `Chain` |
| Transforms.ChainFails | torch_em/transform/generic.py:40-44 | once a prefix of the chain raises, the whole chain raises the same |
| Transforms.ChainAppend | torch_em/transform/generic.py:40-44 | composing two chains runs the first, then the second on its unpacked outputs |
| Transforms.RescaleChannels | torch_em/transform/generic.py:52-54 | channel `c` of the result is channel `c` of the input resized; a 0-d input raises `TypeError`, no channels `ValueError` |
| Transforms.ChannelFlags | torch_em/transform/generic.py:57-64 | a list or tuple needs one flag per input (`AssertionError` otherwise), a single value is used for every input, no value means no input is per channel |
| Transforms.RescaleAll | torch_em/transform/generic.py:65-69 | output `k` is input `k` resized as its flag says; the first failure is raised |
| Transforms.RescaleCall | torch_em/transform/generic.py:56-72 | a flag list of the wrong length fails the assertion; a single output is returned unwrapped, and only a single one |
| Transforms.EveryIsBroadcast | torch_em/transform/generic.py:60-64 | a single flag behaves as the same flag listed once per input |
| Transforms.NoChannelsIsFalse | torch_em/transform/generic.py:57-58 | without `with_channels` every input is resized whole, as with the flag `False`, and nothing fails |
| Transforms.RescaleWhole | torch_em/transform/generic.py:57-72 | without `with_channels`, output `k` is input `k` resized, and a single input comes back on its own |

## Left out

- File and console I/O are not modelled: `torch.save`/`torch.load`, `os.makedirs`, `os.path.exists`, tqdm, `print`, warnings, the logger and the wandb finish call. The checkpoint folder is a map from slot name to a `Snapshot` record, and the dictionary is built from the record on load. A slot that does not exist is an absent key.
- Tensor computation is not modelled: forward, loss, backward, `optimizer.step`, `GradScaler`, autocast, `.to(device)`, `model.train()`/`eval()` and the content of `state_dict`s. Model, optimizer, scaler and scheduler states are counters of the updates applied to them. The validation loss and the timing of iterations are not modelled.
- The validation metric of a batch is a parameter: a function of the model state and the batch index. The best metric is a real or `inf`, but a batch metric is a real. So a batch metric of `inf`, which would give a mean of `inf` that never becomes the best, is not modelled, and neither is NaN.
- `from_checkpoint` and `_get_save_dict` are not modelled as operations, because they only do file I/O around `_get_trainer_kwargs` and `_initialize`. Their parts are `Manifest.ReadBack` and `TrainerProps.ResumeRestartsBest`.
- The run name that `_get_trainer_kwargs` derives from the checkpoint path is not modelled. `_generate_name` is modelled as "the configuration gave no name" (`Trainer.Finished`).
- Dynamic import by class path is membership of the path in a set of importable classes. `get_constructor_arguments` is not part of this model: the recorded arguments are given with each component.
- `Trainer.Assign`: the trainer's state is typed, so an entry of another kind (a float `iteration`, `inf` as an epoch, a state that is not a state dict) raises `TypeError` and changes nothing. Python assigns whatever the dictionary holds, and anything that goes wrong shows only later.
- `Trainer.LoadOne`: assigns through `Trainer.Assign`, so it refuses the same entries of another kind that Python would assign.
- `Trainer.DefaultTrainer.AssignPart`: the same, for the statements of the trainer object.
- `Trainer.DefaultTrainer.SaveCheckpoint`: the model starts with an empty manifest (`Trainer.Fresh`) and saves it. In the source a save before `_initialize` raises `AttributeError` when it reads `self.init_data` (default_trainer.py:279), which is only set at :257. `Trainer.Save` and `Trainer.Fresh` share this gap. `fit` never reaches that case: `TrainerProps.FitSavesManifest` proves that every checkpoint `fit` writes holds the manifest `_initialize` built. A save by a trainer without a name raises `AssertionError` in `checkpoint_folder` (:271) in the source; the model saves into its folder regardless. `fit` saves only after `Trainer.Budget` has ensured a name, which the epoch loop keeps (`Trainer.InitSpec`, `Trainer.LoopBounds`).
- `Trainer.Fresh`: the checkpoint folder is given at construction as what `./checkpoints/<name>` holds on disk. When the logger generates a name during `_initialize`, the model goes on using the folder it was given rather than the one of the generated name, and a later `fit` with a newly generated name does not switch folders either.
- `Trainer.CeilDiv`: computes `ceil(i / b)` exactly on integers. The source computes `np.ceil(float(i) / b)` in floating point, which can round differently for very large `i`.
- `Trainer.InitSpec`: the iteration count is a natural number; negative budgets are not modelled.
- IlastikPredicter, the bioimageio pipeline loading, `rf_channel` and the thread pool are not modelled. Forests and enhancers are given as opaque prediction functions, and so is the metric. The xarray dimension labels are not modelled: only the number of axes is checked.
- The prediction file is a flat map from hierarchical key to array. Groups, compression and `n_threads` are not modelled.
- `Evaluation.MeanTable`: keeps the row order of the first slice table. pandas `groupby("enhancer")` sorts the rows by enhancer name, and would merge an enhancer named "rf-score" with the baseline row. The mean is defined for slice tables of one shape (`Evaluation.Aligned`), which is all the evaluation produces (`EvalProps.SlicesLabelled`); other tables raise `ValueError` instead of being aligned by label as pandas would. Entry by entry, the mean is the average over the slices (`EvalProps.MeanEntry`).
- `Evaluation.Transpose`: fills `0.0` where a column is shorter than the number of rows, which no chunk produces.
- `Keys.ParseInt`: `int()` on a string is modelled for an optional sign and ASCII digits. Surrounding whitespace, underscores and non-ASCII digits are not modelled.
- `Predictions.Visit`: when a parent name already holds a whole array, the Python code would write into that array. The model starts a fresh set of slices instead. A hierarchical file never has this case (`Predictions.VisitFits`), because a dataset has no children.
- `visualize_pretrained_rfs` is modelled only for its subsampling lines. Listing the folder (`glob`) is I/O, and the paths are a parameter. The `sample_random` branch uses randomness and is not modelled. The rest of the function is feature computation, prediction and the napari viewer, none of which is modelled.
- `Transforms.TileSpec`: only shapes are tracked, not the elements; `np.tile` and `torch.repeat` agree on the shape they produce. A tensor with fewer repetitions than its rank is not modelled apart from the padding: the `repeat` that torch would reject never arises. A negative repetition count fails only where the tiled size it gives is negative, that is against an axis of non-zero length, because both libraries refuse a negative size; against an axis of length zero it gives size zero. Only the kind of exception is modelled, not its message.
- `Transforms.Chain`: the unpacking `trafo(*outputs)` is modelled as passing the sequence of outputs. A transform that returns a single non-iterable value is not modelled.
- `rescale` (skimage) is a parameter of `Rescale`, so its numerics are not modelled.
- String order is by code point (`Selection.Below`), as Python compares `str`.

=== FILE: arrays.dfy ===
/** N-dimensional arrays as the evaluation code uses them: a shape and the
    elements in row-major order. Only the operations the evaluation applies
    are modelled: adding leading singleton axes, indexing the leading axis
    and stacking along a new leading axis. */
module Arrays {
  import opened Common

  /** The number of elements of an array of this shape. */
  function Size(shape: seq<nat>): nat {
    if shape == [] then 1 else shape[0] * Size(shape[1..])
  }

  datatype Array = Array(shape: seq<nat>, values: seq<real>)

  /** An array whose element count agrees with its shape. */
  type NdArray = a: Array | |a.values| == Size(a.shape) witness Array([], [0.0])

  function Ndim(a: NdArray): nat {
    |a.shape|
  }

  function Ones(k: nat): (r: seq<nat>)
    ensures |r| == k && forall i :: 0 <= i < k ==> r[i] == 1
  {
    if k == 0 then [] else [1] + Ones(k - 1)
  }

  lemma {:induction false} SizeOnes(k: nat, shape: seq<nat>)
    ensures Size(Ones(k) + shape) == Size(shape)
  {
    if k > 0 {
      var s := Ones(k) + shape;
      assert s[0] == 1 && s[1..] == Ones(k - 1) + shape;
      SizeOnes(k - 1, shape);
    } else {
      assert Ones(k) + shape == shape;
    }
  }

  /** `a[(None,) * k]`: `k` new leading axes of length one; the elements
      stay as they are. */
  function Lead(a: NdArray, k: nat): (r: NdArray)
    ensures r.shape == Ones(k) + a.shape && r.values == a.values
    ensures Ndim(r) == k + Ndim(a)
  {
    SizeOnes(k, a.shape);
    Array(Ones(k) + a.shape, a.values)
  }

  lemma {:induction false} MulBound(i: nat, n: nat, m: nat)
    requires i < n
    ensures i * m + m <= n * m
    decreases n - i
  {
    assert (i + 1) * m == i * m + m;
    if i + 1 < n {
      MulBound(i + 1, n, m);
    }
  }

  /** `a[i]` on the leading axis: the `i`-th block of `Size(shape[1..])`
      elements. */
  function At(a: NdArray, i: nat): (r: NdArray)
    requires |a.shape| > 0 && i < a.shape[0]
    ensures r.shape == a.shape[1..]
  {
    var m := Size(a.shape[1..]);
    MulBound(i, a.shape[0], m);
    Array(a.shape[1..], a.values[i * m .. i * m + m])
  }

  /** `a[0]`: a 0-d array or an empty leading axis raises `IndexError`. */
  function First(a: NdArray): (r: Result<NdArray>)
    ensures r.Failure? <==> |a.shape| == 0 || a.shape[0] == 0
    ensures r.Failure? ==> r.error == IndexError
    ensures r.Success? ==> r.value.shape == a.shape[1..]
  {
    if |a.shape| == 0 || a.shape[0] == 0 then Failure(IndexError) else Success(At(a, 0))
  }

  function Concat(vs: seq<seq<real>>): seq<real> {
    if vs == [] then [] else vs[0] + Concat(vs[1..])
  }

  predicate SameShape(slices: seq<NdArray>) {
    forall k :: 0 <= k < |slices| ==> slices[k].shape == slices[0].shape
  }

  function ValuesOf(slices: seq<NdArray>): (r: seq<seq<real>>)
    ensures |r| == |slices| && forall k :: 0 <= k < |slices| ==> r[k] == slices[k].values
  {
    if slices == [] then [] else [slices[0].values] + ValuesOf(slices[1..])
  }

  lemma {:induction false} ConcatLength(vs: seq<seq<real>>, m: nat)
    requires forall k :: 0 <= k < |vs| ==> |vs[k]| == m
    ensures |Concat(vs)| == |vs| * m
  {
    if vs != [] {
      ConcatLength(vs[1..], m);
      assert |vs| * m == m + (|vs| - 1) * m;
    }
  }

  /** Block `k` of the concatenation of equally long blocks is block `k`. */
  lemma {:induction false} ConcatBlock(vs: seq<seq<real>>, m: nat, k: nat)
    requires forall i :: 0 <= i < |vs| ==> |vs[i]| == m
    requires k < |vs|
    ensures |Concat(vs)| == |vs| * m
    ensures k * m + m <= |Concat(vs)| && Concat(vs)[k * m .. k * m + m] == vs[k]
  {
    ConcatLength(vs, m);
    MulBound(k, |vs|, m);
    if k > 0 {
      ConcatBlock(vs[1..], m, k - 1);
      assert k * m == m + (k - 1) * m;
      assert Concat(vs) == vs[0] + Concat(vs[1..]);
    }
  }

  /** `np.concatenate([pz[None] for pz in slices], axis=0)`: the slices
      stacked along a new leading axis; no slices, or slices of different
      shapes, raise `ValueError`. */
  function Stack(slices: seq<NdArray>): (r: Result<NdArray>)
    ensures r.Failure? <==> slices == [] || !SameShape(slices)
    ensures r.Failure? ==> r.error == ValueError
    ensures r.Success? ==> r.value.shape == [|slices|] + slices[0].shape
  {
    if slices == [] || !SameShape(slices) then Failure(ValueError)
    else
      var inner := slices[0].shape;
      var vs := ValuesOf(slices);
      ConcatLength(vs, Size(inner));
      assert ([|slices|] + inner)[1..] == inner;
      Success(Array([|slices|] + inner, Concat(vs)))
  }

  /** Indexing a stack at `k` gives back slice `k`. */
  lemma StackAt(slices: seq<NdArray>, k: nat)
    requires Stack(slices).Success? && k < |slices|
    ensures At(Stack(slices).value, k) == slices[k]
  {
    var s := Stack(slices).value;
    var inner := slices[0].shape;
    assert s.shape[1..] == inner;
    ConcatBlock(ValuesOf(slices), Size(inner), k);
  }

  /** Indexing the leading axis of a lifted array gives it back. */
  lemma AtLead(a: NdArray)
    ensures At(Lead(a, 1), 0) == a
  {
    var l := Lead(a, 1);
    assert l.shape[1..] == a.shape;
  }
}

=== FILE: common.dfy ===
/** Shared failure-carrying datatypes. The Python exceptions that the modelled
    code raises are kept apart by kind, so that a contract can say which one. */
module Common {

  /** The kinds of exception raised by the modelled code. */
  datatype Error =
    | AssertionError
    | AttributeError
    | ImportError
    | IndexError
    | KeyError(key: string)
    | NotImplementedError
    | RuntimeError
    | TypeError
    | ValueError
    | ZeroDivisionError

  datatype Option<+T> = None | Some(value: T) {
    function GetOr(default: T): T {
      match this
      case Some(v) => v
      case None => default
    }
  }

  datatype Result<+T> = Success(value: T) | Failure(error: Error) {
    predicate IsFailure() {
      Failure?
    }

    function PropagateFailure<U>(): Result<U>
      requires Failure?
    {
      Failure(error)
    }

    function Extract(): T
      requires Success?
    {
      value
    }
  }

  /** The result of an operation that returns nothing but may raise. */
  datatype Outcome = Pass | Fail(error: Error)

  function Min(a: int, b: int): int {
    if a <= b then a else b
  }

  function Max(a: int, b: int): int {
    if a <= b then b else a
  }
}

=== FILE: eval_props.dfy ===
/** What the evaluation promises: without a file every score is the metric
    of a freshly computed prediction; with a file nothing stored is ever
    overwritten and a second run over the same file recomputes nothing and
    returns the same table; averaging over slices keeps a common table. */
module EvalProps {
  import opened Common
  import opened Arrays
  import opened Keys
  import opened Evaluation

  // ---------------------------------------------------------------------
  // Without a file

  /** The prediction of enhancer `enh` on the prediction of forest `f`. */
  function EnhOnForest(job: Job, enh: Enhancer, f: Forest, ndim: nat, x: NdArray): Result<NdArray> {
    First(RunEnhancer(job.predictionFunction, enh, f.predict(ndim, x)))
  }

  /** The scores of the first `n` enhancers on `p`, computed afresh: the
      error of the first output that has no leading axis to index. */
  function EnhancerScores(job: Job, p: NdArray, y: NdArray, n: nat): Result<seq<real>>
    requires n <= |job.enhancers|
    decreases n
  {
    if n == 0 then Success([])
    else
      var prev := EnhancerScores(job, p, y, n - 1);
      var q := First(RunEnhancer(job.predictionFunction, job.enhancers[n - 1], p));
      if prev.Failure? then prev
      else if q.Failure? then Failure(q.error)
      else Success(prev.value + [job.metric(q.value, y)])
  }

  /** The score columns of the first `n` forests, computed afresh. */
  function ForestScores(job: Job, ndim: nat, x: NdArray, y: NdArray, n: nat): Result<seq<seq<real>>>
    requires n <= |job.forests|
    decreases n
  {
    if n == 0 then Success([])
    else
      var prev := ForestScores(job, ndim, x, y, n - 1);
      var p := job.forests[n - 1].predict(ndim, x);
      var col := EnhancerScores(job, p, y, |job.enhancers|);
      if prev.Failure? then prev
      else if col.Failure? then Failure(col.error)
      else Success(prev.value + [col.value + [job.metric(p, y)]])
  }

  /** The fresh enhancer scores succeed exactly when every output has a
      leading axis to index, and then score `j` is the metric of enhancer
      `j`; otherwise the error is `IndexError`. */
  lemma {:induction false} EnhancerScoresMeaning(job: Job, p: NdArray, y: NdArray, n: nat)
    requires n <= |job.enhancers|
    ensures EnhancerScores(job, p, y, n).Success? <==>
              forall j :: 0 <= j < n ==> First(RunEnhancer(job.predictionFunction, job.enhancers[j], p)).Success?
    ensures EnhancerScores(job, p, y, n).Failure? ==> EnhancerScores(job, p, y, n).error == IndexError
    ensures EnhancerScores(job, p, y, n).Success? ==>
              var col := EnhancerScores(job, p, y, n).value;
              |col| == n &&
              forall j :: 0 <= j < n ==>
                col[j] == job.metric(First(RunEnhancer(job.predictionFunction, job.enhancers[j], p)).value, y)
    decreases n
  {
    if n > 0 {
      EnhancerScoresMeaning(job, p, y, n - 1);
    }
  }

  /** The progress inside forest `i` after `j` enhancers, computed
      afresh. */
  function FreshProgress(job: Job, ndim: nat, x: NdArray, y: NdArray, i: nat, j: nat): Result<Progress>
    requires i < |job.forests| && j <= |job.enhancers|
  {
    var done := ForestScores(job, ndim, x, y, i);
    var p := job.forests[i].predict(ndim, x);
    var column := EnhancerScores(job, p, y, j);
    if done.Failure? then Failure(done.error)
    else if column.Failure? then Failure(column.error)
    else Success(Progress(done.value, p, column.value))
  }

  /** Without a file, the enhancer loop computes the fresh scores. */
  lemma {:induction false} ColumnNoFile(job: Job, ndim: nat, x: NdArray, y: NdArray,
                                       axes: string, z: Option<nat>, i: nat, j: nat)
    requires i < |job.forests| && j <= |job.enhancers|
    ensures ColumnSpec(None, job, ndim, x, y, axes, z, i, j) == (FreshProgress(job, ndim, x, y, i, j), None)
    decreases i, 1, j
  {
    var p := job.forests[i].predict(ndim, x);
    if j == 0 {
      ForestNoFile(job, ndim, x, y, axes, z, i);
      assert EnhancerScores(job, p, y, 0).value == [];
    } else {
      ColumnNoFile(job, ndim, x, y, axes, z, i, j - 1);
      var prev := FreshProgress(job, ndim, x, y, i, j - 1);
      var enh := job.enhancers[j - 1];
      var q := First(RunEnhancer(job.predictionFunction, enh, p));
      assert EnhSpec(None, job.predictionFunction, enh, p, EnhKey(enh.name, job.forests[i].name, z), axes) == (q, None);
      if prev.Success? && q.Success? {
        assert FreshProgress(job, ndim, x, y, i, j) ==
               Success(prev.value.(column := prev.value.column + [job.metric(q.value, y)]));
      }
    }
  }

  /** Without a file, the forest loop computes the fresh scores. */
  lemma {:induction false} ForestNoFile(job: Job, ndim: nat, x: NdArray, y: NdArray,
                                       axes: string, z: Option<nat>, n: nat)
    requires n <= |job.forests|
    ensures ForestSpec(None, job, ndim, x, y, axes, z, n) == (ForestScores(job, ndim, x, y, n), None)
    decreases n, 0
  {
    if n > 0 {
      ColumnNoFile(job, ndim, x, y, axes, z, n - 1, |job.enhancers|);
      var prev := ForestScores(job, ndim, x, y, n - 1);
      var p := job.forests[n - 1].predict(ndim, x);
      var col := EnhancerScores(job, p, y, |job.enhancers|);
      if prev.Success? && col.Success? {
        assert FreshProgress(job, ndim, x, y, n - 1, |job.enhancers|) == Success(Progress(prev.value, p, col.value));
      }
    } else {
      assert ForestScores(job, ndim, x, y, 0).value == [];
    }
  }

  /** The fresh enhancer scores on forest `i` succeed. */
  predicate ForestRuns(job: Job, ndim: nat, x: NdArray, y: NdArray, i: nat)
    requires i < |job.forests|
  {
    EnhancerScores(job, job.forests[i].predict(ndim, x), y, |job.enhancers|).Success?
  }

  /** The fresh score columns of `n` forests succeed exactly when the
      enhancer scores of every forest do. */
  lemma {:induction false} ForestScoresSucceed(job: Job, ndim: nat, x: NdArray, y: NdArray, n: nat)
    requires n <= |job.forests|
    ensures ForestScores(job, ndim, x, y, n).Success? <==> forall i :: 0 <= i < n ==> ForestRuns(job, ndim, x, y, i)
    decreases n
  {
    if n > 0 {
      ForestScoresSucceed(job, ndim, x, y, n - 1);
      assert ForestScores(job, ndim, x, y, n).Success? <==>
             ForestScores(job, ndim, x, y, n - 1).Success? && ForestRuns(job, ndim, x, y, n - 1);
    }
  }

  /** When they succeed, column `i` of the fresh score columns is the
      enhancer scores of forest `i` followed by the metric of forest `i`
      itself. */
  lemma {:induction false} ForestScoresMeaning(job: Job, ndim: nat, x: NdArray, y: NdArray, n: nat)
    requires n <= |job.forests|
    ensures ForestScores(job, ndim, x, y, n).Success? ==>
              var cols := ForestScores(job, ndim, x, y, n).value;
              |cols| == n &&
              forall i :: 0 <= i < n ==>
                var p := job.forests[i].predict(ndim, x);
                EnhancerScores(job, p, y, |job.enhancers|).Success? &&
                cols[i] == EnhancerScores(job, p, y, |job.enhancers|).value + [job.metric(p, y)]
    decreases n
  {
    if n > 0 {
      ForestScoresMeaning(job, ndim, x, y, n - 1);
    }
  }

  /** The only error of the fresh score columns is `IndexError`. */
  lemma {:induction false} ForestScoresError(job: Job, ndim: nat, x: NdArray, y: NdArray, n: nat)
    requires n <= |job.forests|
    ensures ForestScores(job, ndim, x, y, n).Failure? ==> ForestScores(job, ndim, x, y, n).error == IndexError
    decreases n
  {
    if n > 0 {
      ForestScoresError(job, ndim, x, y, n - 1);
      EnhancerScoresMeaning(job, job.forests[n - 1].predict(ndim, x), y, |job.enhancers|);
    }
  }

  /** The fresh scores succeed exactly when every enhancer output has a
      leading axis to index; then entry `j` of column `i` is the metric of
      enhancer `j` on forest `i`, and the last entry the metric of forest
      `i` itself. */
  lemma FreshScores(job: Job, ndim: nat, x: NdArray, y: NdArray)
    ensures ForestScores(job, ndim, x, y, |job.forests|).Success? <==>
              forall i, j :: 0 <= i < |job.forests| && 0 <= j < |job.enhancers| ==>
                EnhOnForest(job, job.enhancers[j], job.forests[i], ndim, x).Success?
    ensures ForestScores(job, ndim, x, y, |job.forests|).Failure? ==>
              ForestScores(job, ndim, x, y, |job.forests|).error == IndexError
    ensures ForestScores(job, ndim, x, y, |job.forests|).Success? ==>
              var cols := ForestScores(job, ndim, x, y, |job.forests|).value;
              |cols| == |job.forests| &&
              forall i :: 0 <= i < |job.forests| ==>
                && |cols[i]| == |job.enhancers| + 1
                && cols[i][|job.enhancers|] == job.metric(job.forests[i].predict(ndim, x), y)
                && forall j :: 0 <= j < |job.enhancers| ==>
                     cols[i][j] == job.metric(EnhOnForest(job, job.enhancers[j], job.forests[i], ndim, x).value, y)
  {
    ForestScoresSucceed(job, ndim, x, y, |job.forests|);
    ForestScoresMeaning(job, ndim, x, y, |job.forests|);
    ForestScoresError(job, ndim, x, y, |job.forests|);
    forall i | 0 <= i < |job.forests| {
      EnhancerScoresMeaning(job, job.forests[i].predict(ndim, x), y, |job.enhancers|);
    }
  }

  /** Without a file, a chunk is the table of the fresh scores and the
      file stays absent. */
  lemma ChunkNoFile(job: Job, ndim: nat, x: NdArray, y: NdArray, axes: string, z: Option<nat>)
    ensures ChunkSpec(None, job, ndim, x, y, axes, z).1 == None
    ensures ChunkSpec(None, job, ndim, x, y, axes, z).0.Success? <==>
              ForestScores(job, ndim, x, y, |job.forests|).Success? && "enhancer" !in ForestNames(job.forests)
    ensures ChunkSpec(None, job, ndim, x, y, axes, z).0.Failure? ==>
              ChunkSpec(None, job, ndim, x, y, axes, z).0.error ==
              if ForestScores(job, ndim, x, y, |job.forests|).Success? then ValueError else IndexError
    ensures ChunkSpec(None, job, ndim, x, y, axes, z).0.Success? ==>
              ChunkSpec(None, job, ndim, x, y, axes, z).0.value.scores ==
              Transpose(ForestScores(job, ndim, x, y, |job.forests|).value, |job.enhancers| + 1)
  {
    ForestNoFile(job, ndim, x, y, axes, z, |job.forests|);
    FreshScores(job, ndim, x, y);
  }

  /** A chunk succeeds exactly when every forest does and no forest is
      named "enhancer"; that name makes the chunk raise `ValueError` after
      all its predictions are stored. */
  lemma ChunkSucceeds(store: Store, job: Job, ndim: nat, x: NdArray, y: NdArray, axes: string, z: Option<nat>)
    ensures ChunkSpec(store, job, ndim, x, y, axes, z).0.Success? <==>
              ForestSpec(store, job, ndim, x, y, axes, z, |job.forests|).0.Success?
              && "enhancer" !in ForestNames(job.forests)
    ensures ForestSpec(store, job, ndim, x, y, axes, z, |job.forests|).0.Success? && "enhancer" in ForestNames(job.forests) ==>
              ChunkSpec(store, job, ndim, x, y, axes, z) ==
              (Failure(ValueError), ForestSpec(store, job, ndim, x, y, axes, z, |job.forests|).1)
  {
  }

  // ---------------------------------------------------------------------
  // With a file: nothing stored is overwritten

  lemma RfGrows(store: Store, f: Forest, ndim: nat, x: NdArray, name: string, axes: string)
    ensures Extends(RfSpec(store, f, ndim, x, name, axes).1, store)
  {
  }

  lemma EnhGrows(store: Store, pf: Option<PredictionFunction>, enh: Enhancer, rfPred: NdArray, name: string, axes: string)
    ensures Extends(EnhSpec(store, pf, enh, rfPred, name, axes).1, store)
  {
  }

  lemma {:induction false} ColumnGrows(start: Store, job: Job, ndim: nat, x: NdArray, y: NdArray,
                                      axes: string, z: Option<nat>, i: nat, j: nat)
    requires i < |job.forests| && j <= |job.enhancers|
    ensures Extends(ColumnSpec(start, job, ndim, x, y, axes, z, i, j).1, start)
    decreases i, 1, j
  {
    if j == 0 {
      ForestGrows(start, job, ndim, x, y, axes, z, i);
      var (prev, s) := ForestSpec(start, job, ndim, x, y, axes, z, i);
      if prev.Success? {
        var f := job.forests[i];
        RfGrows(s, f, ndim, x, RfKey(f.name, z), axes);
        ExtendsTrans(ColumnSpec(start, job, ndim, x, y, axes, z, i, j).1, s, start);
      }
    } else {
      ColumnGrows(start, job, ndim, x, y, axes, z, i, j - 1);
      var (p, s) := ColumnSpec(start, job, ndim, x, y, axes, z, i, j - 1);
      if p.Success? {
        var enh := job.enhancers[j - 1];
        EnhGrows(s, job.predictionFunction, enh, p.value.rfPred, EnhKey(enh.name, job.forests[i].name, z), axes);
        ExtendsTrans(ColumnSpec(start, job, ndim, x, y, axes, z, i, j).1, s, start);
      }
    }
  }

  lemma {:induction false} ForestGrows(start: Store, job: Job, ndim: nat, x: NdArray, y: NdArray,
                                      axes: string, z: Option<nat>, n: nat)
    requires n <= |job.forests|
    ensures Extends(ForestSpec(start, job, ndim, x, y, axes, z, n).1, start)
    decreases n, 0
  {
    if n > 0 {
      ColumnGrows(start, job, ndim, x, y, axes, z, n - 1, |job.enhancers|);
    }
  }

  lemma ChunkGrows(store: Store, job: Job, ndim: nat, x: NdArray, y: NdArray, axes: string, z: Option<nat>)
    ensures Extends(ChunkSpec(store, job, ndim, x, y, axes, z).1, store)
  {
    ForestGrows(store, job, ndim, x, y, axes, z, |job.forests|);
  }

  lemma {:induction false} SlicesGrow(store: Store, job: Job, data: NdArray, labels: NdArray, n: nat)
    requires |data.shape| > 0 && data.shape == labels.shape && n <= data.shape[0]
    ensures Extends(SlicesSpec(store, job, data, labels, n).1, store)
    decreases n
  {
    if n > 0 {
      SlicesGrow(store, job, data, labels, n - 1);
      var (prev, s) := SlicesSpec(store, job, data, labels, n - 1);
      if prev.Success? {
        ChunkGrows(s, job, 2, At(data, n - 1), At(labels, n - 1), "yx", Some(n - 1));
        ExtendsTrans(SlicesSpec(store, job, data, labels, n).1, s, store);
      }
    }
  }

  /** `evaluate_enhancers` only adds predictions to the file: everything
      it held before is still there, unchanged. */
  lemma EvaluateGrows(store: Store, job: Job, data: NdArray, labels: NdArray, is2d: bool)
    ensures Extends(EvaluateSpec(store, job, data, labels, is2d).1, store)
  {
    if data.shape == labels.shape {
      var ndim := Ndim(data);
      if ndim == 2 || (ndim == 3 && !is2d) {
        ChunkGrows(store, job, if ndim == 2 || is2d then 2 else 3, data, labels, if ndim == 2 then "yx" else "zyx", None);
      } else if ndim == 3 && is2d {
        SlicesGrow(store, job, data, labels, data.shape[0]);
      }
    }
  }

  // ---------------------------------------------------------------------
  // With a file: a second run recomputes nothing

  /** A forest prediction that succeeded is found again in any file that
      extends the one it left behind. */
  lemma RfReplay(big: Store, store: Store, f: Forest, ndim: nat, x: NdArray, name: string, axes: string)
    requires RfSpec(store, f, ndim, x, name, axes).0.Success?
    requires Extends(big, RfSpec(store, f, ndim, x, name, axes).1)
    ensures RfSpec(big, f, ndim, x, name, axes) == (RfSpec(store, f, ndim, x, name, axes).0, big)
  {
  }

  lemma EnhReplay(big: Store, store: Store, pf: Option<PredictionFunction>, enh: Enhancer, rfPred: NdArray,
                  name: string, axes: string)
    requires EnhSpec(store, pf, enh, rfPred, name, axes).0.Success?
    requires Extends(big, EnhSpec(store, pf, enh, rfPred, name, axes).1)
    ensures EnhSpec(big, pf, enh, rfPred, name, axes) == (EnhSpec(store, pf, enh, rfPred, name, axes).0, big)
  {
  }

  lemma {:induction false} ColumnReplay(big: Store, start: Store, job: Job, ndim: nat, x: NdArray, y: NdArray,
                                       axes: string, z: Option<nat>, i: nat, j: nat)
    requires i < |job.forests| && j <= |job.enhancers|
    requires ColumnSpec(start, job, ndim, x, y, axes, z, i, j).0.Success?
    requires Extends(big, ColumnSpec(start, job, ndim, x, y, axes, z, i, j).1)
    ensures ColumnSpec(big, job, ndim, x, y, axes, z, i, j) == (ColumnSpec(start, job, ndim, x, y, axes, z, i, j).0, big)
    decreases i, 1, j, 1
  {
    if j == 0 {
      ColumnHeadReplay(big, start, job, ndim, x, y, axes, z, i);
    } else {
      ColumnTailReplay(big, start, job, ndim, x, y, axes, z, i, j);
    }
  }

  /** Replay of a column's forest prediction. */
  lemma {:induction false} ColumnHeadReplay(big: Store, start: Store, job: Job, ndim: nat, x: NdArray, y: NdArray,
                                           axes: string, z: Option<nat>, i: nat)
    requires i < |job.forests|
    requires ColumnSpec(start, job, ndim, x, y, axes, z, i, 0).0.Success?
    requires Extends(big, ColumnSpec(start, job, ndim, x, y, axes, z, i, 0).1)
    ensures ColumnSpec(big, job, ndim, x, y, axes, z, i, 0) == (ColumnSpec(start, job, ndim, x, y, axes, z, i, 0).0, big)
    decreases i, 1, 0, 0
  {
    var (prev, s) := ForestSpec(start, job, ndim, x, y, axes, z, i);
    var f := job.forests[i];
    var key := RfKey(f.name, z);
    RfGrows(s, f, ndim, x, key, axes);
    ExtendsTrans(big, RfSpec(s, f, ndim, x, key, axes).1, s);
    ForestReplay(big, start, job, ndim, x, y, axes, z, i);
    RfReplay(big, s, f, ndim, x, key, axes);
    RfStepReplay(big, start, job, ndim, x, y, axes, z, i);
  }

  /** Replay of a column's enhancer predictions up to the `j`-th. */
  lemma {:induction false} ColumnTailReplay(big: Store, start: Store, job: Job, ndim: nat, x: NdArray, y: NdArray,
                                           axes: string, z: Option<nat>, i: nat, j: nat)
    requires i < |job.forests| && 0 < j <= |job.enhancers|
    requires ColumnSpec(start, job, ndim, x, y, axes, z, i, j).0.Success?
    requires Extends(big, ColumnSpec(start, job, ndim, x, y, axes, z, i, j).1)
    ensures ColumnSpec(big, job, ndim, x, y, axes, z, i, j) == (ColumnSpec(start, job, ndim, x, y, axes, z, i, j).0, big)
    decreases i, 1, j, 0
  {
    var (p, s) := ColumnSpec(start, job, ndim, x, y, axes, z, i, j - 1);
    var enh := job.enhancers[j - 1];
    var key := EnhKey(enh.name, job.forests[i].name, z);
    EnhGrows(s, job.predictionFunction, enh, p.value.rfPred, key, axes);
    ExtendsTrans(big, EnhSpec(s, job.predictionFunction, enh, p.value.rfPred, key, axes).1, s);
    ColumnReplay(big, start, job, ndim, x, y, axes, z, i, j - 1);
    EnhReplay(big, s, job.predictionFunction, enh, p.value.rfPred, key, axes);
    EnhStepReplay(big, start, job, ndim, x, y, axes, z, i, j);
  }

  /** The forest step of a replay: the forests before and this forest's
      prediction are found again. */
  lemma RfStepReplay(big: Store, start: Store, job: Job, ndim: nat, x: NdArray, y: NdArray,
                     axes: string, z: Option<nat>, i: nat)
    requires i < |job.forests|
    requires ColumnSpec(start, job, ndim, x, y, axes, z, i, 0).0.Success?
    requires ForestSpec(big, job, ndim, x, y, axes, z, i) == (ForestSpec(start, job, ndim, x, y, axes, z, i).0, big)
    requires var f := job.forests[i];
             var s := ForestSpec(start, job, ndim, x, y, axes, z, i).1;
             RfSpec(big, f, ndim, x, RfKey(f.name, z), axes) == (RfSpec(s, f, ndim, x, RfKey(f.name, z), axes).0, big)
    ensures ColumnSpec(big, job, ndim, x, y, axes, z, i, 0) == (ColumnSpec(start, job, ndim, x, y, axes, z, i, 0).0, big)
  {
  }

  /** The enhancer step of a replay: the enhancers before and this
      enhancer's prediction are found again. */
  lemma EnhStepReplay(big: Store, start: Store, job: Job, ndim: nat, x: NdArray, y: NdArray,
                      axes: string, z: Option<nat>, i: nat, j: nat)
    requires i < |job.forests| && 0 < j <= |job.enhancers|
    requires ColumnSpec(start, job, ndim, x, y, axes, z, i, j).0.Success?
    requires ColumnSpec(big, job, ndim, x, y, axes, z, i, j - 1) == (ColumnSpec(start, job, ndim, x, y, axes, z, i, j - 1).0, big)
    requires var (p, s) := ColumnSpec(start, job, ndim, x, y, axes, z, i, j - 1);
             var enh := job.enhancers[j - 1];
             var key := EnhKey(enh.name, job.forests[i].name, z);
             p.Success? ==>
               EnhSpec(big, job.predictionFunction, enh, p.value.rfPred, key, axes)
               == (EnhSpec(s, job.predictionFunction, enh, p.value.rfPred, key, axes).0, big)
    ensures ColumnSpec(big, job, ndim, x, y, axes, z, i, j) == (ColumnSpec(start, job, ndim, x, y, axes, z, i, j).0, big)
  {
  }

  lemma {:induction false} ForestReplay(big: Store, start: Store, job: Job, ndim: nat, x: NdArray, y: NdArray,
                                       axes: string, z: Option<nat>, n: nat)
    requires n <= |job.forests|
    requires ForestSpec(start, job, ndim, x, y, axes, z, n).0.Success?
    requires Extends(big, ForestSpec(start, job, ndim, x, y, axes, z, n).1)
    ensures ForestSpec(big, job, ndim, x, y, axes, z, n) == (ForestSpec(start, job, ndim, x, y, axes, z, n).0, big)
    decreases n, 0
  {
    if n > 0 {
      ColumnReplay(big, start, job, ndim, x, y, axes, z, n - 1, |job.enhancers|);
    }
  }

  /** A chunk that succeeded, run again on the file it left behind, finds
      every prediction stored: it returns the same table and leaves the
      file as it is. */
  lemma ChunkReplay(store: Store, job: Job, ndim: nat, x: NdArray, y: NdArray, axes: string, z: Option<nat>)
    requires ChunkSpec(store, job, ndim, x, y, axes, z).0.Success?
    ensures var (t, s) := ChunkSpec(store, job, ndim, x, y, axes, z);
            ChunkSpec(s, job, ndim, x, y, axes, z) == (t, s)
  {
    var (cols, s) := ForestSpec(store, job, ndim, x, y, axes, z, |job.forests|);
    ForestReplay(s, store, job, ndim, x, y, axes, z, |job.forests|);
  }

  lemma {:induction false} ChunkReplayInto(big: Store, store: Store, job: Job, ndim: nat, x: NdArray, y: NdArray,
                                          axes: string, z: Option<nat>)
    requires ChunkSpec(store, job, ndim, x, y, axes, z).0.Success?
    requires Extends(big, ChunkSpec(store, job, ndim, x, y, axes, z).1)
    ensures ChunkSpec(big, job, ndim, x, y, axes, z) == (ChunkSpec(store, job, ndim, x, y, axes, z).0, big)
  {
    ForestReplay(big, store, job, ndim, x, y, axes, z, |job.forests|);
  }

  lemma {:induction false} SlicesReplay(big: Store, store: Store, job: Job, data: NdArray, labels: NdArray, n: nat)
    requires |data.shape| > 0 && data.shape == labels.shape && n <= data.shape[0]
    requires SlicesSpec(store, job, data, labels, n).0.Success?
    requires Extends(big, SlicesSpec(store, job, data, labels, n).1)
    ensures SlicesSpec(big, job, data, labels, n) == (SlicesSpec(store, job, data, labels, n).0, big)
    decreases n
  {
    if n > 0 {
      SliceReplayStep(big, store, job, data, labels, n);
      SlicesReplay(big, store, job, data, labels, n - 1);
    }
  }

  /** One slice of `SlicesReplay`: the file left after `n` slices extends
      the one left after `n - 1`, and a replay of those `n - 1` extends to
      the `n`-th. */
  lemma SliceReplayStep(big: Store, store: Store, job: Job, data: NdArray, labels: NdArray, n: nat)
    requires |data.shape| > 0 && data.shape == labels.shape && 0 < n <= data.shape[0]
    requires SlicesSpec(store, job, data, labels, n).0.Success?
    requires Extends(big, SlicesSpec(store, job, data, labels, n).1)
    ensures SlicesSpec(store, job, data, labels, n - 1).0.Success?
    ensures Extends(big, SlicesSpec(store, job, data, labels, n - 1).1)
    ensures SlicesSpec(big, job, data, labels, n - 1) == (SlicesSpec(store, job, data, labels, n - 1).0, big) ==>
              SlicesSpec(big, job, data, labels, n) == (SlicesSpec(store, job, data, labels, n).0, big)
  {
    var (prev, s) := SlicesSpec(store, job, data, labels, n - 1);
    var x, y := At(data, n - 1), At(labels, n - 1);
    ChunkGrows(s, job, 2, x, y, "yx", Some(n - 1));
    ExtendsTrans(big, SlicesSpec(store, job, data, labels, n).1, s);
    ChunkReplayInto(big, s, job, 2, x, y, "yx", Some(n - 1));
  }

  /** `evaluate_enhancers` run a second time with the same `save_path`
      returns the same table without computing any prediction and without
      changing the file. */
  lemma EvaluateReplay(store: Store, job: Job, data: NdArray, labels: NdArray, is2d: bool)
    requires EvaluateSpec(store, job, data, labels, is2d).0.Success?
    ensures var (t, s) := EvaluateSpec(store, job, data, labels, is2d);
            EvaluateSpec(s, job, data, labels, is2d) == (t, s)
  {
    var ndim := Ndim(data);
    var s := EvaluateSpec(store, job, data, labels, is2d).1;
    if ndim == 2 || (ndim == 3 && !is2d) {
      ChunkReplay(store, job, if ndim == 2 || is2d then 2 else 3, data, labels, if ndim == 2 then "yx" else "zyx", None);
    } else {
      SlicesReplay(s, store, job, data, labels, data.shape[0]);
    }
  }

  // ---------------------------------------------------------------------
  // Averaging over slices

  lemma {:induction false} SumConstant(tables: seq<Table>, t: Table)
    requires WellShaped(t) && forall k :: 0 <= k < |tables| ==> tables[k] == t
    ensures var sum := SumScores(tables, |t.scores|, |t.columns|);
            forall j, i :: 0 <= j < |t.scores| && 0 <= i < |t.columns| ==>
              sum[j][i] == |tables| as real * t.scores[j][i]
    decreases |tables|
  {
    if tables != [] {
      SumConstant(tables[..|tables| - 1], t);
    }
  }

  lemma MeanOfSum(n: real, a: real)
    requires n > 0.0
    ensures (n * a) / n == a
  {
  }

  /** Slices that all score alike average to that same table. */
  lemma MeanConstant(tables: seq<Table>, t: Table)
    requires WellShaped(t) && tables != [] && forall k :: 0 <= k < |tables| ==> tables[k] == t
    ensures MeanTable(tables) == Success(t)
  {
    SumConstant(tables, t);
    assert Aligned(tables);
    var n := |tables| as real;
    var m := MeanTable(tables).value;
    var sum := SumScores(tables, |t.scores|, |t.columns|);
    forall j | 0 <= j < |t.scores|
      ensures m.scores[j] == t.scores[j]
    {
      forall i | 0 <= i < |t.columns|
        ensures m.scores[j][i] == t.scores[j][i]
      {
        var a := t.scores[j][i];
        assert sum[j][i] == n * a;
        MeanOfSum(n, a);
        assert m.scores[j][i] == sum[j][i] / n;
      }
    }
    assert m.scores == t.scores;
  }

  /** Entry `(j, i)` of every slice table, in slice order. */
  function EntryOver(tables: seq<Table>, j: nat, i: nat): (r: seq<real>)
    requires forall k :: 0 <= k < |tables| ==> j < |tables[k].scores| && i < |tables[k].scores[j]|
    ensures |r| == |tables| && forall k :: 0 <= k < |tables| ==> r[k] == tables[k].scores[j][i]
  {
    seq(|tables|, k requires 0 <= k < |tables| => tables[k].scores[j][i])
  }

  /** The sum of a sequence of scores. */
  function Total(xs: seq<real>): real
    decreases |xs|
  {
    if xs == [] then 0.0 else Total(xs[..|xs| - 1]) + xs[|xs| - 1]
  }

  lemma {:induction false} TotalBounds(xs: seq<real>, lo: real, hi: real)
    requires forall k :: 0 <= k < |xs| ==> lo <= xs[k] <= hi
    ensures |xs| as real * lo <= Total(xs) <= |xs| as real * hi
    decreases |xs|
  {
    if xs != [] {
      TotalBounds(xs[..|xs| - 1], lo, hi);
      assert (|xs| - 1) as real * lo + lo == |xs| as real * lo;
      assert (|xs| - 1) as real * hi + hi == |xs| as real * hi;
    }
  }

  /** Entry `(j, i)` of the element-wise sum is the sum of entry `(j, i)`
      over the tables. */
  lemma {:induction false} SumEntry(tables: seq<Table>, rows: nat, cols: nat, j: nat, i: nat)
    requires forall t :: 0 <= t < |tables| ==>
               |tables[t].scores| == rows && forall j :: 0 <= j < rows ==> |tables[t].scores[j]| == cols
    requires j < rows && i < cols
    ensures SumScores(tables, rows, cols)[j][i] == Total(EntryOver(tables, j, i))
    decreases |tables|
  {
    if tables != [] {
      var front := tables[..|tables| - 1];
      SumEntry(front, rows, cols, j, i);
      assert EntryOver(tables, j, i)[..|tables| - 1] == EntryOver(front, j, i);
    }
  }

  /** `groupby("enhancer").mean()`: entry `(j, i)` of the mean is the
      average of entry `(j, i)` over the slice tables. */
  lemma MeanEntry(tables: seq<Table>, j: nat, i: nat)
    requires Aligned(tables) && j < |tables[0].scores| && i < |tables[0].columns|
    ensures MeanTable(tables).Success?
    ensures MeanTable(tables).value.scores[j][i] == Total(EntryOver(tables, j, i)) / |tables| as real
  {
    SumEntry(tables, |tables[0].scores|, |tables[0].columns|, j, i);
  }

  /** The mean of an entry lies within the bounds of that entry over the
      slices. */
  lemma MeanWithin(tables: seq<Table>, j: nat, i: nat, lo: real, hi: real)
    requires Aligned(tables) && j < |tables[0].scores| && i < |tables[0].columns|
    requires forall k :: 0 <= k < |tables| ==> lo <= tables[k].scores[j][i] <= hi
    ensures MeanTable(tables).Success?
    ensures lo <= MeanTable(tables).value.scores[j][i] <= hi
  {
    MeanEntry(tables, j, i);
    var xs := EntryOver(tables, j, i);
    TotalBounds(xs, lo, hi);
    DivWithin(Total(xs), |tables| as real, lo, hi);
  }

  lemma DivWithin(s: real, n: real, lo: real, hi: real)
    requires n > 0.0 && n * lo <= s <= n * hi
    ensures lo <= s / n <= hi
  {
    var q := s / n;
    assert q * n == s;
    assert (q - lo) * n >= 0.0;
    assert (hi - q) * n >= 0.0;
  }

  /** Every slice table of a successful run is labelled with the enhancer
      names and "rf-score", and has one column per forest. */
  lemma {:induction false} SlicesLabelled(store: Store, job: Job, data: NdArray, labels: NdArray, n: nat)
    requires |data.shape| > 0 && data.shape == labels.shape && n <= data.shape[0]
    requires SlicesSpec(store, job, data, labels, n).0.Success?
    ensures forall k :: 0 <= k < n ==>
              var t := SlicesSpec(store, job, data, labels, n).0.value[k];
              WellShaped(t) && t.enhancer == EnhancerNames(job.enhancers) + ["rf-score"]
              && t.columns == ForestNames(job.forests)
    decreases n
  {
    if n > 0 {
      SlicesLabelled(store, job, data, labels, n - 1);
    }
  }

  /** 3d data taken slice by slice: the evaluation succeeds exactly when
      every slice does and there is at least one; the table then carries
      the enhancer names and "rf-score" as rows and the forests as
      columns, and entry `(j, i)` is the average of that entry over the
      slices. */
  lemma EvaluateSlices(store: Store, job: Job, data: NdArray, labels: NdArray, j: nat, i: nat)
    requires data.shape == labels.shape && Ndim(data) == 3
    ensures var (r, s) := EvaluateSpec(store, job, data, labels, true);
            var (tables, s') := SlicesSpec(store, job, data, labels, data.shape[0]);
            && s == s'
            && (r.Success? <==> tables.Success? && data.shape[0] > 0)
            && (r.Failure? && tables.Success? ==> r.error == ValueError)
            && (r.Success? ==>
                  && WellShaped(r.value)
                  && r.value.enhancer == EnhancerNames(job.enhancers) + ["rf-score"]
                  && r.value.columns == ForestNames(job.forests)
                  && (j < |r.value.scores| && i < |r.value.columns| ==>
                        r.value.scores[j][i] == Total(EntryOver(tables.value, j, i)) / |tables.value| as real))
  {
    var n := data.shape[0];
    var (tables, s') := SlicesSpec(store, job, data, labels, n);
    if tables.Success? && n > 0 {
      SlicesLabelled(store, job, data, labels, n);
      var ts := tables.value;
      assert Aligned(ts);
      MeanShape(ts);
      if j < |ts[0].scores| && i < |ts[0].columns| {
        MeanEntry(ts, j, i);
      }
    }
  }

  /** The mean of the slice tables keeps their labels and shape. */
  lemma MeanShape(tables: seq<Table>)
    requires tables != [] && WellShaped(tables[0]) && forall k :: 0 <= k < |tables| ==> tables[k].enhancer == tables[0].enhancer && tables[k].columns == tables[0].columns && WellShaped(tables[k])
    ensures MeanTable(tables).Success? && WellShaped(MeanTable(tables).value)
    ensures MeanTable(tables).value.enhancer == tables[0].enhancer && MeanTable(tables).value.columns == tables[0].columns
  {
  }
}

=== FILE: evaluation.dfy ===
/** `evaluate_enhancers`: every enhancer is scored on the prediction of
    every random forest, and every forest on its own prediction; the
    predictions can be kept in a file under hierarchical keys, which makes
    every prediction get-or-compute. */
module Evaluation {
  import opened Common
  import opened Arrays
  import opened Keys

  /** The forest of one ilastik project: its name and its prediction for a
      given model dimensionality and input. */
  datatype Forest = Forest(name: string, predict: (nat, NdArray) -> NdArray)

  /** An enhancer: its name and its prediction pipeline. */
  datatype Enhancer = Enhancer(name: string, pipeline: NdArray -> NdArray)

  /** `prediction_function(enh, rf_pred)`, used instead of the pipeline
      when given. */
  type PredictionFunction = (NdArray -> NdArray, NdArray) -> NdArray

  /** The arguments of `evaluate_enhancers` that stay fixed over all
      chunks: the forests and enhancers in their dictionary order, the
      optional prediction function and the metric. */
  datatype Job = Job(forests: seq<Forest>, enhancers: seq<Enhancer>,
                     predictionFunction: Option<PredictionFunction>,
                     metric: (NdArray, NdArray) -> real)

  /** `enh(x) if prediction_function is None else prediction_function(enh, x)`. */
  function RunEnhancer(pf: Option<PredictionFunction>, enh: Enhancer, x: NdArray): NdArray {
    if pf.None? then enh.pipeline(x) else pf.value(enh.pipeline, x)
  }

  /** The datasets of the file at `save_path`, or `None` when there is no
      `save_path`. */
  type Store = Option<map<string, NdArray>>

  /** A store that holds everything `small` holds, unchanged. */
  predicate Extends(big: Store, small: Store) {
    big.Some? == small.Some? &&
    (small.Some? ==> forall k :: k in small.value ==> k in big.value && big.value[k] == small.value[k])
  }

  lemma ExtendsTrans(a: Store, b: Store, c: Store)
    requires Extends(a, b) && Extends(b, c)
    ensures Extends(a, c)
  {
  }

  /** The number of leading singleton axes that bring `p` to `|axes| + 2`
      dimensions; `(None,) * k` with `k <= 0` adds none. */
  function Missing(p: NdArray, axes: string): nat {
    if |axes| + 2 > Ndim(p) then |axes| + 2 - Ndim(p) else 0
  }

  /** `require_rf_prediction`. Without a file: the forest's prediction.
      With one: a stored prediction is returned as it is; otherwise the
      prediction gains leading singleton axes up to `len(axes) + 2`
      dimensions (an assertion checks it got there), is stored and
      returned. */
  function RfSpec(store: Store, f: Forest, ndim: nat, x: NdArray, name: string, axes: string): (r: (Result<NdArray>, Store))
    ensures Extends(r.1, store)
    ensures store.Some? && r.0.Success? ==> name in r.1.value && r.1.value[name] == r.0.value
  {
    match store
    case None => (Success(f.predict(ndim, x)), None)
    case Some(m) =>
      if name in m then (Success(m[name]), store)
      else
        var p := f.predict(ndim, x);
        var lifted := Lead(p, Missing(p, axes));
        if Ndim(lifted) != |axes| + 2 then (Failure(AssertionError), store)
        else (Success(lifted), Some(m[name := lifted]))
  }

  /** `require_enh_prediction`. Without a file: the enhancer's output with
      its leading axis indexed away. With one: a stored prediction is
      returned as it is; otherwise the forest prediction is labelled with
      the axes `("b", "c") + axes` (which needs `len(axes) + 2` dimensions),
      run through the enhancer, indexed at 0, stored and returned. */
  function EnhSpec(store: Store, pf: Option<PredictionFunction>, enh: Enhancer, rfPred: NdArray,
                   name: string, axes: string): (r: (Result<NdArray>, Store))
    ensures Extends(r.1, store)
    ensures store.Some? && r.0.Success? ==> name in r.1.value && r.1.value[name] == r.0.value
  {
    match store
    case None => (First(RunEnhancer(pf, enh, rfPred)), None)
    case Some(m) =>
      if name in m then (Success(m[name]), store)
      else if Ndim(rfPred) != |axes| + 2 then (Failure(ValueError), store)
      else
        var p := First(RunEnhancer(pf, enh, rfPred));
        if p.Failure? then (p, store) else (p, Some(m[name := p.value]))
  }

  /** What `require_rf_prediction` returns and stores, case by case. */
  lemma RfCases(store: Store, f: Forest, ndim: nat, x: NdArray, name: string, axes: string)
    ensures var r := RfSpec(store, f, ndim, x, name, axes);
            && (store.None? ==> r == (Success(f.predict(ndim, x)), None))
            && (store.Some? && name in store.value ==> r == (Success(store.value[name]), store))
            && (store.Some? && name !in store.value && r.0.Success? ==>
                  && Ndim(r.0.value) == |axes| + 2
                  && r.0.value == Lead(f.predict(ndim, x), Missing(f.predict(ndim, x), axes))
                  && r.1 == Some(store.value[name := r.0.value]))
            && (store.Some? && name !in store.value && r.0.Failure? ==>
                  r == (Failure(AssertionError), store) && Ndim(f.predict(ndim, x)) > |axes| + 2)
  {
  }

  /** What `require_enh_prediction` returns and stores, case by case. */
  lemma EnhCases(store: Store, pf: Option<PredictionFunction>, enh: Enhancer, rfPred: NdArray,
                 name: string, axes: string)
    ensures var r := EnhSpec(store, pf, enh, rfPred, name, axes);
            && (store.None? ==> r == (First(RunEnhancer(pf, enh, rfPred)), None))
            && (store.Some? && name in store.value ==> r == (Success(store.value[name]), store))
            && (store.Some? && name !in store.value && Ndim(rfPred) != |axes| + 2 ==> r == (Failure(ValueError), store))
            && (store.Some? && name !in store.value && Ndim(rfPred) == |axes| + 2 ==>
                  r.0 == First(RunEnhancer(pf, enh, rfPred))
                  && r.1 == (if r.0.Success? then Some(store.value[name := r.0.value]) else store))
  {
  }

  /** Where the forest loop of `process_chunk` stands inside one forest:
      the score columns of the forests before it, the prediction of this
      forest and the scores of the enhancers run on it so far. */
  datatype Progress = Progress(done: seq<seq<real>>, rfPred: NdArray, column: seq<real>)

  /** The progress after the prediction of forest `i` and its first `j`
      enhancers: the forests before it, then `require_rf_prediction`, then
      one `require_enh_prediction` and one score per enhancer. */
  function ColumnSpec(start: Store, job: Job, ndim: nat, x: NdArray, y: NdArray,
                      axes: string, z: Option<nat>, i: nat, j: nat): (r: (Result<Progress>, Store))
    requires i < |job.forests| && j <= |job.enhancers|
    ensures r.0.Success? ==> |r.0.value.done| == i && |r.0.value.column| == j
    decreases i, 1, j
  {
    if j == 0 then
      var (prev, s) := ForestSpec(start, job, ndim, x, y, axes, z, i);
      if prev.Failure? then (Failure(prev.error), s)
      else
        var f := job.forests[i];
        var (rf, s') := RfSpec(s, f, ndim, x, RfKey(f.name, z), axes);
        if rf.Failure? then (Failure(rf.error), s') else (Success(Progress(prev.value, rf.value, [])), s')
    else
      var (p, s) := ColumnSpec(start, job, ndim, x, y, axes, z, i, j - 1);
      if p.Failure? then (p, s)
      else
        var enh := job.enhancers[j - 1];
        var key := EnhKey(enh.name, job.forests[i].name, z);
        var (q, s') := EnhSpec(s, job.predictionFunction, enh, p.value.rfPred, key, axes);
        if q.Failure? then (Failure(q.error), s')
        else (Success(p.value.(column := p.value.column + [job.metric(q.value, y)])), s')
  }

  /** The score columns of the first `i` forests: for each, the enhancer
      scores on its prediction, then its own score. */
  function ForestSpec(start: Store, job: Job, ndim: nat, x: NdArray, y: NdArray,
                      axes: string, z: Option<nat>, i: nat): (r: (Result<seq<seq<real>>>, Store))
    requires i <= |job.forests|
    ensures r.0.Success? ==> |r.0.value| == i
    decreases i, 0
  {
    if i == 0 then (Success([]), start)
    else
      var (p, s) := ColumnSpec(start, job, ndim, x, y, axes, z, i - 1, |job.enhancers|);
      if p.Failure? then (Failure(p.error), s)
      else (Success(p.value.done + [p.value.column + [job.metric(p.value.rfPred, y)]]), s)
  }

  /** Once an enhancer fails, the rest of the forest fails with its error. */
  lemma {:induction false} ColumnFails(start: Store, job: Job, ndim: nat, x: NdArray, y: NdArray,
                                      axes: string, z: Option<nat>, i: nat, j: nat, n: nat)
    requires i < |job.forests| && j <= n <= |job.enhancers|
    requires ColumnSpec(start, job, ndim, x, y, axes, z, i, j).0.Failure?
    ensures ColumnSpec(start, job, ndim, x, y, axes, z, i, n) == ColumnSpec(start, job, ndim, x, y, axes, z, i, j)
    decreases n
  {
    if n > j {
      ColumnFails(start, job, ndim, x, y, axes, z, i, j, n - 1);
    }
  }

  /** Once a forest fails, the chunk fails with its error. */
  lemma {:induction false} ForestFails(start: Store, job: Job, ndim: nat, x: NdArray, y: NdArray,
                                      axes: string, z: Option<nat>, i: nat, n: nat)
    requires i <= n <= |job.forests|
    requires ForestSpec(start, job, ndim, x, y, axes, z, i).0.Failure?
    ensures ForestSpec(start, job, ndim, x, y, axes, z, n) == ForestSpec(start, job, ndim, x, y, axes, z, i)
    decreases n
  {
    if n > i {
      ForestFails(start, job, ndim, x, y, axes, z, i, n - 1);
      ColumnFails(start, job, ndim, x, y, axes, z, n - 1, 0, |job.enhancers|);
    }
  }

  /** A score table: the "enhancer" column, the forest names as column
      names, one row of scores per entry of the "enhancer" column. */
  datatype Table = Table(enhancer: seq<string>, columns: seq<string>, scores: seq<seq<real>>)

  function EnhancerNames(es: seq<Enhancer>): (r: seq<string>)
    ensures |r| == |es| && forall j :: 0 <= j < |es| ==> r[j] == es[j].name
  {
    if es == [] then [] else [es[0].name] + EnhancerNames(es[1..])
  }

  function ForestNames(fs: seq<Forest>): (r: seq<string>)
    ensures |r| == |fs| && forall i :: 0 <= i < |fs| ==> r[i] == fs[i].name
  {
    if fs == [] then [] else [fs[0].name] + ForestNames(fs[1..])
  }

  /** Row `j`, column `i` of the table is entry `j` of column `i` (`0.0`
      where a column is shorter than `n`, which no chunk produces). */
  function Transpose(cols: seq<seq<real>>, n: nat): (r: seq<seq<real>>)
    ensures |r| == n && forall j :: 0 <= j < n ==> |r[j]| == |cols|
    ensures forall j, i :: 0 <= j < n && 0 <= i < |cols| && j < |cols[i]| ==> r[j][i] == cols[i][j]
  {
    seq(n, j requires 0 <= j < n =>
      seq(|cols|, i requires 0 <= i < |cols| => if j < |cols[i]| then cols[i][j] else 0.0))
  }

  /** A row-major table whose entries are those of the columns is their
      transpose. */
  lemma TransposeOf(rows: seq<seq<real>>, cols: seq<seq<real>>, n: nat)
    requires forall i :: 0 <= i < |cols| ==> |cols[i]| == n
    requires |rows| == n && forall j :: 0 <= j < n ==> |rows[j]| == |cols|
    requires forall j, i :: 0 <= j < n && 0 <= i < |cols| ==> rows[j][i] == cols[i][j]
    ensures rows == Transpose(cols, n)
  {
    var t := Transpose(cols, n);
    forall j | 0 <= j < n
      ensures rows[j] == t[j]
    {
    }
  }

  /** One row of scores per row label, one score per column. */
  predicate WellShaped(t: Table) {
    |t.scores| == |t.enhancer| && forall j :: 0 <= j < |t.scores| ==> |t.scores[j]| == |t.columns|
  }

  /** `process_chunk`: the table of `len(enhancers) + 1` rows and one
      column per forest, the last row holding the forests' own scores.
      The row labels go into a new column "enhancer", which `insert`
      refuses with `ValueError` when a forest already has that name; by
      then every prediction of the chunk is stored. */
  function ChunkSpec(store: Store, job: Job, ndim: nat, x: NdArray, y: NdArray,
                     axes: string, z: Option<nat>): (r: (Result<Table>, Store))
    ensures r.0.Success? ==>
              WellShaped(r.0.value) && r.0.value.columns == ForestNames(job.forests)
              && r.0.value.enhancer == EnhancerNames(job.enhancers) + ["rf-score"]
    ensures r.0.Success? ==> "enhancer" !in ForestNames(job.forests)
    ensures r.1 == ForestSpec(store, job, ndim, x, y, axes, z, |job.forests|).1
  {
    var (cols, s) := ForestSpec(store, job, ndim, x, y, axes, z, |job.forests|);
    if cols.Failure? then (Failure(cols.error), s)
    else if "enhancer" in ForestNames(job.forests) then (Failure(ValueError), s)
    else
      (Success(Table(EnhancerNames(job.enhancers) + ["rf-score"], ForestNames(job.forests),
                     Transpose(cols.value, |job.enhancers| + 1))), s)
  }

  // ---------------------------------------------------------------------
  // The dispatch on the number of dimensions

  /** The element-wise sum of the score tables of `tables`. */
  function SumScores(tables: seq<Table>, rows: nat, cols: nat): (r: seq<seq<real>>)
    requires forall t :: 0 <= t < |tables| ==>
               |tables[t].scores| == rows && forall j :: 0 <= j < rows ==> |tables[t].scores[j]| == cols
    ensures |r| == rows && forall j :: 0 <= j < rows ==> |r[j]| == cols
    decreases |tables|
  {
    if tables == [] then seq(rows, j => seq(cols, i => 0.0))
    else
      var rest := SumScores(tables[..|tables| - 1], rows, cols);
      var last := tables[|tables| - 1].scores;
      seq(rows, j requires 0 <= j < rows => seq(cols, i requires 0 <= i < cols => rest[j][i] + last[j][i]))
  }

  /** The tables of all slices have the shape of the first one. */
  predicate Aligned(tables: seq<Table>) {
    tables != [] &&
    forall t :: 0 <= t < |tables| ==>
      && |tables[t].scores| == |tables[0].scores|
      && forall j :: 0 <= j < |tables[0].scores| ==>
           |tables[t].scores[j]| == |tables[0].columns|
  }

  /** `pd.concat(tables).groupby("enhancer").mean()` on tables of one job:
      the mean of every score over the slices; no slices raise
      `ValueError`. */
  function MeanTable(tables: seq<Table>): (r: Result<Table>)
    ensures tables == [] ==> r == Failure(ValueError)
  {
    if !Aligned(tables) then Failure(ValueError)
    else
      var rows, cols := |tables[0].scores|, |tables[0].columns|;
      var sum := SumScores(tables, rows, cols);
      var n := |tables| as real;
      Success(Table(tables[0].enhancer, tables[0].columns,
                    seq(rows, j requires 0 <= j < rows => seq(cols, i requires 0 <= i < cols => sum[j][i] / n))))
  }

  /** The chunks of slices `0 .. n-1` of `data` and `labels`, in order. */
  function SlicesSpec(store: Store, job: Job, data: NdArray, labels: NdArray, n: nat): (r: (Result<seq<Table>>, Store))
    requires |data.shape| > 0 && data.shape == labels.shape && n <= data.shape[0]
    ensures r.0.Success? ==> |r.0.value| == n
    decreases n
  {
    if n == 0 then (Success([]), store)
    else
      var (prev, s) := SlicesSpec(store, job, data, labels, n - 1);
      if prev.Failure? then (prev, s)
      else
        var (t, s') := ChunkSpec(s, job, 2, At(data, n - 1), At(labels, n - 1), "yx", Some(n - 1));
        if t.Failure? then (Failure(t.error), s') else (Success(prev.value + [t.value]), s')
  }

  /** Once a slice fails, the evaluation fails with its error. */
  lemma {:induction false} SlicesFail(store: Store, job: Job, data: NdArray, labels: NdArray, k: nat, n: nat)
    requires |data.shape| > 0 && data.shape == labels.shape && k <= n <= data.shape[0]
    requires SlicesSpec(store, job, data, labels, k).0.Failure?
    ensures SlicesSpec(store, job, data, labels, n) == SlicesSpec(store, job, data, labels, k)
    decreases n
  {
    if n > k {
      SlicesFail(store, job, data, labels, k, n - 1);
    }
  }

  /** `evaluate_enhancers`: data and labels must agree in shape; 2d data and
      3d data taken as a whole are one chunk, 3d data taken slice by slice
      is one chunk per slice and the scores are averaged; any other number
      of dimensions raises `ValueError`. */
  function EvaluateSpec(store: Store, job: Job, data: NdArray, labels: NdArray, is2d: bool): (r: (Result<Table>, Store))
    ensures data.shape != labels.shape ==> r == (Failure(AssertionError), store)
    ensures data.shape == labels.shape && Ndim(data) != 2 && Ndim(data) != 3 ==> r == (Failure(ValueError), store)
    ensures data.shape == labels.shape && (Ndim(data) == 2 || (Ndim(data) == 3 && !is2d)) && r.0.Success? ==>
              r.0.value.enhancer == EnhancerNames(job.enhancers) + ["rf-score"]
              && r.0.value.columns == ForestNames(job.forests)
  {
    if data.shape != labels.shape then (Failure(AssertionError), store)
    else
      var ndim := Ndim(data);
      var modelNdim := if ndim == 2 || is2d then 2 else 3;
      if ndim == 2 || (ndim == 3 && !is2d) then
        ChunkSpec(store, job, modelNdim, data, labels, if ndim == 2 then "yx" else "zyx", None)
      else if ndim == 3 && is2d then
        var (tables, s) := SlicesSpec(store, job, data, labels, data.shape[0]);
        if tables.Failure? then (Failure(tables.error), s) else (MeanTable(tables.value), s)
      else (Failure(ValueError), store)
  }

  // ---------------------------------------------------------------------
  // The imperative code

  /** The file at `save_path`: its datasets by key. */
  class PredictionFile {
    var datasets: map<string, NdArray>

    constructor (datasets: map<string, NdArray>)
      ensures this.datasets == datasets
    {
      this.datasets := datasets;
    }
  }

  /** What the file holds, `None` when there is no file. */
  ghost function StoreOf(file: PredictionFile?): Store
    reads file
  {
    if file == null then None else Some(file.datasets)
  }

  method RequireRf(file: PredictionFile?, f: Forest, ndim: nat, x: NdArray, name: string, axes: string)
    returns (r: Result<NdArray>)
    modifies file
    ensures (r, StoreOf(file)) == RfSpec(old(StoreOf(file)), f, ndim, x, name, axes)
  {
    if file == null {
      return Success(f.predict(ndim, x));
    }
    if name in file.datasets {
      return Success(file.datasets[name]);
    }
    var pred := f.predict(ndim, x);
    pred := Lead(pred, Missing(pred, axes));
    if Ndim(pred) != |axes| + 2 {
      return Failure(AssertionError);
    }
    file.datasets := file.datasets[name := pred];
    return Success(pred);
  }

  method RequireEnh(file: PredictionFile?, enh: Enhancer, rfPred: NdArray, name: string,
                    pf: Option<PredictionFunction>, axes: string)
    returns (r: Result<NdArray>)
    modifies file
    ensures (r, StoreOf(file)) == EnhSpec(old(StoreOf(file)), pf, enh, rfPred, name, axes)
  {
    if file == null {
      var pred := RunEnhancer(pf, enh, rfPred);
      return First(pred);
    }
    if name in file.datasets {
      return Success(file.datasets[name]);
    }
    if Ndim(rfPred) != |axes| + 2 {
      return Failure(ValueError);
    }
    var pred := RunEnhancer(pf, enh, rfPred);
    var first := First(pred);
    if first.Failure? {
      return first;
    }
    file.datasets := file.datasets[name := first.value];
    return first;
  }

  /** The rows of a score array. */
  function Rows(a: array2<real>): (r: seq<seq<real>>)
    reads a
    ensures |r| == a.Length0 && forall j :: 0 <= j < a.Length0 ==> |r[j]| == a.Length1
    ensures forall j, i :: 0 <= j < a.Length0 && 0 <= i < a.Length1 ==> r[j][i] == a[j, i]
  {
    seq(a.Length0, j requires 0 <= j < a.Length0 reads a =>
      seq(a.Length1, i requires 0 <= i < a.Length1 reads a => a[j, i]))
  }

  /** Enhancer `j` scored on the prediction of forest `i`, written to row
      `j` of column `i`. */
  method ScoreEnhancer(file: PredictionFile?, job: Job, ndim: nat, x: NdArray, y: NdArray,
                       axes: string, z: Option<nat>, rfPred: NdArray, scores: array2<real>, i: nat, j: nat,
                       ghost start: Store, ghost p: Progress)
    returns (r: Result<real>)
    requires scores.Length0 == |job.enhancers| + 1 && scores.Length1 == |job.forests|
    requires i < |job.forests| && j < |job.enhancers|
    requires ColumnSpec(start, job, ndim, x, y, axes, z, i, j) == (Success(p), StoreOf(file)) && p.rfPred == rfPred
    modifies file, scores
    ensures r.Failure? ==> ColumnSpec(start, job, ndim, x, y, axes, z, i, j + 1) == (Failure(r.error), StoreOf(file))
    ensures r.Success? ==>
              ColumnSpec(start, job, ndim, x, y, axes, z, i, j + 1) == (Success(p.(column := p.column + [r.value])), StoreOf(file))
    ensures r.Success? ==> scores[j, i] == r.value
    ensures forall j', c :: 0 <= j' < scores.Length0 && 0 <= c < scores.Length1 && (j' != j || c != i) ==>
              scores[j', c] == old(scores[j', c])
  {
    var enh := job.enhancers[j];
    var key := EnhKey(enh.name, job.forests[i].name, z);
    var pred := RequireEnh(file, enh, rfPred, key, job.predictionFunction, axes);
    if pred.Failure? {
      return Failure(pred.error);
    }
    var score := job.metric(pred.value, y);
    scores[j, i] := score;
    return Success(score);
  }

  /** The enhancer scores on the prediction of forest `i`, written into
      column `i` of `scores`. */
  method ScoreEnhancers(file: PredictionFile?, job: Job, ndim: nat, x: NdArray, y: NdArray,
                        axes: string, z: Option<nat>, rfPred: NdArray, scores: array2<real>, i: nat,
                        ghost start: Store, ghost p: Progress)
    returns (r: Result<seq<real>>)
    requires scores.Length0 == |job.enhancers| + 1 && scores.Length1 == |job.forests| && i < |job.forests|
    requires ColumnSpec(start, job, ndim, x, y, axes, z, i, 0) == (Success(p), StoreOf(file)) && p.rfPred == rfPred
    modifies file, scores
    ensures r.Failure? ==>
              ColumnSpec(start, job, ndim, x, y, axes, z, i, |job.enhancers|) == (Failure(r.error), StoreOf(file))
    ensures r.Success? ==>
              ColumnSpec(start, job, ndim, x, y, axes, z, i, |job.enhancers|) == (Success(p.(column := r.value)), StoreOf(file))
    ensures r.Success? ==> forall j :: 0 <= j < |job.enhancers| ==> scores[j, i] == r.value[j]
    ensures forall j, c :: 0 <= j < scores.Length0 && 0 <= c < scores.Length1 && (j == |job.enhancers| || c != i) ==>
              scores[j, c] == old(scores[j, c])
  {
    var col: seq<real> := [];
    for j := 0 to |job.enhancers|
      invariant ColumnSpec(start, job, ndim, x, y, axes, z, i, j) == (Success(p.(column := col)), StoreOf(file))
      invariant |col| == j && forall j' :: 0 <= j' < j ==> scores[j', i] == col[j']
      invariant forall j', c :: 0 <= j' < scores.Length0 && 0 <= c < scores.Length1 && (j' >= j || c != i) ==>
                  scores[j', c] == old(scores[j', c])
    {
      var score := NextEnhancer(file, job, ndim, x, y, axes, z, rfPred, scores, i, j, start, p.(column := col));
      if score.Failure? {
        return Failure(score.error);
      }
      col := col + [score.value];
    }
    return Success(col);
  }

  /** One turn of the enhancer loop: enhancer `j` fills row `j` of column
      `i`, or its failure ends the forest. */
  method NextEnhancer(file: PredictionFile?, job: Job, ndim: nat, x: NdArray, y: NdArray,
                      axes: string, z: Option<nat>, rfPred: NdArray, scores: array2<real>, i: nat, j: nat,
                      ghost start: Store, ghost p: Progress)
    returns (r: Result<real>)
    requires scores.Length0 == |job.enhancers| + 1 && scores.Length1 == |job.forests|
    requires i < |job.forests| && j < |job.enhancers|
    requires ColumnSpec(start, job, ndim, x, y, axes, z, i, j) == (Success(p), StoreOf(file)) && p.rfPred == rfPred
    modifies file, scores
    ensures r.Failure? ==> ColumnSpec(start, job, ndim, x, y, axes, z, i, |job.enhancers|) == (Failure(r.error), StoreOf(file))
    ensures r.Success? ==>
              ColumnSpec(start, job, ndim, x, y, axes, z, i, j + 1) == (Success(p.(column := p.column + [r.value])), StoreOf(file))
    ensures r.Success? ==> scores[j, i] == r.value
    ensures forall j', c :: 0 <= j' < scores.Length0 && 0 <= c < scores.Length1 && (j' != j || c != i) ==>
              scores[j', c] == old(scores[j', c])
  {
    r := ScoreEnhancer(file, job, ndim, x, y, axes, z, rfPred, scores, i, j, start, p);
    if r.Failure? {
      ColumnFails(start, job, ndim, x, y, axes, z, i, j + 1, |job.enhancers|);
    }
  }

  /** One forest of `process_chunk`: its prediction, the enhancer scores
      on it in column `i`, and its own score in the last row; the columns
      `cols` already written stay as they are. */
  method ScoreForest(file: PredictionFile?, job: Job, ndim: nat, x: NdArray, y: NdArray,
                     axes: string, z: Option<nat>, scores: array2<real>, i: nat,
                     ghost start: Store, ghost cols: seq<seq<real>>)
    returns (r: Result<seq<real>>)
    requires scores.Length0 == |job.enhancers| + 1 && scores.Length1 == |job.forests| && i < |job.forests|
    requires ForestSpec(start, job, ndim, x, y, axes, z, i) == (Success(cols), StoreOf(file))
    modifies file, scores
    ensures r.Failure? ==> ForestSpec(start, job, ndim, x, y, axes, z, i + 1) == (Failure(r.error), StoreOf(file))
    ensures r.Success? ==> ForestSpec(start, job, ndim, x, y, axes, z, i + 1) == (Success(cols + [r.value]), StoreOf(file))
    ensures r.Success? ==> |r.value| == scores.Length0 && forall j :: 0 <= j < scores.Length0 ==> scores[j, i] == r.value[j]
    ensures forall j, c :: 0 <= j < scores.Length0 && 0 <= c < scores.Length1 && c != i ==>
              scores[j, c] == old(scores[j, c])
  {
    var f := job.forests[i];
    var rfPred := RequireRf(file, f, ndim, x, RfKey(f.name, z), axes);
    if rfPred.Failure? {
      ColumnFails(start, job, ndim, x, y, axes, z, i, 0, |job.enhancers|);
      return Failure(rfPred.error);
    }
    r := ScoreColumn(file, job, ndim, x, y, axes, z, rfPred.value, scores, i, start, cols);
  }

  /** The rest of one forest once its prediction `rfPred` is there: the
      enhancer scores in column `i` and the forest's own score below them. */
  method ScoreColumn(file: PredictionFile?, job: Job, ndim: nat, x: NdArray, y: NdArray,
                     axes: string, z: Option<nat>, rfPred: NdArray, scores: array2<real>, i: nat,
                     ghost start: Store, ghost cols: seq<seq<real>>)
    returns (r: Result<seq<real>>)
    requires scores.Length0 == |job.enhancers| + 1 && scores.Length1 == |job.forests| && i < |job.forests|
    requires ColumnSpec(start, job, ndim, x, y, axes, z, i, 0) == (Success(Progress(cols, rfPred, [])), StoreOf(file))
    modifies file, scores
    ensures r.Failure? ==> ForestSpec(start, job, ndim, x, y, axes, z, i + 1) == (Failure(r.error), StoreOf(file))
    ensures r.Success? ==> ForestSpec(start, job, ndim, x, y, axes, z, i + 1) == (Success(cols + [r.value]), StoreOf(file))
    ensures r.Success? ==> |r.value| == scores.Length0 && forall j :: 0 <= j < scores.Length0 ==> scores[j, i] == r.value[j]
    ensures forall j, c :: 0 <= j < scores.Length0 && 0 <= c < scores.Length1 && c != i ==>
              scores[j, c] == old(scores[j, c])
  {
    var col := ScoreEnhancers(file, job, ndim, x, y, axes, z, rfPred, scores, i, start, Progress(cols, rfPred, []));
    if col.Failure? {
      return Failure(col.error);
    }
    var score := job.metric(rfPred, y);
    scores[|job.enhancers|, i] := score;
    r := Success(col.value + [score]);
  }

  /** The first `n` columns of `scores` hold the score columns `cols`. */
  ghost predicate Written(scores: array2<real>, cols: seq<seq<real>>, n: nat)
    reads scores
  {
    |cols| == n &&
    forall c :: 0 <= c < n ==>
      |cols[c]| == scores.Length0 &&
      forall j :: 0 <= j < scores.Length0 && c < scores.Length1 ==> scores[j, c] == cols[c][j]
  }

  /** The forest loop of `process_chunk`: column `i` of `scores` receives
      the scores on forest `i`. */
  method ScoreForests(file: PredictionFile?, job: Job, ndim: nat, x: NdArray, y: NdArray,
                      axes: string, z: Option<nat>, scores: array2<real>)
    returns (r: Result<seq<seq<real>>>)
    requires scores.Length0 == |job.enhancers| + 1 && scores.Length1 == |job.forests|
    modifies file, scores
    ensures (r, StoreOf(file)) == ForestSpec(old(StoreOf(file)), job, ndim, x, y, axes, z, |job.forests|)
    ensures r.Success? ==> Written(scores, r.value, |job.forests|)
  {
    var cols: seq<seq<real>> := [];
    for i := 0 to |job.forests|
      invariant ForestSpec(old(StoreOf(file)), job, ndim, x, y, axes, z, i) == (Success(cols), StoreOf(file))
      invariant Written(scores, cols, i)
    {
      var col := NextForest(file, job, ndim, x, y, axes, z, scores, i, old(StoreOf(file)), cols);
      if col.Failure? {
        return Failure(col.error);
      }
      cols := cols + [col.value];
    }
    return Success(cols);
  }

  /** One turn of the forest loop: forest `i` fills column `i`, or its
      failure ends the whole loop. */
  method NextForest(file: PredictionFile?, job: Job, ndim: nat, x: NdArray, y: NdArray,
                    axes: string, z: Option<nat>, scores: array2<real>, i: nat,
                    ghost start: Store, ghost cols: seq<seq<real>>)
    returns (r: Result<seq<real>>)
    requires scores.Length0 == |job.enhancers| + 1 && scores.Length1 == |job.forests| && i < |job.forests|
    requires ForestSpec(start, job, ndim, x, y, axes, z, i) == (Success(cols), StoreOf(file))
    requires Written(scores, cols, i)
    modifies file, scores
    ensures r.Failure? ==> ForestSpec(start, job, ndim, x, y, axes, z, |job.forests|) == (Failure(r.error), StoreOf(file))
    ensures r.Success? ==> ForestSpec(start, job, ndim, x, y, axes, z, i + 1) == (Success(cols + [r.value]), StoreOf(file))
    ensures r.Success? ==> Written(scores, cols + [r.value], i + 1)
  {
    r := ScoreForest(file, job, ndim, x, y, axes, z, scores, i, start, cols);
    if r.Failure? {
      ForestFails(start, job, ndim, x, y, axes, z, i + 1, |job.forests|);
    }
  }

  /** `process_chunk`: fill the score array column by column, forest by
      forest, and label its rows. */
  method ProcessChunk(file: PredictionFile?, job: Job, ndim: nat, x: NdArray, y: NdArray,
                      axes: string, z: Option<nat>)
    returns (r: Result<Table>)
    modifies file
    ensures (r, StoreOf(file)) == ChunkSpec(old(StoreOf(file)), job, ndim, x, y, axes, z)
  {
    var e := |job.enhancers|;
    var scores := new real[e + 1, |job.forests|]((j, i) => 0.0);
    var cols := ScoreForests(file, job, ndim, x, y, axes, z, scores);
    if cols.Failure? {
      return Failure(cols.error);
    }
    if "enhancer" in ForestNames(job.forests) {
      return Failure(ValueError);
    }
    var table := Rows(scores);
    TransposeOf(table, cols.value, e + 1);
    return Success(Table(EnhancerNames(job.enhancers) + ["rf-score"], ForestNames(job.forests), table));
  }

  /** `evaluate_enhancers` after loading the enhancers and forests. */
  method EvaluateEnhancers(file: PredictionFile?, job: Job, data: NdArray, labels: NdArray, is2d: bool)
    returns (r: Result<Table>)
    modifies file
    ensures (r, StoreOf(file)) == EvaluateSpec(old(StoreOf(file)), job, data, labels, is2d)
  {
    if data.shape != labels.shape {
      return Failure(AssertionError);
    }
    var ndim := Ndim(data);
    var modelNdim := if ndim == 2 || is2d then 2 else 3;
    if ndim == 2 || (ndim == 3 && !is2d) {
      r := ProcessChunk(file, job, modelNdim, data, labels, if ndim == 2 then "yx" else "zyx", None);
    } else if ndim == 3 && is2d {
      var tables: seq<Table> := [];
      for z := 0 to data.shape[0]
        invariant SlicesSpec(old(StoreOf(file)), job, data, labels, z) == (Success(tables), StoreOf(file))
      {
        var t := ProcessChunk(file, job, 2, At(data, z), At(labels, z), "yx", Some(z));
        if t.Failure? {
          SlicesFail(old(StoreOf(file)), job, data, labels, z + 1, data.shape[0]);
          return Failure(t.error);
        }
        tables := tables + [t.value];
      }
      r := MeanTable(tables);
    } else {
      r := Failure(ValueError);
    }
  }
}

=== FILE: keys.dfy ===
/** The names under which the evaluation stores predictions, and the way
    `load_predictions` takes them apart again: `/`-separated paths whose last
    segment, for a per-slice prediction, is the slice index formatted with
    `{z:04}`. */
module Keys {
  import opened Common

  // ---------------------------------------------------------------------
  // Decimal numbers

  function DigitChar(d: nat): char
    requires d < 10
  {
    "0123456789"[d]
  }

  predicate IsDigit(c: char) {
    '0' <= c <= '9'
  }

  function DigitValue(c: char): nat
    requires IsDigit(c)
  {
    (c as int - '0' as int) as nat
  }

  /** The decimal digits of `n`, without leading zeros. */
  function Digits(n: nat): (r: string)
    ensures |r| > 0 && forall i :: 0 <= i < |r| ==> IsDigit(r[i])
    decreases n
  {
    if n < 10 then [DigitChar(n)] else Digits(n / 10) + [DigitChar(n % 10)]
  }

  function Zeros(k: nat): (r: string)
    ensures |r| == k && forall i :: 0 <= i < k ==> r[i] == '0'
  {
    if k == 0 then [] else "0" + Zeros(k - 1)
  }

  /** `f"{z:04}"`: the digits of `z` left-padded with zeros to width four. */
  function Pad4(z: nat): (r: string)
    ensures |r| >= 4 && forall i :: 0 <= i < |r| ==> IsDigit(r[i])
  {
    var d := Digits(z);
    if |d| >= 4 then d else Zeros(4 - |d|) + d
  }

  predicate AllDigits(s: string) {
    forall i :: 0 <= i < |s| ==> IsDigit(s[i])
  }

  /** The number a string of digits denotes. */
  function Value(s: string): nat
    requires AllDigits(s)
  {
    if s == [] then 0 else Value(s[..|s| - 1]) * 10 + DigitValue(s[|s| - 1])
  }

  /** `int(s)` for an optional sign followed by decimal digits; anything
      else raises `ValueError`, here `None`. */
  function ParseInt(s: string): (r: Option<int>)
    ensures r.Some? <==> (s != [] && AllDigits(s))
                         || (|s| > 1 && (s[0] == '-' || s[0] == '+') && AllDigits(s[1..]))
    ensures s != [] && AllDigits(s) ==> r == Some(Value(s))
    ensures |s| > 1 && s[0] == '+' && AllDigits(s[1..]) ==> r == Some(Value(s[1..]))
    ensures |s| > 1 && s[0] == '-' && AllDigits(s[1..]) ==> r == Some(-(Value(s[1..]) as int))
  {
    if s == [] then None
    else if s[0] == '-' || s[0] == '+' then
      var rest := s[1..];
      if rest != [] && AllDigits(rest) then Some(if s[0] == '-' then -(Value(rest) as int) else Value(rest))
      else None
    else if AllDigits(s) then Some(Value(s))
    else None
  }

  lemma {:induction false} ValueDigits(n: nat)
    ensures Value(Digits(n)) == n
    decreases n
  {
    if n >= 10 {
      var d := Digits(n);
      assert d[..|d| - 1] == Digits(n / 10);
      ValueDigits(n / 10);
    }
  }

  lemma {:induction false} ValueZeros(k: nat, d: string)
    requires AllDigits(d)
    ensures AllDigits(Zeros(k) + d) && Value(Zeros(k) + d) == Value(d)
    decreases |d|
  {
    var s := Zeros(k) + d;
    if d == [] {
      assert s == Zeros(k);
      ZerosValue(k);
    } else {
      assert s[..|s| - 1] == Zeros(k) + d[..|d| - 1];
      ValueZeros(k, d[..|d| - 1]);
    }
  }

  lemma {:induction false} ZerosValue(k: nat)
    ensures Value(Zeros(k)) == 0
  {
    if k > 0 {
      var z := Zeros(k);
      assert z[..|z| - 1] == Zeros(k - 1);
      ZerosValue(k - 1);
    }
  }

  lemma DigitsLength(n: nat)
    ensures n < 10 ==> |Digits(n)| == 1
    ensures n < 100 ==> |Digits(n)| <= 2
    ensures n < 1000 ==> |Digits(n)| <= 3
    ensures n < 10000 ==> |Digits(n)| <= 4
  {
    if n >= 10 {
      DigitsLength(n / 10);
    }
  }

  /** The padded slice index has at least four digits, exactly four below
      10000, and reads back as the index. */
  lemma Pad4Reads(z: nat)
    ensures |Pad4(z)| >= 4 && (z < 10000 ==> |Pad4(z)| == 4)
    ensures ParseInt(Pad4(z)) == Some(z)
  {
    DigitsLength(z);
    ValueDigits(z);
    var d := Digits(z);
    if |d| < 4 {
      ValueZeros(4 - |d|, d);
    }
    assert Pad4(z)[0] != '-' && Pad4(z)[0] != '+';
  }

  // ---------------------------------------------------------------------
  // Paths

  /** The index of the last `/` in `s`. */
  function LastSlash(s: string): (r: Option<nat>)
    ensures r.Some? ==> r.value < |s| && s[r.value] == '/' && '/' !in s[r.value + 1..]
    ensures r.None? ==> '/' !in s
  {
    if s == [] then None
    else if s[|s| - 1] == '/' then Some(|s| - 1)
    else
      var r := LastSlash(s[..|s| - 1]);
      assert s == s[..|s| - 1] + [s[|s| - 1]];
      if r.Some? then
        assert s[r.value + 1..] == s[..|s| - 1][r.value + 1..] + [s[|s| - 1]];
        r
      else None
  }

  /** `s.split("/")`. */
  function Split(s: string): (r: seq<string>)
    ensures |r| > 0
    decreases |s|
  {
    match LastSlash(s)
    case None => [s]
    case Some(k) => Split(s[..k]) + [s[k + 1..]]
  }

  /** `"/".join(parts)`. */
  function Join(parts: seq<string>): string {
    if parts == [] then ""
    else if |parts| == 1 then parts[0]
    else Join(parts[..|parts| - 1]) + "/" + parts[|parts| - 1]
  }

  /** `"/".join(name.split("/")[:-1])`. */
  function Parent(name: string): string {
    var parts := Split(name);
    Join(parts[..|parts| - 1])
  }

  /** `name.split("/")[-1]`. */
  function LastSegment(name: string): string {
    var parts := Split(name);
    parts[|parts| - 1]
  }

  lemma {:induction false} JoinSplit(s: string)
    ensures Join(Split(s)) == s
    decreases |s|
  {
    match LastSlash(s)
    case None =>
    case Some(k) =>
      JoinSplit(s[..k]);
      var parts := Split(s);
      assert parts[..|parts| - 1] == Split(s[..k]);
      assert s == s[..k] + "/" + s[k + 1..];
  }

  lemma SplitChild(p: string, seg: string)
    requires '/' !in seg
    ensures Split(p + "/" + seg) == Split(p) + [seg]
  {
    var s := p + "/" + seg;
    assert s[|p|] == '/' && s[..|p|] == p && s[|p| + 1..] == seg;
  }

  /** A child path splits back into its parent and its own name. */
  lemma ParentOfChild(p: string, seg: string)
    requires '/' !in seg
    ensures Parent(p + "/" + seg) == p && LastSegment(p + "/" + seg) == seg
  {
    SplitChild(p, seg);
    var parts := Split(p + "/" + seg);
    assert parts[..|parts| - 1] == Split(p);
    JoinSplit(p);
  }

  /** A name without `/` has itself as last segment and `""` as parent. */
  lemma TopLevel(name: string)
    requires '/' !in name
    ensures Parent(name) == "" && LastSegment(name) == name
  {
  }

  // ---------------------------------------------------------------------
  // Cache keys

  /** The key of a forest prediction: `rf_name`, or `f"{rf_name}/{z:04}"`
      for slice `z`. */
  function RfKey(rfName: string, z: Option<nat>): string {
    if z.None? then rfName else rfName + "/" + Pad4(z.value)
  }

  /** The key of an enhancer prediction: `f"{enh_name}/{rf_name}"`, or
      `f"{enh_name}/{rf_name}/{z:04}"` for slice `z`. */
  function EnhKey(enhName: string, rfName: string, z: Option<nat>): string {
    if z.None? then enhName + "/" + rfName else enhName + "/" + rfName + "/" + Pad4(z.value)
  }

  /** A per-slice key is slice `z` of the whole-volume key: its parent is
      the key without slice and its last segment reads back as `z`. */
  lemma SliceKeys(enhName: string, rfName: string, z: nat)
    ensures Parent(RfKey(rfName, Some(z))) == RfKey(rfName, None)
    ensures ParseInt(LastSegment(RfKey(rfName, Some(z)))) == Some(z)
    ensures Parent(EnhKey(enhName, rfName, Some(z))) == EnhKey(enhName, rfName, None)
    ensures ParseInt(LastSegment(EnhKey(enhName, rfName, Some(z)))) == Some(z)
  {
    assert '/' !in Pad4(z);
    Pad4Reads(z);
    ParentOfChild(rfName, Pad4(z));
    ParentOfChild(enhName + "/" + rfName, Pad4(z));
  }

  /** Different slices of one prediction are stored under different keys. */
  lemma SliceKeysDiffer(enhName: string, rfName: string, z1: nat, z2: nat)
    requires z1 != z2
    ensures RfKey(rfName, Some(z1)) != RfKey(rfName, Some(z2))
    ensures EnhKey(enhName, rfName, Some(z1)) != EnhKey(enhName, rfName, Some(z2))
  {
    SliceKeys(enhName, rfName, z1);
    SliceKeys(enhName, rfName, z2);
  }
}

=== FILE: manifest.dfy ===
/** The reconstruction manifest of a trainer (`init_data`): how `_build_init`
    writes it and how the `Deserializer` reads it back. Dynamic import by class
    path becomes membership of the path in a registry of importable classes. */
module Manifest {
  import opened Common

  /** A value stored in the manifest. */
  datatype Value =
    | Str(s: string)
    | Int(i: int)
    | Bool(b: bool)
    | NoneVal
    | Kwargs(args: map<string, Value>)
    | DatasetRef(id: nat)

  /** A constructed component: the full path of its class and the
      constructor arguments recorded for it. */
  datatype Component = Component(classPath: string, kwargs: map<string, Value>)

  /** A data loader: the dataset it wraps (kept by reference), its recorded
      constructor arguments, the number of batches it yields and whether it
      carries a `shuffle` attribute. */
  datatype Loader = Loader(dataset: nat, kwargs: map<string, Value>, batches: nat, hasShuffle: bool)

  /** Everything `_build_init` records, once `_initialize` has checked that
      no required component is missing. */
  datatype Setup = Setup(
    model: Component,
    loss: Component,
    optimizer: Component,
    metric: Component,
    device: string,
    logImageInterval: int,
    mixedPrecision: bool,
    earlyStopping: Option<int>,
    loggerClass: Option<string>,
    loggerKwargs: Option<map<string, Value>>,
    trainLoader: Loader,
    valLoader: Loader,
    lrScheduler: Option<Component>)

  /** What a Deserializer call returns. */
  datatype Obj =
    | Literal(v: Value)
    | Device(kind: string)
    | DataLoader(dataset: Value, kwargs: map<string, Value>, shuffle: Value)
    | Nothing
    | Class(path: string)
    | Instance(path: string, args: seq<Obj>, kwargs: map<string, Value>)
    | ParametersOf(owner: Obj)

  function OptionalInt(x: Option<int>): Value {
    if x.Some? then Int(x.value) else NoneVal
  }

  function OptionalStr(x: Option<string>): Value {
    if x.Some? then Str(x.value) else NoneVal
  }

  function OptionalKwargs(x: Option<map<string, Value>>): Value {
    if x.Some? then Kwargs(x.value) else NoneVal
  }

  /** The manifest `_build_init` returns: class path and recorded arguments of
      model, loss, optimizer and metric, the plain settings, dataset and
      loader arguments of both loaders, and the scheduler's pair if any. */
  function BuildInit(s: Setup): (r: map<string, Value>)
    ensures ("lr_scheduler_class" in r) == s.lrScheduler.Some? && ("lr_scheduler_kwargs" in r) == s.lrScheduler.Some?
    ensures forall k :: k in BaseInit(s) ==> k in r && r[k] == BaseInit(s)[k]
  {
    if s.lrScheduler.Some? then
      BaseInit(s)["lr_scheduler_class" := Str(s.lrScheduler.value.classPath)]
                 ["lr_scheduler_kwargs" := Kwargs(s.lrScheduler.value.kwargs)]
    else BaseInit(s)
  }

  /** The entries written whether or not there is a scheduler. */
  function BaseInit(s: Setup): map<string, Value> {
    map[
      "model_class" := Str(s.model.classPath), "model_kwargs" := Kwargs(s.model.kwargs),
      "loss_class" := Str(s.loss.classPath), "loss_kwargs" := Kwargs(s.loss.kwargs),
      "optimizer_class" := Str(s.optimizer.classPath), "optimizer_kwargs" := Kwargs(s.optimizer.kwargs),
      "metric_class" := Str(s.metric.classPath), "metric_kwargs" := Kwargs(s.metric.kwargs),
      "device" := Str(s.device),
      "log_image_interval" := Int(s.logImageInterval),
      "mixed_precision" := Bool(s.mixedPrecision),
      "early_stopping" := OptionalInt(s.earlyStopping),
      "logger_class" := OptionalStr(s.loggerClass),
      "logger_kwargs" := OptionalKwargs(s.loggerKwargs),
      "train_dataset" := DatasetRef(s.trainLoader.dataset), "train_loader_kwargs" := Kwargs(s.trainLoader.kwargs),
      "val_dataset" := DatasetRef(s.valLoader.dataset), "val_loader_kwargs" := Kwargs(s.valLoader.kwargs)]
  }

  predicate EndsWith(s: string, suffix: string) {
    |suffix| <= |s| && s[|s| - |suffix|..] == suffix
  }

  /** `s.replace(pat, "")`: every non-overlapping occurrence of `pat`,
      scanning from the left, is removed. */
  function RemoveAll(s: string, pat: string): (r: string)
    requires |pat| > 0
    ensures |r| <= |s|
    decreases |s|
  {
    if |s| < |pat| then s
    else if s[..|pat|] == pat then RemoveAll(s[|pat|..], pat)
    else [s[0]] + RemoveAll(s[1..], pat)
  }

  /** The two manifest keys `load_loader(name)` reads. */
  function LoaderDatasetKey(name: string): string {
    RemoveAll(name, "_loader") + "_dataset"
  }

  function LoaderKwargsKey(name: string): string {
    name + "_kwargs"
  }

  /** A Deserializer: the manifest and the device it loads onto. */
  datatype Deserializer = Deserializer(initData: map<string, Value>, device: string)

  /** `Deserializer.__init__`: the given device, or else the recorded one. */
  function NewDeserializer(initData: map<string, Value>, device: Option<string>): (r: Result<Deserializer>)
    ensures device.Some? ==> r == Success(Deserializer(initData, device.value))
    ensures device.None? && "device" !in initData ==> r == Failure(KeyError("device"))
    ensures device.None? && "device" in initData && initData["device"].Str?
            ==> r == Success(Deserializer(initData, initData["device"].s))
  {
    if device.Some? then Success(Deserializer(initData, device.value))
    else if "device" !in initData then Failure(KeyError("device"))
    else if !initData["device"].Str? then Failure(TypeError)
    else Success(Deserializer(initData, initData["device"].s))
  }

  /** `load_loader`: rebuild a loader around the stored dataset with the
      stored arguments; its `shuffle` is the stored one, `False` by default. */
  function LoadLoader(d: Deserializer, name: string): (r: Result<Obj>)
    ensures r.Success? ==> r.value.DataLoader?
    ensures r.Success? <==> LoaderDatasetKey(name) in d.initData && LoaderKwargsKey(name) in d.initData
                            && d.initData[LoaderKwargsKey(name)].Kwargs?
    ensures r.Success? ==> (r.value.dataset == d.initData[LoaderDatasetKey(name)]
                            && Kwargs(r.value.kwargs) == d.initData[LoaderKwargsKey(name)])
  {
    var dsKey := LoaderDatasetKey(name);
    var kwKey := LoaderKwargsKey(name);
    if dsKey !in d.initData then Failure(KeyError(dsKey))
    else if kwKey !in d.initData then Failure(KeyError(kwKey))
    else match d.initData[kwKey]
      case Kwargs(kw) =>
        Success(DataLoader(d.initData[dsKey], kw, if "shuffle" in kw then kw["shuffle"] else Bool(false)))
      case _ => Failure(TypeError)
  }

  /** `load_generic`: a stored literal first; else the class recorded under
      `<name>_class`, returned as it is (`only_class`) or instantiated with the
      dynamic arguments, the stored keyword arguments and the dynamic ones. */
  function LoadGeneric(d: Deserializer, name: string, dynamicArgs: seq<Obj>, optional: bool, onlyClass: bool,
                       dynamicKwargs: map<string, Value>, registry: set<string>): (r: Result<Obj>)
    ensures name in d.initData ==> r == Success(Literal(d.initData[name]))
    ensures name !in d.initData && (name + "_class" !in d.initData || d.initData[name + "_class"] == NoneVal)
            ==> r == (if optional then Success(Nothing) else Failure(RuntimeError))
    ensures r.Success? && r.value.Instance? ==> r.value.path in registry && r.value.args == dynamicArgs
  {
    if name in d.initData then Success(Literal(d.initData[name]))
    else
      var cls := if name + "_class" in d.initData then d.initData[name + "_class"] else NoneVal;
      if cls == NoneVal then (if optional then Success(Nothing) else Failure(RuntimeError))
      else if !cls.Str? then Failure(AttributeError)
      else if '.' !in cls.s then Failure(ValueError)
      else if cls.s !in registry then Failure(ImportError)
      else if onlyClass then Success(Class(cls.s))
      else
        var stored := if name + "_kwargs" in d.initData then d.initData[name + "_kwargs"] else Kwargs(map[]);
        if !stored.Kwargs? then Failure(TypeError)
        else if stored.args.Keys !! dynamicKwargs.Keys then Success(Instance(cls.s, dynamicArgs, stored.args + dynamicKwargs))
        else Failure(TypeError)
  }

  /** `Deserializer.__call__`: names ending in `_loader` are loaders,
      `device` is the deserializer's device, everything else is generic. */
  function Load(d: Deserializer, name: string, dynamicArgs: seq<Obj>, optional: bool, onlyClass: bool,
                dynamicKwargs: map<string, Value>, registry: set<string>): (r: Result<Obj>)
    ensures EndsWith(name, "_loader") ==> r == LoadLoader(d, name)
    ensures !EndsWith(name, "_loader") && name == "device" ==> r == Success(Device(d.device))
  {
    if EndsWith(name, "_loader") then LoadLoader(d, name)
    else if name == "device" then Success(Device(d.device))
    else LoadGeneric(d, name, dynamicArgs, optional, onlyClass, dynamicKwargs, registry)
  }

  function Call(d: Deserializer, name: string, registry: set<string>): Result<Obj> {
    Load(d, name, [], false, false, map[], registry)
  }

  /** The trainer arguments `_get_trainer_kwargs` collects (the run name,
      taken from the checkpoint path, is not part of this model). */
  datatype TrainerArgs = TrainerArgs(
    trainLoader: Obj, valLoader: Obj, model: Obj, loss: Obj, optimizer: Obj, metric: Obj, device: Obj,
    lrScheduler: Obj, logImageInterval: Obj, mixedPrecision: Obj, earlyStopping: Obj, logger: Obj,
    loggerKwargs: Obj)

  /** `_get_trainer_kwargs`: the loads in the order the source performs them. */
  function GetTrainerArgs(d: Deserializer, registry: set<string>): (r: Result<TrainerArgs>)
    ensures r.Success? && r.value.optimizer.Instance? ==>
              r.value.optimizer.path in registry && r.value.optimizer.args == [ParametersOf(r.value.model)]
    ensures r.Success? && r.value.lrScheduler.Instance? ==>
              r.value.lrScheduler.path in registry && r.value.lrScheduler.args == [r.value.optimizer]
    ensures r.Success? ==> r.value.trainLoader.DataLoader? && r.value.valLoader.DataLoader?
    ensures r.Success? ==> r.value.device == Device(d.device)
  {
    GenericNames();
    LoaderNames();
    var model :- Call(d, "model", registry);
    var optimizer :- Load(d, "optimizer", [ParametersOf(model)], false, false, map[], registry);
    var trainLoader :- Call(d, "train_loader", registry);
    var valLoader :- Call(d, "val_loader", registry);
    var loss :- Call(d, "loss", registry);
    var metric :- Call(d, "metric", registry);
    var device :- Call(d, "device", registry);
    var lrScheduler :- Load(d, "lr_scheduler", [optimizer], true, false, map[], registry);
    var logImageInterval :- Call(d, "log_image_interval", registry);
    var mixedPrecision :- Call(d, "mixed_precision", registry);
    var earlyStopping :- Call(d, "early_stopping", registry);
    var logger :- Load(d, "logger", [], true, true, map[], registry);
    var loggerKwargs :- Load(d, "logger_kwargs", [], true, false, map[], registry);
    Success(TrainerArgs(trainLoader, valLoader, model, loss, optimizer, metric, device, lrScheduler,
                        logImageInterval, mixedPrecision, earlyStopping, logger, loggerKwargs))
  }

  /** A class path that `rsplit(".", 1)` splits and the registry resolves. */
  predicate Importable(path: string, registry: set<string>) {
    '.' in path && path in registry
  }

  predicate AllImportable(s: Setup, registry: set<string>) {
    && Importable(s.model.classPath, registry)
    && Importable(s.loss.classPath, registry)
    && Importable(s.optimizer.classPath, registry)
    && Importable(s.metric.classPath, registry)
    && (s.lrScheduler.Some? ==> Importable(s.lrScheduler.value.classPath, registry))
    && (s.loggerClass.Some? ==> Importable(s.loggerClass.value, registry))
  }

  function ShuffleOf(kwargs: map<string, Value>): Value {
    if "shuffle" in kwargs then kwargs["shuffle"] else Bool(false)
  }

  /** The arguments a manifest written for `s` must give back. */
  function Expected(s: Setup, device: string): TrainerArgs {
    var model := Instance(s.model.classPath, [], s.model.kwargs);
    var optimizer := Instance(s.optimizer.classPath, [ParametersOf(model)], s.optimizer.kwargs);
    TrainerArgs(
      DataLoader(DatasetRef(s.trainLoader.dataset), s.trainLoader.kwargs, ShuffleOf(s.trainLoader.kwargs)),
      DataLoader(DatasetRef(s.valLoader.dataset), s.valLoader.kwargs, ShuffleOf(s.valLoader.kwargs)),
      model,
      Instance(s.loss.classPath, [], s.loss.kwargs),
      optimizer,
      Instance(s.metric.classPath, [], s.metric.kwargs),
      Device(device),
      if s.lrScheduler.Some? then Instance(s.lrScheduler.value.classPath, [optimizer], s.lrScheduler.value.kwargs)
      else Nothing,
      Literal(Int(s.logImageInterval)),
      Literal(Bool(s.mixedPrecision)),
      Literal(OptionalInt(s.earlyStopping)),
      if s.loggerClass.Some? then Class(s.loggerClass.value) else Nothing,
      Literal(OptionalKwargs(s.loggerKwargs)))
  }

  /** The keys `_build_init` writes: four class/kwargs pairs, six settings,
      two dataset/loader-kwargs pairs, and the scheduler pair when there is one. */
  function BaseKeys(): set<string> {
    {"model_class", "model_kwargs", "loss_class", "loss_kwargs", "optimizer_class", "optimizer_kwargs",
     "metric_class", "metric_kwargs", "device", "log_image_interval", "mixed_precision", "early_stopping",
     "logger_class", "logger_kwargs", "train_dataset", "train_loader_kwargs", "val_dataset", "val_loader_kwargs"}
  }

  lemma BuildInitKeys(s: Setup)
    ensures BuildInit(s).Keys == BaseKeys() + (if s.lrScheduler.Some? then {"lr_scheduler_class", "lr_scheduler_kwargs"} else {})
  {
  }

  /** Removing every occurrence of `pat` from `p + pat` gives back `p` when
      no occurrence can start inside `p`. */
  lemma {:induction false} RemoveTrailing(p: string, pat: string)
    requires |pat| > 0 && pat[0] !in p
    ensures RemoveAll(p + pat, pat) == p
    decreases |p|
  {
    var s := p + pat;
    if |p| == 0 {
      assert s[..|pat|] == pat;
      assert s[|pat|..] == [];
    } else {
      assert s[0] == p[0] != pat[0];
      assert s[..|pat|] != pat;
      assert s[1..] == p[1..] + pat;
      RemoveTrailing(p[1..], pat);
      assert [p[0]] + p[1..] == p;
    }
  }

  /** The scheduler pair is written on top of the base entries and
      changes none of them. */
  lemma BaseEntryKept(s: Setup, k: string)
    requires k in BaseInit(s) && k != "lr_scheduler_class" && k != "lr_scheduler_kwargs"
    ensures k in BuildInit(s) && BuildInit(s)[k] == BaseInit(s)[k]
  {
  }

  lemma AbsentKept(s: Setup, k: string)
    requires k !in BaseInit(s) && k != "lr_scheduler_class" && k != "lr_scheduler_kwargs"
    ensures k !in BuildInit(s)
  {
  }

  lemma UnionEmpty(m: map<string, Value>)
    ensures m + map[] == m
  {
  }

  /** What `_build_init` stores under the keys of one component. */
  predicate StoresComponent(m: map<string, Value>, name: string, c: Component) {
    && name !in m
    && name + "_class" in m && m[name + "_class"] == Str(c.classPath)
    && name + "_kwargs" in m && m[name + "_kwargs"] == Kwargs(c.kwargs)
  }

  lemma ModelLookups(s: Setup)
    ensures "model_class" in BaseInit(s) && BaseInit(s)["model_class"] == Str(s.model.classPath)
    ensures "model_kwargs" in BaseInit(s) && BaseInit(s)["model_kwargs"] == Kwargs(s.model.kwargs)
    ensures "model" !in BaseInit(s)
  {
  }

  lemma StoresModel(s: Setup)
    ensures StoresComponent(BuildInit(s), "model", s.model)
  {
    ModelLookups(s);
    BaseEntryKept(s, "model_class");
    BaseEntryKept(s, "model_kwargs");
    AbsentKept(s, "model");
    assert "model" + "_class" == "model_class" && "model" + "_kwargs" == "model_kwargs";
  }

  lemma LossLookups(s: Setup)
    ensures "loss_class" in BaseInit(s) && BaseInit(s)["loss_class"] == Str(s.loss.classPath)
    ensures "loss_kwargs" in BaseInit(s) && BaseInit(s)["loss_kwargs"] == Kwargs(s.loss.kwargs)
    ensures "loss" !in BaseInit(s)
  {
  }

  lemma StoresLoss(s: Setup)
    ensures StoresComponent(BuildInit(s), "loss", s.loss)
  {
    LossLookups(s);
    BaseEntryKept(s, "loss_class");
    BaseEntryKept(s, "loss_kwargs");
    AbsentKept(s, "loss");
    assert "loss" + "_class" == "loss_class" && "loss" + "_kwargs" == "loss_kwargs";
  }

  lemma OptimizerLookups(s: Setup)
    ensures "optimizer_class" in BaseInit(s) && BaseInit(s)["optimizer_class"] == Str(s.optimizer.classPath)
    ensures "optimizer_kwargs" in BaseInit(s) && BaseInit(s)["optimizer_kwargs"] == Kwargs(s.optimizer.kwargs)
    ensures "optimizer" !in BaseInit(s)
  {
  }

  lemma StoresOptimizer(s: Setup)
    ensures StoresComponent(BuildInit(s), "optimizer", s.optimizer)
  {
    OptimizerLookups(s);
    BaseEntryKept(s, "optimizer_class");
    BaseEntryKept(s, "optimizer_kwargs");
    AbsentKept(s, "optimizer");
    assert "optimizer" + "_class" == "optimizer_class" && "optimizer" + "_kwargs" == "optimizer_kwargs";
  }

  lemma MetricLookups(s: Setup)
    ensures "metric_class" in BaseInit(s) && BaseInit(s)["metric_class"] == Str(s.metric.classPath)
    ensures "metric_kwargs" in BaseInit(s) && BaseInit(s)["metric_kwargs"] == Kwargs(s.metric.kwargs)
    ensures "metric" !in BaseInit(s)
  {
  }

  lemma StoresMetric(s: Setup)
    ensures StoresComponent(BuildInit(s), "metric", s.metric)
  {
    MetricLookups(s);
    BaseEntryKept(s, "metric_class");
    BaseEntryKept(s, "metric_kwargs");
    AbsentKept(s, "metric");
    assert "metric" + "_class" == "metric_class" && "metric" + "_kwargs" == "metric_kwargs";
  }

  lemma SchedulerLookups(s: Setup)
    requires s.lrScheduler.Some?
    ensures "lr_scheduler_class" in BuildInit(s) && BuildInit(s)["lr_scheduler_class"] == Str(s.lrScheduler.value.classPath)
    ensures "lr_scheduler_kwargs" in BuildInit(s) && BuildInit(s)["lr_scheduler_kwargs"] == Kwargs(s.lrScheduler.value.kwargs)
    ensures "lr_scheduler" !in BuildInit(s)
  {
  }

  lemma StoresScheduler(s: Setup)
    ensures s.lrScheduler.Some? ==> StoresComponent(BuildInit(s), "lr_scheduler", s.lrScheduler.value)
    ensures s.lrScheduler.None? ==> "lr_scheduler" !in BuildInit(s) && "lr_scheduler" + "_class" !in BuildInit(s)
  {
    assert "lr_scheduler" + "_class" == "lr_scheduler_class" && "lr_scheduler" + "_kwargs" == "lr_scheduler_kwargs";
    if s.lrScheduler.Some? {
      SchedulerLookups(s);
    }
  }

  lemma PlainBase(s: Setup)
    ensures "device" in BaseInit(s) && BaseInit(s)["device"] == Str(s.device)
    ensures "log_image_interval" in BaseInit(s) && BaseInit(s)["log_image_interval"] == Int(s.logImageInterval)
    ensures "mixed_precision" in BaseInit(s) && BaseInit(s)["mixed_precision"] == Bool(s.mixedPrecision)
    ensures "early_stopping" in BaseInit(s) && BaseInit(s)["early_stopping"] == OptionalInt(s.earlyStopping)
  {
  }

  lemma PlainSettings(s: Setup)
    ensures "device" in BuildInit(s) && BuildInit(s)["device"] == Str(s.device)
    ensures "log_image_interval" in BuildInit(s) && BuildInit(s)["log_image_interval"] == Int(s.logImageInterval)
    ensures "mixed_precision" in BuildInit(s) && BuildInit(s)["mixed_precision"] == Bool(s.mixedPrecision)
    ensures "early_stopping" in BuildInit(s) && BuildInit(s)["early_stopping"] == OptionalInt(s.earlyStopping)
  {
    PlainBase(s);
    BaseEntryKept(s, "device");
    BaseEntryKept(s, "log_image_interval");
    BaseEntryKept(s, "mixed_precision");
    BaseEntryKept(s, "early_stopping");
  }

  lemma LoggerBase(s: Setup)
    ensures "logger_kwargs" in BaseInit(s) && BaseInit(s)["logger_kwargs"] == OptionalKwargs(s.loggerKwargs)
    ensures "logger" !in BaseInit(s) && "logger_class" in BaseInit(s)
    ensures BaseInit(s)["logger_class"] == OptionalStr(s.loggerClass)
  {
  }

  lemma LoggerSettings(s: Setup)
    ensures "logger_kwargs" in BuildInit(s) && BuildInit(s)["logger_kwargs"] == OptionalKwargs(s.loggerKwargs)
    ensures "logger" !in BuildInit(s) && "logger_class" in BuildInit(s)
    ensures BuildInit(s)["logger_class"] == OptionalStr(s.loggerClass)
  {
    LoggerBase(s);
    BaseEntryKept(s, "logger_kwargs");
    BaseEntryKept(s, "logger_class");
    AbsentKept(s, "logger");
  }

  lemma LoaderBase(s: Setup)
    ensures "train_dataset" in BaseInit(s) && BaseInit(s)["train_dataset"] == DatasetRef(s.trainLoader.dataset)
    ensures "train_loader_kwargs" in BaseInit(s) && BaseInit(s)["train_loader_kwargs"] == Kwargs(s.trainLoader.kwargs)
    ensures "val_dataset" in BaseInit(s) && BaseInit(s)["val_dataset"] == DatasetRef(s.valLoader.dataset)
    ensures "val_loader_kwargs" in BaseInit(s) && BaseInit(s)["val_loader_kwargs"] == Kwargs(s.valLoader.kwargs)
  {
  }

  lemma LoaderLookups(s: Setup)
    ensures "train_dataset" in BuildInit(s) && BuildInit(s)["train_dataset"] == DatasetRef(s.trainLoader.dataset)
    ensures "train_loader_kwargs" in BuildInit(s) && BuildInit(s)["train_loader_kwargs"] == Kwargs(s.trainLoader.kwargs)
    ensures "val_dataset" in BuildInit(s) && BuildInit(s)["val_dataset"] == DatasetRef(s.valLoader.dataset)
    ensures "val_loader_kwargs" in BuildInit(s) && BuildInit(s)["val_loader_kwargs"] == Kwargs(s.valLoader.kwargs)
  {
    LoaderBase(s);
    BaseEntryKept(s, "train_dataset");
    BaseEntryKept(s, "train_loader_kwargs");
    BaseEntryKept(s, "val_dataset");
    BaseEntryKept(s, "val_loader_kwargs");
  }

  /** The entries `load_loader` reads for the trainer's two loaders are the
      dataset and loader-argument entries `_build_init` writes for them. */
  lemma TrainLoaderKeys()
    ensures LoaderDatasetKey("train_loader") == "train_dataset" && LoaderKwargsKey("train_loader") == "train_loader_kwargs"
  {
    assert "train_loader" == "train" + "_loader";
    RemoveTrailing("train", "_loader");
    assert "train" + "_dataset" == "train_dataset";
    assert "train_loader" + "_kwargs" == "train_loader_kwargs";
  }

  lemma ValLoaderKeys()
    ensures LoaderDatasetKey("val_loader") == "val_dataset" && LoaderKwargsKey("val_loader") == "val_loader_kwargs"
  {
    assert "val_loader" == "val" + "_loader";
    RemoveTrailing("val", "_loader");
    assert "val" + "_dataset" == "val_dataset";
    assert "val_loader" + "_kwargs" == "val_loader_kwargs";
  }

  /** What a manifest must hold for the trainer described by `s` to be
      read back from it. */
  predicate Describes(m: map<string, Value>, s: Setup) {
    DescribesComponents(m, s) && DescribesSettings(m, s) && DescribesLoaders(m, s)
  }

  predicate DescribesComponents(m: map<string, Value>, s: Setup) {
    && StoresComponent(m, "model", s.model)
    && StoresComponent(m, "loss", s.loss)
    && StoresComponent(m, "optimizer", s.optimizer)
    && StoresComponent(m, "metric", s.metric)
    && (s.lrScheduler.Some? ==> StoresComponent(m, "lr_scheduler", s.lrScheduler.value))
    && (s.lrScheduler.None? ==> "lr_scheduler" !in m && "lr_scheduler" + "_class" !in m)
  }

  predicate DescribesSettings(m: map<string, Value>, s: Setup) {
    && Holds(m, "device", Str(s.device))
    && Holds(m, "log_image_interval", Int(s.logImageInterval))
    && Holds(m, "mixed_precision", Bool(s.mixedPrecision))
    && Holds(m, "early_stopping", OptionalInt(s.earlyStopping))
    && "logger" !in m && Holds(m, "logger" + "_class", OptionalStr(s.loggerClass))
    && Holds(m, "logger_kwargs", OptionalKwargs(s.loggerKwargs))
  }

  predicate DescribesLoaders(m: map<string, Value>, s: Setup) {
    && Holds(m, LoaderDatasetKey("train_loader"), DatasetRef(s.trainLoader.dataset))
    && Holds(m, LoaderKwargsKey("train_loader"), Kwargs(s.trainLoader.kwargs))
    && Holds(m, LoaderDatasetKey("val_loader"), DatasetRef(s.valLoader.dataset))
    && Holds(m, LoaderKwargsKey("val_loader"), Kwargs(s.valLoader.kwargs))
  }

  predicate Holds(m: map<string, Value>, k: string, v: Value) {
    k in m && m[k] == v
  }

  lemma BuildInitComponents(s: Setup)
    ensures DescribesComponents(BuildInit(s), s)
  {
    StoresModel(s);
    StoresLoss(s);
    StoresOptimizer(s);
    StoresMetric(s);
    StoresScheduler(s);
  }

  lemma BuildInitSettings(s: Setup)
    ensures DescribesSettings(BuildInit(s), s)
  {
    PlainSettings(s);
    LoggerSettings(s);
    assert "logger" + "_class" == "logger_class";
  }

  lemma BuildInitLoaders(s: Setup)
    ensures DescribesLoaders(BuildInit(s), s)
  {
    LoaderLookups(s);
    TrainLoaderKeys();
    ValLoaderKeys();
  }

  /** None of the names `_get_trainer_kwargs` loads generically ends in
      `_loader`. */
  lemma GenericNames()
    ensures !EndsWith("model", "_loader") && !EndsWith("loss", "_loader")
    ensures !EndsWith("optimizer", "_loader") && !EndsWith("metric", "_loader")
    ensures !EndsWith("lr_scheduler", "_loader") && !EndsWith("logger", "_loader")
  {
  }

  lemma SettingNames()
    ensures !EndsWith("log_image_interval", "_loader") && !EndsWith("mixed_precision", "_loader")
    ensures !EndsWith("early_stopping", "_loader") && !EndsWith("logger_kwargs", "_loader")
  {
    assert "log_image_interval"[11] != "_loader"[0];
    assert "mixed_precision"[8] != "_loader"[0];
    assert "early_stopping"[7] != "_loader"[0];
    assert "logger_kwargs"[7] != "_loader"[1];
  }

  lemma LoaderNames()
    ensures EndsWith("train_loader", "_loader") && EndsWith("val_loader", "_loader")
  {
    assert "train_loader"[5..] == "_loader";
    assert "val_loader"[3..] == "_loader";
  }

  lemma LoadComponentBack(d: Deserializer, name: string, c: Component, args: seq<Obj>, optional: bool,
                          registry: set<string>)
    requires StoresComponent(d.initData, name, c) && Importable(c.classPath, registry)
    requires !EndsWith(name, "_loader") && name != "device"
    ensures Load(d, name, args, optional, false, map[], registry) == Success(Instance(c.classPath, args, c.kwargs))
  {
    UnionEmpty(c.kwargs);
  }

  lemma LoadLiteralBack(d: Deserializer, name: string, v: Value, args: seq<Obj>, optional: bool, onlyClass: bool,
                        registry: set<string>)
    requires Holds(d.initData, name, v) && !EndsWith(name, "_loader") && name != "device"
    ensures Load(d, name, args, optional, onlyClass, map[], registry) == Success(Literal(v))
  {
  }

  lemma LoadLoaderBack(d: Deserializer, name: string, l: Loader, registry: set<string>)
    requires Holds(d.initData, LoaderDatasetKey(name), DatasetRef(l.dataset))
    requires Holds(d.initData, LoaderKwargsKey(name), Kwargs(l.kwargs))
    requires EndsWith(name, "_loader")
    ensures Call(d, name, registry) == Success(DataLoader(DatasetRef(l.dataset), l.kwargs, ShuffleOf(l.kwargs)))
  {
  }

  lemma LoadLoggerBack(d: Deserializer, s: Setup, registry: set<string>)
    requires Describes(d.initData, s) && AllImportable(s, registry)
    ensures Load(d, "logger", [], true, true, map[], registry) == Success(Expected(s, d.device).logger)
  {
    GenericNames();
  }

  lemma LoadSchedulerBack(d: Deserializer, s: Setup, registry: set<string>)
    requires Describes(d.initData, s) && AllImportable(s, registry)
    ensures Load(d, "lr_scheduler", [Expected(s, d.device).optimizer], true, false, map[], registry)
            == Success(Expected(s, d.device).lrScheduler)
  {
    GenericNames();
    var e := Expected(s, d.device);
    if s.lrScheduler.Some? {
      LoadComponentBack(d, "lr_scheduler", s.lrScheduler.value, [e.optimizer], true, registry);
    }
  }

  /** Any manifest that describes `s` gives back the components, loaders and
      settings of `s`. */
  lemma ReadBack(d: Deserializer, s: Setup, registry: set<string>)
    requires Describes(d.initData, s) && AllImportable(s, registry)
    ensures GetTrainerArgs(d, registry) == Success(Expected(s, d.device))
  {
    var e := Expected(s, d.device);
    GenericNames();
    SettingNames();
    LoaderNames();
    LoadComponentBack(d, "model", s.model, [], false, registry);
    LoadComponentBack(d, "optimizer", s.optimizer, [ParametersOf(e.model)], false, registry);
    LoadComponentBack(d, "loss", s.loss, [], false, registry);
    LoadComponentBack(d, "metric", s.metric, [], false, registry);
    LoadLoaderBack(d, "train_loader", s.trainLoader, registry);
    LoadLoaderBack(d, "val_loader", s.valLoader, registry);
    LoadSchedulerBack(d, s, registry);
    LoadLiteralBack(d, "log_image_interval", Int(s.logImageInterval), [], false, false, registry);
    LoadLiteralBack(d, "mixed_precision", Bool(s.mixedPrecision), [], false, false, registry);
    LoadLiteralBack(d, "early_stopping", OptionalInt(s.earlyStopping), [], false, false, registry);
    LoadLoggerBack(d, s, registry);
    LoadLiteralBack(d, "logger_kwargs", OptionalKwargs(s.loggerKwargs), [], true, false, registry);
  }

  /** Reading back the manifest `_build_init` wrote restores every component:
      the same classes with the same recorded arguments (the optimizer built
      on the model's parameters, the scheduler on the optimizer), the same
      datasets and loader arguments, the same settings, and the device the
      caller asks for or else the recorded one. */
  lemma ManifestRoundTrip(s: Setup, device: Option<string>, registry: set<string>)
    requires AllImportable(s, registry)
    ensures NewDeserializer(BuildInit(s), device) == Success(Deserializer(BuildInit(s), device.GetOr(s.device)))
    ensures GetTrainerArgs(Deserializer(BuildInit(s), device.GetOr(s.device)), registry)
            == Success(Expected(s, device.GetOr(s.device)))
  {
    BuildInitComponents(s);
    BuildInitSettings(s);
    BuildInitLoaders(s);
    ReadBack(Deserializer(BuildInit(s), device.GetOr(s.device)), s, registry);
  }
}

=== FILE: predictions.dfy ===
/** `load_predictions`: the datasets of a prediction file, visited in
    order, are gathered by name; a dataset whose last path segment is an
    integer is a slice of the prediction named by its parent path, and the
    slices of one prediction are stacked in increasing index order. */
module Predictions {
  import opened Common
  import opened Arrays
  import opened Keys

  /** A node of the file: a group, or a dataset with its content. */
  datatype Node = Group | Dataset(data: NdArray)

  /** What has been gathered under one name: a whole array, or slices by
      index in the order they were first met (a Python `dict`). */
  datatype Entry = Whole(volume: NdArray) | Slices(slices: seq<(int, NdArray)>)

  /** The position of index `z` among the slices. */
  function IndexOf(slices: seq<(int, NdArray)>, z: int): (r: Option<nat>)
    ensures r.Some? ==> r.value < |slices| && slices[r.value].0 == z
    ensures r.None? ==> forall k :: 0 <= k < |slices| ==> slices[k].0 != z
  {
    if slices == [] then None
    else if slices[|slices| - 1].0 == z then Some(|slices| - 1)
    else IndexOf(slices[..|slices| - 1], z)
  }

  /** `pred[z] = data`: a known index keeps its place and gets the new
      data, a new index goes last. */
  function SetSlice(slices: seq<(int, NdArray)>, z: int, data: NdArray): seq<(int, NdArray)> {
    match IndexOf(slices, z)
    case Some(k) => slices[k := (z, data)]
    case None => slices + [(z, data)]
  }

  /** No index occurs twice. */
  predicate Distinct(slices: seq<(int, NdArray)>) {
    forall a, b :: 0 <= a < b < |slices| ==> slices[a].0 != slices[b].0
  }

  lemma SetSliceDistinct(slices: seq<(int, NdArray)>, z: int, data: NdArray)
    requires Distinct(slices)
    ensures Distinct(SetSlice(slices, z, data))
  {
  }

  /** The names of the datasets of the file. */
  function DatasetNames(items: seq<(string, Node)>): set<string> {
    set a | 0 <= a < |items| && items[a].1.Dataset? :: items[a].0
  }

  /** What a hierarchical file guarantees: no dataset has a dataset as its
      parent. */
  predicate Hierarchical(items: seq<(string, Node)>) {
    forall b :: 0 <= b < |items| && items[b].1.Dataset? ==> Parent(items[b].0) !in DatasetNames(items)
  }

  /** Every whole entry was stored under a dataset's own name. */
  predicate Gathered(preds: map<string, Entry>, names: set<string>) {
    forall k :: k in preds && preds[k].Whole? ==> k in names
  }

  /** Every entry of slices carries distinct indices. */
  predicate SlicesDistinct(preds: map<string, Entry>) {
    forall k :: k in preds && preds[k].Slices? ==> Distinct(preds[k].slices)
  }

  /** The name a dataset is gathered under: the parent of a slice, else
      its own. */
  function EntryName(name: string): string {
    if ParseInt(LastSegment(name)).Some? then Parent(name) else name
  }

  /** `visit(name, node)`: groups are skipped; a dataset whose last
      segment is an integer becomes slice `z` of its parent's entry,
      any other dataset the whole entry under its own name. A parent
      holding a whole array, which a hierarchical file never has, starts
      over with no slices. */
  function Visit(preds: map<string, Entry>, name: string, node: Node): (r: map<string, Entry>)
    ensures r.Keys == if node.Dataset? then preds.Keys + {EntryName(name)} else preds.Keys
    ensures forall k :: k in preds && k != EntryName(name) ==> r[k] == preds[k]
    ensures node.Dataset? && ParseInt(LastSegment(name)).None? ==> r[name] == Whole(node.data)
    ensures node.Dataset? && ParseInt(LastSegment(name)).Some? ==> r[Parent(name)].Slices?
  {
    match node
    case Group => preds
    case Dataset(data) =>
      match ParseInt(LastSegment(name))
      case Some(z) =>
        var parent := Parent(name);
        var slices := if parent in preds && preds[parent].Slices? then preds[parent].slices else [];
        preds[parent := Slices(SetSlice(slices, z, data))]
      case None => preds[name := Whole(data)]
  }

  /** Visiting a node of a hierarchical file never meets a whole entry
      where it expects slices, and keeps the entries gathered. */
  lemma VisitFits(items: seq<(string, Node)>, preds: map<string, Entry>, i: nat)
    requires Hierarchical(items) && i < |items| && Gathered(preds, DatasetNames(items))
    ensures items[i].1.Dataset? && ParseInt(LastSegment(items[i].0)).Some? && Parent(items[i].0) in preds ==>
              preds[Parent(items[i].0)].Slices?
    ensures Gathered(Visit(preds, items[i].0, items[i].1), DatasetNames(items))
  {
    var (name, node) := items[i];
    if node.Dataset? {
      assert name in DatasetNames(items);
      if ParseInt(LastSegment(name)).Some? && Parent(name) in preds {
        assert Parent(name) !in DatasetNames(items);
      }
    }
  }

  /** Visiting keeps the indices of every entry of slices distinct. */
  lemma VisitDistinct(preds: map<string, Entry>, name: string, node: Node)
    requires SlicesDistinct(preds)
    ensures SlicesDistinct(Visit(preds, name, node))
  {
    if node.Dataset? && ParseInt(LastSegment(name)).Some? {
      var parent := Parent(name);
      var slices := if parent in preds && preds[parent].Slices? then preds[parent].slices else [];
      SetSliceDistinct(slices, ParseInt(LastSegment(name)).value, node.data);
    }
  }

  /** The entries after visiting the first `n` nodes. */
  function Gather(items: seq<(string, Node)>, n: nat): map<string, Entry>
    requires n <= |items|
  {
    if n == 0 then map[] else Visit(Gather(items, n - 1), items[n - 1].0, items[n - 1].1)
  }

  /** The names gathered from the first `n` nodes are exactly those of
      their datasets, each under `EntryName`. */
  lemma {:induction false} GatherNames(items: seq<(string, Node)>, n: nat)
    requires n <= |items|
    ensures forall i :: 0 <= i < n && items[i].1.Dataset? ==> EntryName(items[i].0) in Gather(items, n)
    ensures forall k :: k in Gather(items, n) ==> exists i :: 0 <= i < n && items[i].1.Dataset? && EntryName(items[i].0) == k
  {
    if n > 0 {
      GatherNames(items, n - 1);
      var prev := Gather(items, n - 1);
      var now := Visit(prev, items[n - 1].0, items[n - 1].1);
      assert Gather(items, n) == now;
      forall i | 0 <= i < n && items[i].1.Dataset?
        ensures EntryName(items[i].0) in now
      {
        if i < n - 1 {
          assert EntryName(items[i].0) in prev;
        }
      }
      forall k | k in now
        ensures exists i :: 0 <= i < n && items[i].1.Dataset? && EntryName(items[i].0) == k
      {
        if k !in prev {
          assert items[n - 1].1.Dataset? && EntryName(items[n - 1].0) == k;
        }
      }
    }
  }

  /** The entries of a hierarchical file stay gathered node after node. */
  lemma {:induction false} GatherGathered(items: seq<(string, Node)>, n: nat)
    requires Hierarchical(items) && n <= |items|
    ensures Gathered(Gather(items, n), DatasetNames(items))
    decreases n
  {
    if n > 0 {
      GatherGathered(items, n - 1);
      VisitFits(items, Gather(items, n - 1), n - 1);
    }
  }

  /** Any file, hierarchical or not, gathers distinct indices. */
  lemma {:induction false} GatherDistinct(items: seq<(string, Node)>, n: nat)
    requires n <= |items|
    ensures SlicesDistinct(Gather(items, n))
    decreases n
  {
    if n > 0 {
      GatherDistinct(items, n - 1);
      VisitDistinct(Gather(items, n - 1), items[n - 1].0, items[n - 1].1);
    }
  }

  // ---------------------------------------------------------------------
  // Stacking

  /** The slices in increasing index order: `sorted(pred.items())`. */
  function SortSlices(slices: seq<(int, NdArray)>): (r: seq<(int, NdArray)>)
    ensures |r| == |slices|
    decreases |slices|
  {
    if slices == [] then [] else Insert(SortSlices(slices[..|slices| - 1]), slices[|slices| - 1])
  }

  function Insert(sorted: seq<(int, NdArray)>, s: (int, NdArray)): (r: seq<(int, NdArray)>)
    ensures |r| == |sorted| + 1
  {
    if sorted == [] || s.0 <= sorted[0].0 then [s] + sorted else [sorted[0]] + Insert(sorted[1..], s)
  }

  predicate Increasing(slices: seq<(int, NdArray)>) {
    forall a, b :: 0 <= a < b < |slices| ==> slices[a].0 < slices[b].0
  }

  lemma {:induction false} InsertPerm(sorted: seq<(int, NdArray)>, s: (int, NdArray))
    ensures multiset(Insert(sorted, s)) == multiset(sorted) + multiset{s}
    decreases |sorted|
  {
    if sorted != [] && s.0 > sorted[0].0 {
      InsertPerm(sorted[1..], s);
      assert sorted == [sorted[0]] + sorted[1..];
    }
  }

  lemma {:induction false} InsertBound(sorted: seq<(int, NdArray)>, s: (int, NdArray), lo: int)
    requires s.0 > lo && forall k :: 0 <= k < |sorted| ==> sorted[k].0 > lo
    ensures forall k :: 0 <= k < |sorted| + 1 ==> Insert(sorted, s)[k].0 > lo
    decreases |sorted|
  {
    if sorted != [] && s.0 > sorted[0].0 {
      InsertBound(sorted[1..], s, lo);
    }
  }

  lemma {:induction false} InsertIncreasing(sorted: seq<(int, NdArray)>, s: (int, NdArray))
    requires Increasing(sorted) && forall k :: 0 <= k < |sorted| ==> sorted[k].0 != s.0
    ensures Increasing(Insert(sorted, s))
    decreases |sorted|
  {
    if sorted != [] && s.0 > sorted[0].0 {
      InsertIncreasing(sorted[1..], s);
      InsertBound(sorted[1..], s, sorted[0].0);
    }
  }

  /** Sorting puts distinct indices in increasing order and keeps every
      slice. */
  lemma {:induction false} SortIncreasing(slices: seq<(int, NdArray)>)
    requires Distinct(slices)
    ensures Increasing(SortSlices(slices))
    ensures multiset(SortSlices(slices)) == multiset(slices)
    decreases |slices|
  {
    if slices != [] {
      var init, last := slices[..|slices| - 1], slices[|slices| - 1];
      assert forall j :: 0 <= j < |init| ==> init[j] == slices[j];
      SortIncreasing(init);
      var sorted := SortSlices(init);
      NotAmong(init, sorted, last.0);
      InsertIncreasing(sorted, last);
      InsertPerm(sorted, last);
      assert slices == init + [last];
    }
  }

  /** An index that none of `s` carries is carried by no permutation of it. */
  lemma NotAmong(s: seq<(int, NdArray)>, t: seq<(int, NdArray)>, z: int)
    requires multiset(t) == multiset(s) && forall j :: 0 <= j < |s| ==> s[j].0 != z
    ensures forall k :: 0 <= k < |t| ==> t[k].0 != z
  {
    forall k | 0 <= k < |t|
      ensures t[k].0 != z
    {
      assert t[k] in multiset(t);
      assert t[k] in s;
    }
  }

  /** The slices gathered under any name are stacked in increasing index
      order, every one of them exactly once. */
  lemma GatherSorted(items: seq<(string, Node)>, name: string)
    requires name in Gather(items, |items|) && Gather(items, |items|)[name].Slices?
    ensures var slices := Gather(items, |items|)[name].slices;
            Increasing(SortSlices(slices)) && multiset(SortSlices(slices)) == multiset(slices)
  {
    GatherDistinct(items, |items|);
    SortIncreasing(Gather(items, |items|)[name].slices);
  }

  /** Slices that are in order already stay as they are. */
  lemma {:induction false} SortSorted(slices: seq<(int, NdArray)>)
    requires Increasing(slices)
    ensures SortSlices(slices) == slices
    decreases |slices|
  {
    if slices != [] {
      var init, last := slices[..|slices| - 1], slices[|slices| - 1];
      SortSorted(init);
      InsertLast(init, last);
      assert slices == init + [last];
    }
  }

  lemma {:induction false} InsertLast(sorted: seq<(int, NdArray)>, s: (int, NdArray))
    requires forall k :: 0 <= k < |sorted| ==> sorted[k].0 < s.0
    ensures Insert(sorted, s) == sorted + [s]
    decreases |sorted|
  {
    if sorted != [] {
      InsertLast(sorted[1..], s);
      assert sorted == [sorted[0]] + sorted[1..];
    }
  }

  function SliceArrays(slices: seq<(int, NdArray)>): (r: seq<NdArray>)
    ensures |r| == |slices| && forall k :: 0 <= k < |slices| ==> r[k] == slices[k].1
  {
    if slices == [] then [] else [slices[0].1] + SliceArrays(slices[1..])
  }

  /** `to_vol`: a whole array as it is, slices stacked in index order;
      slices of different shapes raise `ValueError`. */
  function ToVol(e: Entry): (r: Result<NdArray>)
    ensures e.Whole? ==> r == Success(e.volume)
    ensures e.Slices? && r.Success? ==> |r.value.shape| > 0 && r.value.shape[0] == |e.slices|
  {
    match e
    case Whole(a) => Success(a)
    case Slices(s) => Stack(SliceArrays(SortSlices(s)))
  }

  /** `{name: to_vol(pred) for name, pred in predictions.items()}`. */
  function ToVols(preds: map<string, Entry>): (r: Result<map<string, NdArray>>)
    ensures r.Success? <==> forall k :: k in preds ==> ToVol(preds[k]).Success?
    ensures r.Failure? ==> r.error == ValueError
    ensures r.Success? ==> r.value.Keys == preds.Keys && forall k :: k in preds ==> r.value[k] == ToVol(preds[k]).value
  {
    if exists k :: k in preds && ToVol(preds[k]).Failure? then Failure(ValueError)
    else Success(map k | k in preds && ToVol(preds[k]).Success? :: ToVol(preds[k]).value)
  }

  /** `load_predictions` on the nodes of a file in visiting order. */
  function LoadSpec(items: seq<(string, Node)>): (r: Result<map<string, NdArray>>)
    ensures r.Failure? ==> r.error == ValueError
    ensures r.Success? ==> forall i :: 0 <= i < |items| && items[i].1.Dataset? ==> EntryName(items[i].0) in r.value
    ensures r.Success? ==> forall k :: k in r.value ==> exists i :: 0 <= i < |items| && items[i].1.Dataset? && EntryName(items[i].0) == k
  {
    GatherNames(items, |items|);
    ToVols(Gather(items, |items|))
  }

  method LoadPredictions(items: seq<(string, Node)>) returns (r: Result<map<string, NdArray>>)
    ensures r == LoadSpec(items)
  {
    var predictions: map<string, Entry> := map[];
    for i := 0 to |items|
      invariant predictions == Gather(items, i)
    {
      var (name, node) := items[i];
      if node.Group? {
        continue;
      }
      var z := ParseInt(LastSegment(name));
      if z.Some? {
        var dataName := Parent(name);
        var pred: seq<(int, NdArray)> := [];
        if dataName in predictions && predictions[dataName].Slices? {
          pred := predictions[dataName].slices;
        }
        pred := SetSlice(pred, z.value, node.data);
        predictions := predictions[dataName := Slices(pred)];
      } else {
        predictions := predictions[name := Whole(node.data)];
      }
    }
    r := ToVols(predictions);
  }

  // ---------------------------------------------------------------------
  // What the evaluation writes, read back

  /** `keys` name slices `0, 1, ...` of the prediction `name`: each key's
      parent is `name` and its last segment reads as its position. */
  predicate SliceNames(keys: seq<string>, name: string) {
    forall z :: 0 <= z < |keys| ==>
      keys[z] != name && Parent(keys[z]) == name && ParseInt(LastSegment(keys[z])) == Some(z)
  }

  /** The slice datasets stored under `keys`. */
  function SliceItems(keys: seq<string>, slices: seq<NdArray>): (r: seq<(string, Node)>)
    requires |keys| == |slices|
    ensures |r| == |slices|
    ensures forall z :: 0 <= z < |slices| ==> r[z] == (keys[z], Dataset(slices[z]))
  {
    seq(|slices|, z requires 0 <= z < |slices| => (keys[z], Dataset(slices[z])))
  }

  lemma SliceItemsHierarchical(keys: seq<string>, name: string, slices: seq<NdArray>)
    requires |keys| == |slices| && SliceNames(keys, name)
    ensures Hierarchical(SliceItems(keys, slices))
  {
    var items := SliceItems(keys, slices);
    forall b | 0 <= b < |items|
      ensures Parent(items[b].0) !in DatasetNames(items)
    {
      assert Parent(items[b].0) == name;
    }
  }

  /** The first `n` slices with their indices. */
  function Indexed(slices: seq<NdArray>, n: nat): (r: seq<(int, NdArray)>)
    requires n <= |slices|
    ensures |r| == n && forall z :: 0 <= z < n ==> r[z] == (z, slices[z])
  {
    seq(n, z requires 0 <= z < n => (z, slices[z]))
  }

  /** Slice `n - 1` goes after the first `n - 1`. */
  lemma SetSliceNext(slices: seq<NdArray>, n: nat)
    requires 0 < n <= |slices|
    ensures SetSlice(Indexed(slices, n - 1), n - 1, slices[n - 1]) == Indexed(slices, n)
  {
    var prev := Indexed(slices, n - 1);
    assert IndexOf(prev, n - 1) == None;
    var grown := prev + [(n - 1, slices[n - 1])];
    forall z | 0 <= z < n
      ensures grown[z] == Indexed(slices, n)[z]
    {
    }
  }

  /** Visiting a dataset that is slice `z` of `name` sets that slice
      among the ones gathered so far. */
  lemma VisitSlice(preds: map<string, Entry>, key: string, name: string, z: int, data: NdArray, before: seq<(int, NdArray)>)
    requires Parent(key) == name && ParseInt(LastSegment(key)) == Some(z)
    requires if name in preds then preds[name] == Slices(before) else before == []
    ensures Visit(preds, key, Dataset(data)) == preds[name := Slices(SetSlice(before, z, data))]
  {
  }

  lemma GatherStep(items: seq<(string, Node)>, n: nat)
    requires Hierarchical(items) && 0 < n <= |items|
    ensures Gather(items, n) == Visit(Gather(items, n - 1), items[n - 1].0, items[n - 1].1)
  {
  }

  /** The nodes are the slices `0, 1, ...` of `name`, in that order. */
  predicate SliceNodes(items: seq<(string, Node)>, name: string, slices: seq<NdArray>) {
    |items| == |slices| &&
    forall z :: 0 <= z < |items| ==>
      items[z].1 == Dataset(slices[z]) && Parent(items[z].0) == name && ParseInt(LastSegment(items[z].0)) == Some(z)
  }

  lemma {:induction false} GatherSlices(items: seq<(string, Node)>, name: string, slices: seq<NdArray>, n: nat)
    requires Hierarchical(items) && SliceNodes(items, name, slices) && 0 < n <= |slices|
    ensures Gather(items, n) == map[name := Slices(Indexed(slices, n))]
    decreases n
  {
    if n == 1 {
      GatherFirstSlice(items, name, slices);
    } else {
      GatherSlices(items, name, slices, n - 1);
      GatherNextSlice(items, name, slices, n);
    }
  }

  /** The first slice starts the prediction `name`. */
  lemma GatherFirstSlice(items: seq<(string, Node)>, name: string, slices: seq<NdArray>)
    requires Hierarchical(items) && SliceNodes(items, name, slices) && 0 < |slices|
    ensures Gather(items, 1) == map[name := Slices(Indexed(slices, 1))]
  {
    GatherStep(items, 1);
    SetSliceNext(slices, 1);
    assert Gather(items, 0) == map[];
    VisitSlice(map[], items[0].0, name, 0, slices[0], Indexed(slices, 0));
  }

  /** Slice `n - 1` joins the slices of `name` gathered before it. */
  lemma GatherNextSlice(items: seq<(string, Node)>, name: string, slices: seq<NdArray>, n: nat)
    requires Hierarchical(items) && SliceNodes(items, name, slices) && 1 < n <= |slices|
    requires Gather(items, n - 1) == map[name := Slices(Indexed(slices, n - 1))]
    ensures Gather(items, n) == map[name := Slices(Indexed(slices, n))]
  {
    GatherStep(items, n);
    SetSliceNext(slices, n);
    var preds := map[name := Slices(Indexed(slices, n - 1))];
    VisitSlice(preds, items[n - 1].0, name, n - 1, slices[n - 1], Indexed(slices, n - 1));
    Overwrite(name, Slices(Indexed(slices, n - 1)), Slices(Indexed(slices, n)));
  }

  /** A map of one key, given that key again, holds only the new value. */
  lemma Overwrite<K, V>(k: K, v: V, w: V)
    ensures map[k := v][k := w] == map[k := w]
  {
  }

  lemma SliceItemsNodes(keys: seq<string>, name: string, slices: seq<NdArray>)
    requires |keys| == |slices| && SliceNames(keys, name)
    ensures Hierarchical(SliceItems(keys, slices)) && SliceNodes(SliceItems(keys, slices), name, slices)
  {
    SliceItemsHierarchical(keys, name, slices);
  }

  /** A single entry that stacks loads as its stack. */
  lemma ToVolsSingle(name: string, e: Entry)
    requires ToVol(e).Success?
    ensures ToVols(map[name := e]) == Success(map[name := ToVol(e).value])
  {
    var r := ToVols(map[name := e]);
    assert r.value == map[name := ToVol(e).value];
  }

  /** Slices gathered in index order stack to their stack. */
  lemma StackIndexed(name: string, slices: seq<NdArray>)
    requires slices != [] && SameShape(slices)
    ensures ToVols(map[name := Slices(Indexed(slices, |slices|))]) == Success(map[name := Stack(slices).value])
  {
    var indexed := Indexed(slices, |slices|);
    SortSorted(indexed);
    assert SliceArrays(indexed) == slices;
    ToVolsSingle(name, Slices(indexed));
  }

  /** Loading the slices of one prediction, stored under keys that name
      them, gives back their stack under the prediction's own name. */
  lemma LoadSlices(keys: seq<string>, name: string, slices: seq<NdArray>)
    requires |keys| == |slices| && SliceNames(keys, name)
    requires slices != [] && SameShape(slices)
    ensures Hierarchical(SliceItems(keys, slices)) &&
            LoadSpec(SliceItems(keys, slices)) == Success(map[name := Stack(slices).value])
  {
    SliceItemsNodes(keys, name, slices);
    GatherSlices(SliceItems(keys, slices), name, slices, |slices|);
    StackIndexed(name, slices);
  }

  /** The keys `name/0000`, `name/0001`, ... under which the evaluation
      stores the slices of a forest prediction. */
  function RfSliceKeys(name: string, n: nat): (r: seq<string>)
    ensures |r| == n && forall z :: 0 <= z < n ==> r[z] == RfKey(name, Some(z))
  {
    seq(n, z requires 0 <= z < n => RfKey(name, Some(z)))
  }

  lemma RfSliceNames(name: string, n: nat)
    ensures SliceNames(RfSliceKeys(name, n), name)
  {
    var keys := RfSliceKeys(name, n);
    forall z | 0 <= z < n
      ensures keys[z] != name && Parent(keys[z]) == name && ParseInt(LastSegment(keys[z])) == Some(z)
    {
      SliceKeys("", name, z);
      assert |keys[z]| > |name|;
    }
  }

  /** The per-slice datasets the evaluation writes for one forest
      prediction load back as their stack. */
  lemma LoadRfSlices(name: string, slices: seq<NdArray>)
    requires slices != [] && SameShape(slices)
    ensures var keys := RfSliceKeys(name, |slices|);
            Hierarchical(SliceItems(keys, slices)) &&
            LoadSpec(SliceItems(keys, slices)) == Success(map[name := Stack(slices).value])
  {
    RfSliceNames(name, |slices|);
    LoadSlices(RfSliceKeys(name, |slices|), name, slices);
  }

  /** A dataset whose last segment is not an integer is loaded as it is. */
  lemma {:induction false} WholeKept(items: seq<(string, Node)>, i: nat, n: nat)
    requires Hierarchical(items) && i < n <= |items|
    requires forall a, b :: 0 <= a < b < |items| ==> items[a].0 != items[b].0
    requires items[i].1.Dataset? && ParseInt(LastSegment(items[i].0)).None?
    ensures items[i].0 in Gather(items, n) && Gather(items, n)[items[i].0] == Whole(items[i].1.data)
    decreases n
  {
    var (name, node) := items[n - 1];
    var prev := Gather(items, n - 1);
    assert Gather(items, n) == Visit(prev, name, node);
    if n > i + 1 {
      WholeKept(items, i, n - 1);
      if node.Dataset? {
        if ParseInt(LastSegment(name)).Some? {
          assert items[i].0 in DatasetNames(items);
          assert Parent(name) != items[i].0;
        } else {
          assert name != items[i].0;
        }
        assert EntryName(name) != items[i].0;
      }
      assert items[i].0 in prev && prev[items[i].0] == Whole(items[i].1.data);
    } else {
      assert EntryName(name) == name;
    }
  }

  lemma WholeLoaded(items: seq<(string, Node)>, i: nat)
    requires Hierarchical(items) && i < |items|
    requires forall a, b :: 0 <= a < b < |items| ==> items[a].0 != items[b].0
    requires items[i].1.Dataset? && ParseInt(LastSegment(items[i].0)).None?
    ensures LoadSpec(items).Success? ==> items[i].0 in LoadSpec(items).value && LoadSpec(items).value[items[i].0] == items[i].1.data
  {
    WholeKept(items, i, |items|);
  }
}

=== FILE: selection.dfy ===
/** The regular subsampling of pretrained forests in
    `visualize_pretrained_rfs`: the checkpoint's forest paths are sorted,
    every `(len(paths) // n_forests)`-th one is taken, and at most
    `n_forests` of those are kept. Listing the folder is I/O and is left
    to the caller, who passes the paths. */
module Selection {
  import opened Common

  // ---------------------------------------------------------------------
  // Sorting paths

  /** `a < b` on Python strings: code point by code point, a proper prefix
      before the longer string. */
  predicate Below(a: string, b: string) {
    if a == [] then b != []
    else if b == [] then false
    else if a[0] != b[0] then a[0] < b[0]
    else Below(a[1..], b[1..])
  }

  lemma {:induction false} BelowIrreflexive(a: string)
    ensures !Below(a, a)
    decreases |a|
  {
    if a != [] {
      BelowIrreflexive(a[1..]);
    }
  }

  /** Two different strings are ordered one way or the other. */
  lemma {:induction false} BelowTotal(a: string, b: string)
    requires a != b
    ensures Below(a, b) || Below(b, a)
    decreases |a|
  {
    if a != [] && b != [] && a[0] == b[0] {
      assert a == [a[0]] + a[1..] && b == [b[0]] + b[1..];
      BelowTotal(a[1..], b[1..]);
    }
  }

  lemma {:induction false} BelowAsymmetric(a: string, b: string)
    requires Below(a, b)
    ensures !Below(b, a)
    decreases |a|
  {
    if a != [] && b != [] && a[0] == b[0] {
      BelowAsymmetric(a[1..], b[1..]);
    }
  }

  lemma {:induction false} BelowTransitive(a: string, b: string, c: string)
    requires Below(a, b) && Below(b, c)
    ensures Below(a, c)
    decreases |a|
  {
    if a != [] && a[0] == b[0] && b[0] == c[0] {
      BelowTransitive(a[1..], b[1..], c[1..]);
    }
  }

  /** No later path is below an earlier one. */
  predicate Sorted(s: seq<string>) {
    forall i, j :: 0 <= i < j < |s| ==> !Below(s[j], s[i])
  }

  /** `p` placed before the first path it is not above. */
  function Insert(sorted: seq<string>, p: string): (r: seq<string>)
    ensures |r| == |sorted| + 1
  {
    if sorted == [] || !Below(sorted[0], p) then [p] + sorted else [sorted[0]] + Insert(sorted[1..], p)
  }

  /** `rf_paths.sort()`. */
  function Sort(paths: seq<string>): (r: seq<string>)
    ensures |r| == |paths|
    decreases |paths|
  {
    if paths == [] then [] else Insert(Sort(paths[..|paths| - 1]), paths[|paths| - 1])
  }

  lemma {:induction false} InsertPerm(sorted: seq<string>, p: string)
    ensures multiset(Insert(sorted, p)) == multiset(sorted) + multiset{p}
    decreases |sorted|
  {
    if sorted != [] && Below(sorted[0], p) {
      InsertPerm(sorted[1..], p);
      assert sorted == [sorted[0]] + sorted[1..];
    }
  }

  /** Everything in `sorted` below `p` stays before it. */
  lemma {:induction false} InsertSorted(sorted: seq<string>, p: string)
    requires Sorted(sorted)
    ensures Sorted(Insert(sorted, p))
    decreases |sorted|
  {
    if sorted != [] && Below(sorted[0], p) {
      var rest := Insert(sorted[1..], p);
      InsertSorted(sorted[1..], p);
      InsertPerm(sorted[1..], p);
      var r := [sorted[0]] + rest;
      forall j | 0 < j < |r|
        ensures !Below(r[j], r[0])
      {
        assert r[j] in multiset(rest);
        if r[j] == p {
          BelowAsymmetric(sorted[0], p);
        } else {
          assert r[j] in sorted[1..];
          var k :| 0 <= k < |sorted[1..]| && sorted[1..][k] == r[j];
          assert sorted[k + 1] == r[j];
        }
      }
    } else if sorted != [] {
      var r := [p] + sorted;
      forall j | 0 < j < |r|
        ensures !Below(r[j], r[0])
      {
        if Below(r[j], p) {
          if j > 1 {
            assert !Below(r[j], sorted[0]);
            if r[j] == sorted[0] {
            } else {
              BelowTotal(r[j], sorted[0]);
              BelowTransitive(sorted[0], r[j], p);
            }
          }
        }
      }
    }
  }

  /** Sorting orders the paths and keeps every one of them. */
  lemma {:induction false} SortSpec(paths: seq<string>)
    ensures Sorted(Sort(paths))
    ensures multiset(Sort(paths)) == multiset(paths)
    decreases |paths|
  {
    if paths != [] {
      var init, last := paths[..|paths| - 1], paths[|paths| - 1];
      SortSpec(init);
      InsertSorted(Sort(init), last);
      InsertPerm(Sort(init), last);
      assert paths == init + [last];
    }
  }

  // ---------------------------------------------------------------------
  // Python integer division and slicing

  /** `a // b`: division rounding toward minus infinity. */
  function FloorDiv(a: int, b: int): int
    requires b != 0
  {
    if b > 0 then a / b else (-a) / (-b)
  }

  /** The quotient is rounded down whatever the signs. */
  lemma FloorDivBounds(a: int, b: int)
    requires b != 0
    ensures b > 0 ==> FloorDiv(a, b) * b <= a < FloorDiv(a, b) * b + b
    ensures b < 0 ==> FloorDiv(a, b) * b + b < a <= FloorDiv(a, b) * b
  {
    if b < 0 {
      var q := (-a) / (-b);
      assert -a == q * (-b) + (-a) % (-b);
    }
  }

  /** `s[::step]` for a positive step: `s[0]`, `s[step]`, ... */
  function Forward<T>(s: seq<T>, step: nat): (r: seq<T>)
    requires step > 0
    ensures |r| == Strides(|s|, step)
    ensures forall x :: x in r ==> x in s
    decreases |s|
  {
    if s == [] then [] else [s[0]] + Forward(s[Min(step, |s|)..], step)
  }

  /** `s[::-1]`. */
  function Reversed<T>(s: seq<T>): (r: seq<T>)
    ensures |r| == |s| && forall i :: 0 <= i < |s| ==> r[i] == s[|s| - 1 - i]
  {
    seq(|s|, i requires 0 <= i < |s| => s[|s| - 1 - i])
  }

  /** `s[::-step]` for a positive `step`: `s[-1]`, `s[-1 - step]`, ...,
      the forward stride of the reversed sequence. */
  function Backward<T>(s: seq<T>, step: nat): (r: seq<T>)
    requires step > 0
  {
    Forward(Reversed(s), step)
  }

  /** `s[::step]`; a zero step raises `ValueError`. */
  function EveryStep<T>(s: seq<T>, step: int): (r: Result<seq<T>>)
    ensures r.Failure? <==> step == 0
    ensures r.Failure? ==> r.error == ValueError
  {
    if step == 0 then Failure(ValueError)
    else if step > 0 then Success(Forward(s, step))
    else Success(Backward(s, -step))
  }

  /** `s[:n]`: a negative `n` counts from the end. */
  function Take<T>(s: seq<T>, n: int): (r: seq<T>)
    ensures n >= 0 ==> r == s[..Min(n, |s|)]
    ensures n < 0 ==> r == s[..Max(0, |s| + n)]
  {
    if n >= 0 then s[..Min(n, |s|)] else s[..Max(0, |s| + n)]
  }

  /** The number of elements `s[::step]` has for a positive step. */
  function Strides(len: nat, step: nat): nat
    requires step > 0
    decreases len
  {
    if len == 0 then 0 else 1 + Strides(len - Min(step, len), step)
  }

  /** `n` strides fit wherever `n` steps do. */
  lemma {:induction false} StridesAtLeast(len: nat, step: nat, n: nat)
    requires step > 0 && n * step <= len
    ensures Strides(len, step) >= n
    decreases n
  {
    if n > 0 {
      assert n * step == (n - 1) * step + step;
      StridesAtLeast(len - step, step, n - 1);
    }
  }

  /** `k * step`, one step at a time. */
  function Offset(k: nat, step: nat): nat {
    if k == 0 then 0 else Offset(k - 1, step) + step
  }

  lemma {:induction false} OffsetMul(k: nat, step: nat)
    ensures Offset(k, step) == k * step
  {
    if k > 0 {
      OffsetMul(k - 1, step);
      assert k * step == (k - 1) * step + step;
    }
  }

  /** Offsets grow with `k` for a positive step. */
  lemma {:induction false} OffsetLess(i: nat, j: nat, step: nat)
    requires i < j && step > 0
    ensures Offset(i, step) < Offset(j, step)
    decreases j - i
  {
    if j > i + 1 {
      OffsetLess(i, j - 1, step);
    }
  }

  lemma {:induction false} ForwardOffsets<T>(s: seq<T>, step: nat)
    requires step > 0
    ensures |Forward(s, step)| == Strides(|s|, step)
    ensures forall k :: 0 <= k < |Forward(s, step)| ==>
              Offset(k, step) < |s| && Forward(s, step)[k] == s[Offset(k, step)]
    decreases |s|
  {
    if s != [] {
      var cut := Min(step, |s|);
      var rest := s[cut..];
      ForwardOffsets(rest, step);
      var fwd := Forward(rest, step);
      var r := Forward(s, step);
      assert r == [s[0]] + fwd;
      assert Strides(|s|, step) == 1 + Strides(|rest|, step);
      forall k | 0 < k < |r|
        ensures Offset(k, step) < |s| && r[k] == s[Offset(k, step)]
      {
        var m := Offset(k - 1, step);
        assert r[k] == fwd[k - 1];
        assert m < |rest| && fwd[k - 1] == rest[m];
        assert cut == step;
        assert Offset(k, step) == step + m;
      }
    }
  }

  /** A backward stride picks the elements at multiples of the step from
      the end, last first. */
  lemma BackwardAt<T>(s: seq<T>, step: nat)
    requires step > 0
    ensures |Backward(s, step)| == Strides(|s|, step)
    ensures forall k :: 0 <= k < |Backward(s, step)| ==>
              Offset(k, step) < |s| && Backward(s, step)[k] == s[|s| - 1 - Offset(k, step)]
  {
    ForwardOffsets(Reversed(s), step);
  }

  // ---------------------------------------------------------------------
  // Regular selection

  /** `rf_paths.sort(); rf_paths[::(len(rf_paths) // n_forests)][:n_forests]`:
      `n_forests == 0` raises `ZeroDivisionError`, a step of zero
      `ValueError`. */
  function SelectRegular(paths: seq<string>, n: int): (r: Result<seq<string>>)
    ensures n == 0 ==> r == Failure(ZeroDivisionError)
  {
    if n == 0 then Failure(ZeroDivisionError)
    else
      match EveryStep(Sort(paths), FloorDiv(|paths|, n))
      case Failure(e) => Failure(e)
      case Success(strided) => Success(Take(strided, n))
  }

  /** Asking for more forests than the checkpoint holds, or for any forest
      of an empty checkpoint, makes the step zero. */
  lemma SelectTooMany(paths: seq<string>, n: int)
    requires n > |paths|
    ensures SelectRegular(paths, n) == Failure(ValueError)
  {
    assert FloorDiv(|paths|, n) == 0 by {
      DivSmall(|paths|, n);
    }
  }

  lemma DivSmall(a: nat, b: nat)
    requires a < b
    ensures a / b == 0
  {
  }

  /** Element `k` of `r` is element `k * step` of `s` (`OffsetMul`). */
  predicate PicksEvery(r: seq<string>, s: seq<string>, step: nat) {
    forall k :: 0 <= k < |r| ==> Offset(k, step) < |s| && r[k] == s[Offset(k, step)]
  }

  /** Asking for `n` forests out of at least `n` gives exactly `n`: the
      sorted paths at multiples of `len // n`, in order, all from the
      checkpoint. */
  lemma SelectRegularSpec(paths: seq<string>, n: int)
    requires 0 < n <= |paths|
    ensures var r := SelectRegular(paths, n);
            var step := |paths| / n;
            r.Success? && |r.value| == n &&
            PicksEvery(r.value, Sort(paths), step) &&
            Sorted(r.value) && multiset(r.value) <= multiset(paths)
  {
    var sorted := Sort(paths);
    var step := FloorDiv(|paths|, n);
    assert step == |paths| / n;
    StrideCount(|paths|, n);
    SortSpec(paths);
    StridePrefix(sorted, step, n);
    var strided := Forward(sorted, step);
    assert SelectRegular(paths, n) == Success(strided[..n]);
  }

  /** The first `n` elements of a stride over sorted paths: the elements
      at multiples of the step, in order, each taken at most once. */
  lemma StridePrefix(sorted: seq<string>, step: nat, n: nat)
    requires Sorted(sorted) && step > 0 && n <= Strides(|sorted|, step)
    ensures n <= |Forward(sorted, step)|
    ensures var r := Forward(sorted, step)[..n];
            PicksEvery(r, sorted, step) && Sorted(r) && multiset(r) <= multiset(sorted)
  {
    ForwardOffsets(sorted, step);
    SubSorted(sorted, step, n);
    SubMultiset(sorted, step, n);
  }

  /** Element `k` of `r` is element `k * step` of `s` counted from the end. */
  predicate PicksBackward<T(==)>(r: seq<T>, s: seq<T>, step: nat) {
    forall k :: 0 <= k < |r| ==> Offset(k, step) < |s| && r[k] == s[|s| - 1 - Offset(k, step)]
  }

  /** A negative count walks the sorted paths backwards from the last one
      with step `|len // n|` and then drops `|n|` from the end (what that
      keeps is `BackwardTake`); without paths the step is zero. */
  lemma SelectNegative(paths: seq<string>, n: int)
    requires n < 0
    ensures paths == [] ==> SelectRegular(paths, n) == Failure(ValueError)
    ensures paths != [] ==>
              -FloorDiv(|paths|, n) > 0 &&
              SelectRegular(paths, n) == Success(Take(Backward(Sort(paths), -FloorDiv(|paths|, n)), n))
  {
    if paths != [] {
      NegativeStep(|paths|, n);
    }
  }

  /** `len // n` is negative for a negative `n` and a positive length. */
  lemma NegativeStep(len: nat, n: int)
    requires len > 0 && n < 0
    ensures -FloorDiv(len, n) > 0
  {
    var a := -(len as int);
    var q := a / (-n);
    assert a == q * (-n) + a % (-n);
  }

  /** `s[::-step][:n]` for a negative `n`: the backward stride without its
      last `|n|` elements. */
  lemma BackwardTake<T>(s: seq<T>, step: nat, n: int)
    requires step > 0 && n < 0
    ensures var r := Take(Backward(s, step), n);
            |r| == Max(0, Strides(|s|, step) + n) && PicksBackward(r, s, step)
  {
    BackwardAt(s, step);
  }

  /** With step `len // n`, at least `n` strides fit in `len`. */
  lemma StrideCount(len: nat, n: nat)
    requires 0 < n <= len
    ensures len / n >= 1 && Strides(len, len / n) >= n
  {
    var step := len / n;
    DivPositive(len, n);
    assert len == step * n + len % n;
    assert n * step <= len;
    StridesAtLeast(len, step, n);
  }

  lemma DivPositive(a: nat, b: nat)
    requires 0 < b <= a
    ensures a / b >= 1
  {
    var q := a / b;
    assert a == q * b + a % b;
  }

  /** Elements picked at increasing positions of a sorted sequence are
      sorted. */
  lemma SubSorted(sorted: seq<string>, step: nat, n: nat)
    requires Sorted(sorted) && step > 0 && n <= |Forward(sorted, step)|
    ensures Sorted(Forward(sorted, step)[..n])
  {
    ForwardOffsets(sorted, step);
    var r := Forward(sorted, step)[..n];
    forall i, j | 0 <= i < j < |r|
      ensures !Below(r[j], r[i])
    {
      OffsetLess(i, j, step);
      assert r[i] == sorted[Offset(i, step)] && r[j] == sorted[Offset(j, step)];
    }
  }

  /** A stride takes each element of the sequence at most once. */
  lemma SubMultiset(sorted: seq<string>, step: nat, n: nat)
    requires step > 0 && n <= |Forward(sorted, step)|
    ensures multiset(Forward(sorted, step)[..n]) <= multiset(sorted)
  {
    ForwardMultiset(sorted, step);
    var f := Forward(sorted, step);
    assert f == f[..n] + f[n..];
  }

  lemma {:induction false} ForwardMultiset<T>(s: seq<T>, step: nat)
    requires step > 0
    ensures multiset(Forward(s, step)) <= multiset(s)
    decreases |s|
  {
    if s != [] {
      var k := Min(step, |s|);
      ForwardMultiset(s[k..], step);
      assert s == [s[0]] + s[1..k] + s[k..];
    }
  }
}

=== FILE: trainer.dfy ===
/** The training loop of `DefaultTrainer` and its checkpoint bookkeeping.

    Tensors, devices, the logger and files are abstracted: a loader is its
    number of batches, the model, optimizer, gradient scaler and learning
    rate scheduler are state tokens that count the updates applied to them,
    the checkpoint folder is a map from slot name to what was saved there, and
    the validation metric of a batch is given by a score function of the
    model state and the batch index. */
module Trainer {
  import opened Common
  import opened Manifest

  /** A validation metric: `np.inf` or a finite number. */
  datatype Metric = Inf | Finite(value: real)

  /** `a < b` on metrics; nothing is below a finite value except a smaller
      finite value, and `inf` is below nothing. */
  predicate Below(a: Metric, b: Metric) {
    a.Finite? && (b.Inf? || a.value < b.value)
  }

  /** A logger class: its full class path, whether it is a `WandbLogger`
      subclass, and the run name its constructor gives a trainer whose
      `name` is `None` (`None` when it gives none). */
  datatype LoggerClass = LoggerClass(path: string, isWandb: bool, runName: Option<string>)

  /** The constructor arguments of a trainer. A loader argument that is
      `None` or lacks a `shuffle` attribute is rejected on construction. */
  datatype Config = Config(
    name: Option<string>,
    trainLoader: Option<Loader>,
    valLoader: Option<Loader>,
    model: Option<Component>,
    loss: Option<Component>,
    optimizer: Option<Component>,
    metric: Option<Component>,
    device: Option<string>,
    lrScheduler: Option<Component>,
    logImageInterval: int,
    mixedPrecision: bool,
    earlyStopping: Option<int>,
    logger: Option<LoggerClass>,
    loggerKwargs: Option<map<string, Value>>)

  predicate HasShuffle(l: Option<Loader>) {
    l.Some? && l.value.hasShuffle
  }

  /** The checks of `__init__`: a run without a name needs a wandb logger
      (`issubclass(None, ...)` raises the same `TypeError`), and both
      loaders need a `shuffle` attribute. */
  function InitCheck(cfg: Config): (r: Outcome)
    ensures r == Fail(TypeError) <==> cfg.name.None? && !(cfg.logger.Some? && cfg.logger.value.isWandb)
    ensures r == Fail(ValueError) <==> (cfg.name.Some? || (cfg.logger.Some? && cfg.logger.value.isWandb))
                                       && !(HasShuffle(cfg.trainLoader) && HasShuffle(cfg.valLoader))
    ensures r.Pass? || r == Fail(TypeError) || r == Fail(ValueError)
  {
    if cfg.name.None? && !(cfg.logger.Some? && cfg.logger.value.isWandb) then Fail(TypeError)
    else if !(HasShuffle(cfg.trainLoader) && HasShuffle(cfg.valLoader)) then Fail(ValueError)
    else Pass
  }

  /** The number of batches of the training and the validation loader. */
  function Batches(l: Option<Loader>): nat {
    if l.Some? then l.value.batches else 0
  }

  /** What `_initialize` asserts before anything else. */
  predicate Complete(cfg: Config) {
    && cfg.trainLoader.Some? && cfg.valLoader.Some?
    && cfg.model.Some? && cfg.loss.Some? && cfg.optimizer.Some? && cfg.metric.Some?
    && cfg.device.Some?
  }

  /** The components `_build_init` records for a complete configuration. */
  function AsSetup(cfg: Config): Setup
    requires Complete(cfg)
  {
    Setup(cfg.model.value, cfg.loss.value, cfg.optimizer.value, cfg.metric.value, cfg.device.value,
          cfg.logImageInterval, cfg.mixedPrecision, cfg.earlyStopping,
          if cfg.logger.Some? then Some(cfg.logger.value.path) else None,
          cfg.loggerKwargs, cfg.trainLoader.value, cfg.valLoader.value, cfg.lrScheduler)
  }

  /** A value in a saved checkpoint dictionary. */
  datatype Field =
    | Count(n: nat)
    | Score(m: Metric)
    | Token(t: nat)
    | Manifest(init: map<string, Value>)
    | Extra(v: Value)

  type SaveDict = map<string, Field>

  /** Everything about a trainer that training and checkpointing change.
      `bestMetric` is the attribute `load_checkpoint` sets (`None` until
      then); the scaler exists iff mixed precision is on, the scheduler
      iff one was given; `name` is the run name, which names the
      checkpoint folder `./checkpoints/<name>` and which the logger may
      set; `checkpoints` is what that folder holds. */
  datatype State = State(
    iteration: nat,
    epoch: nat,
    bestEpoch: nat,
    bestMetric: Option<Metric>,
    maxIteration: nat,
    maxEpoch: nat,
    initData: map<string, Value>,
    model: nat,
    optimizer: nat,
    scaler: Option<nat>,
    scheduler: Option<nat>,
    checkpoints: map<string, Snapshot>,
    name: Option<string>)

  /** The state of a newly constructed trainer: all counters at zero, the
      name it was given, and the checkpoint folder as it is on disk,
      `folder`, which may hold the slots of an earlier trainer of the same
      name. */
  function Fresh(cfg: Config, folder: map<string, Snapshot>): State {
    State(0, 0, 0, None, 0, 0, map[], 0, 0,
          if cfg.mixedPrecision then Some(0) else None,
          if cfg.lrScheduler.Some? then Some(0) else None,
          folder, cfg.name)
  }

  // ---------------------------------------------------------------------
  // save_checkpoint

  /** What one call of `save_checkpoint` puts in a checkpoint file: the
      counters, model, optimizer, scaler and scheduler state of the trainer
      at that moment, the manifest, the best metric passed in and the extra
      entries. `AsDict` is the dictionary the file holds. */
  datatype Snapshot = Snapshot(
    iteration: nat,
    epoch: nat,
    bestEpoch: nat,
    best: Metric,
    model: nat,
    optimizer: nat,
    init: map<string, Value>,
    scaler: Option<nat>,
    scheduler: Option<nat>,
    extras: SaveDict)

  function Snap(st: State, best: Metric, extras: SaveDict): Snapshot {
    Snapshot(st.iteration, st.epoch, st.bestEpoch, best, st.model, st.optimizer, st.initData,
             st.scaler, st.scheduler, extras)
  }

  /** The dictionary `save_checkpoint` writes: the counters, the best metric
      passed in, model and optimizer state and the manifest, then the extra
      entries (which may override these), then the scaler and scheduler
      state when those objects exist. */
  function AsDict(s: Snapshot): (r: SaveDict)
    ensures s.scaler.Some? ==> "scaler_state" in r && r["scaler_state"] == Token(s.scaler.value)
    ensures s.scheduler.Some? ==> "scheduler_state" in r && r["scheduler_state"] == Token(s.scheduler.value)
    ensures forall k :: k in s.extras && k != "scaler_state" && k != "scheduler_state" ==> k in r && r[k] == s.extras[k]
    ensures "iteration" !in s.extras ==> "iteration" in r && r["iteration"] == Count(s.iteration)
    ensures "model_state" !in s.extras ==> "model_state" in r && r["model_state"] == Token(s.model)
  {
    var d := BaseSaveDict(s.iteration, s.epoch, s.bestEpoch, s.best, s.model, s.optimizer, s.init) + s.extras;
    var d' := if s.scaler.Some? then d + map["scaler_state" := Token(s.scaler.value)] else d;
    if s.scheduler.Some? then d' + map["scheduler_state" := Token(s.scheduler.value)] else d'
  }

  /** The dictionary literal of `save_checkpoint`. */
  function BaseSaveDict(iteration: nat, epoch: nat, bestEpoch: nat, best: Metric,
                        model: nat, optimizer: nat, init: map<string, Value>): SaveDict {
    map[
      "iteration" := Count(iteration),
      "epoch" := Count(epoch),
      "best_epoch" := Count(bestEpoch),
      "best_metric" := Score(best),
      "model_state" := Token(model),
      "optimizer_state" := Token(optimizer),
      "init" := Manifest(init)]
  }

  /** The dictionary a save from state `st` writes. */
  function MakeSaveDict(st: State, best: Metric, extras: SaveDict): SaveDict {
    AsDict(Snap(st, best, extras))
  }

  function Save(st: State, name: string, best: Metric, extras: SaveDict): State {
    st.(checkpoints := st.checkpoints[name := Snap(st, best, extras)])
  }

  // ---------------------------------------------------------------------
  // load_checkpoint

  /** The entries `load_checkpoint` reads, one per statement. */
  datatype Part =
    | IterationPart
    | EpochPart
    | BestEpochPart
    | BestMetricPart
    | ModelPart
    | OptimizerPart
    | ScalerPart
    | SchedulerPart

  function Key(p: Part): string {
    match p
    case IterationPart => "iteration"
    case EpochPart => "epoch"
    case BestEpochPart => "best_epoch"
    case BestMetricPart => "best_metric"
    case ModelPart => "model_state"
    case OptimizerPart => "optimizer_state"
    case ScalerPart => "scaler_state"
    case SchedulerPart => "scheduler_state"
  }

  /** The reading order: the four counters, model and optimizer state, then
      scaler and scheduler state only for the objects that exist. */
  function LoadOrder(st: State): seq<Part> {
    [IterationPart, EpochPart, BestEpochPart, BestMetricPart, ModelPart, OptimizerPart] + OptionalParts(st)
  }

  function OptionalParts(st: State): seq<Part> {
    (if st.scaler.Some? then [ScalerPart] else []) + (if st.scheduler.Some? then [SchedulerPart] else [])
  }

  /** One assignment of `load_checkpoint`. */
  function Assign(st: State, p: Part, f: Field): (r: Result<State>)
    ensures r.Success? ==> r.value.checkpoints == st.checkpoints && r.value.initData == st.initData
                           && r.value.name == st.name
    ensures r.Success? ==> r.value.scaler.Some? == st.scaler.Some? || p == ScalerPart
    ensures r.Success? ==> r.value.scheduler.Some? == st.scheduler.Some? || p == SchedulerPart
  {
    match (p, f)
    case (IterationPart, Count(n)) => Success(st.(iteration := n))
    case (EpochPart, Count(n)) => Success(st.(epoch := n))
    case (BestEpochPart, Count(n)) => Success(st.(bestEpoch := n))
    case (BestMetricPart, Score(m)) => Success(st.(bestMetric := Some(m)))
    case (ModelPart, Token(t)) => Success(st.(model := t))
    case (OptimizerPart, Token(t)) => Success(st.(optimizer := t))
    case (ScalerPart, Token(t)) => Success(st.(scaler := Some(t)))
    case (SchedulerPart, Token(t)) => Success(st.(scheduler := Some(t)))
    case _ => Failure(TypeError)
  }

  /** One statement of `load_checkpoint`: a missing key raises `KeyError`. */
  function LoadOne(st: State, d: SaveDict, p: Part): (r: (State, Outcome))
    ensures r.1.Fail? ==> r.0 == st
    ensures r.0.scaler.Some? == st.scaler.Some? || p == ScalerPart
    ensures r.0.scheduler.Some? == st.scheduler.Some? || p == SchedulerPart
  {
    if Key(p) !in d then (st, Fail(KeyError(Key(p))))
    else match Assign(st, p, d[Key(p)])
      case Failure(e) => (st, Fail(e))
      case Success(next) => (next, Pass)
  }

  /** The statements in order; a failure leaves the earlier assignments in
      place. */
  function LoadParts(st: State, d: SaveDict, parts: seq<Part>): (r: (State, Outcome))
    ensures r.0.checkpoints == st.checkpoints && r.0.initData == st.initData && r.0.name == st.name
    ensures r.1.Pass? ==> forall i :: 0 <= i < |parts| ==> Key(parts[i]) in d
    decreases |parts|
  {
    if parts == [] then (st, Pass)
    else
      var (next, o) := LoadOne(st, d, parts[0]);
      if o.Fail? then (next, o) else LoadParts(next, d, parts[1..])
  }

  /** The argument of `load_checkpoint`: a slot name, a dictionary, or
      anything else. */
  datatype CheckpointArg = Slot(name: string) | Dict(d: SaveDict) | Unsupported

  /** `load_checkpoint`: a named slot needs the checkpoint folder, whose
      property asserts that the trainer has a name; a slot that does not
      exist only warns. */
  function LoadSpec(st: State, arg: CheckpointArg): (r: (State, Outcome))
    ensures arg.Slot? && st.name.None? ==> r == (st, Fail(AssertionError))
    ensures arg.Slot? && st.name.Some? && arg.name !in st.checkpoints ==> r == (st, Pass)
    ensures arg.Unsupported? ==> r == (st, Fail(RuntimeError))
    ensures r.0.checkpoints == st.checkpoints && r.0.initData == st.initData && r.0.name == st.name
  {
    match arg
    case Slot(slot) =>
      if st.name.None? then (st, Fail(AssertionError))
      else if slot in st.checkpoints then LoadParts(st, AsDict(st.checkpoints[slot]), LoadOrder(st))
      else (st, Pass)
    case Dict(d) => LoadParts(st, d, LoadOrder(st))
    case Unsupported => (st, Fail(RuntimeError))
  }

  // ---------------------------------------------------------------------
  // _initialize

  /** `int(np.ceil(i / b))` for a positive batch count, on exact integers. */
  function CeilDiv(i: nat, b: nat): (r: nat)
    requires b > 0
    ensures r * b >= i
    ensures r > 0 ==> (r - 1) * b < i
    decreases i
  {
    if i == 0 then 0 else if i <= b then 1 else 1 + CeilDiv(i - b, b)
  }

  /** `_initialize`: the assertions, the optional load, the iteration budget,
      the epoch budget (dividing by the number of training batches), the
      manifest, the logger, and the checkpoint folder, which needs a name;
      the best metric it returns is always `inf`. */
  function InitSpec(cfg: Config, st: State, iterations: nat, load: Option<CheckpointArg>): (r: (State, Result<Metric>))
    ensures r.1.Success? ==> r.1.value == Inf && r.0.name.Some?
    ensures r.1.Success? ==> r.0.maxIteration == r.0.iteration + iterations
    ensures r.1.Success? ==> Batches(cfg.trainLoader) > 0
                             && r.0.maxEpoch == r.0.epoch + CeilDiv(iterations, Batches(cfg.trainLoader))
    ensures !Complete(cfg) ==> r == (st, Failure(AssertionError))
  {
    if !Complete(cfg) then (st, Failure(AssertionError))
    else
      var (loaded, o) := if load.Some? then LoadSpec(st, load.value) else (st, Pass);
      if o.Fail? then (loaded, Failure(o.error)) else Budget(cfg, loaded, iterations)
  }

  /** The name after the logger is built: a logger class may give a
      trainer without a name its run name; without a logger class the name
      stays. */
  function LoggerName(cfg: Config, name: Option<string>): (r: Option<string>)
    ensures name.Some? ==> r == name
    ensures name.None? && cfg.logger.None? ==> r.None?
  {
    if name.None? && cfg.logger.Some? then cfg.logger.value.runName else name
  }

  /** The rest of `_initialize` once the checkpoint, if any, is loaded;
      `os.makedirs(self.checkpoint_folder)` asserts that there is a name
      by now. */
  function Budget(cfg: Config, st: State, iterations: nat): (r: (State, Result<Metric>))
    requires Complete(cfg)
    ensures r.0.iteration == st.iteration && r.0.epoch == st.epoch && r.0.checkpoints == st.checkpoints
    ensures r.0.maxIteration == st.iteration + iterations
    ensures r.1.Failure? <==> Batches(cfg.trainLoader) == 0 || LoggerName(cfg, st.name).None?
    ensures r.1.Failure? ==> r.1.error == if Batches(cfg.trainLoader) == 0 then ZeroDivisionError else AssertionError
    ensures r.1.Success? ==> r.1.value == Inf && r.0.initData == BuildInit(AsSetup(cfg)) && r.0.name == LoggerName(cfg, st.name)
                             && r.0.maxEpoch >= st.epoch && (r.0.maxEpoch - st.epoch) * Batches(cfg.trainLoader) >= iterations
  {
    var budgeted := st.(maxIteration := st.iteration + iterations);
    if Batches(cfg.trainLoader) == 0 then (budgeted, Failure(ZeroDivisionError))
    else PrepareSpec(cfg, budgeted.(maxEpoch := budgeted.epoch + CeilDiv(iterations, Batches(cfg.trainLoader))))
  }

  /** The end of `_initialize`: the manifest, the logger, which may give
      the trainer a name, and the folder, which needs one. */
  function PrepareSpec(cfg: Config, st: State): (r: (State, Result<Metric>))
    requires Complete(cfg)
    ensures r.0 == st.(initData := r.0.initData, name := r.0.name)
    ensures r.0.initData == BuildInit(AsSetup(cfg)) && r.0.name == LoggerName(cfg, st.name)
    ensures r.1.Failure? <==> r.0.name.None?
    ensures r.1.Failure? ==> r.1.error == AssertionError
    ensures r.1.Success? ==> r.1.value == Inf
  {
    var built := st.(initData := BuildInit(AsSetup(cfg)), name := LoggerName(cfg, st.name));
    if built.name.None? then (built, Failure(AssertionError)) else (built, Success(Inf))
  }

  // ---------------------------------------------------------------------
  // _train_epoch_impl and _validate_impl

  /** The iteration counter after one epoch of `b` batches: every batch adds
      one and the loop stops once the counter reaches the budget, so a
      counter already at the budget still takes one step. */
  function EpochEnd(it: nat, max: nat, b: nat): (r: nat)
    requires b > 0
    ensures it < r <= it + b
    ensures it < max ==> r <= max
    ensures r < it + b ==> r >= max
  {
    if it >= max then it + 1 else Min(it + b, max)
  }

  /** `k` optimisation steps: the counter, model, optimizer and scaler each
      advance by `k`. */
  function Trained(st: State, k: nat): State {
    st.(iteration := st.iteration + k, model := st.model + k, optimizer := st.optimizer + k,
        scaler := if st.scaler.Some? then Some(st.scaler.value + k) else None)
  }

  lemma TrainedTwice(st: State, k: nat)
    ensures Trained(Trained(st, k), 1) == Trained(st, k + 1)
  {
  }

  /** One training epoch of `b` batches; it returns the number of batches it
      ran. A `log_image_interval` of 0 fails on the `%` of the first batch,
      before anything is updated, and an empty loader fails on the division
      by the number of batches run. */
  function TrainSpec(st: State, b: nat, interval: int): (r: Result<(State, nat)>)
    ensures r.Failure? <==> b == 0 || interval == 0
    ensures r.Failure? ==> r.error == ZeroDivisionError
  {
    if b == 0 || interval == 0 then Failure(ZeroDivisionError)
    else
      var k := EpochEnd(st.iteration, st.maxIteration, b) - st.iteration;
      Success((Trained(st, k), k))
  }

  /** The sum of the scores of the first `n` validation batches. */
  function ScoreSum(score: (nat, nat) -> real, model: nat, n: nat): real {
    if n == 0 then 0.0 else ScoreSum(score, model, n - 1) + score(model, n - 1)
  }

  /** The mean validation metric over `n` batches; a `log_image_interval` of
      0 fails on the `%` of the first batch, an empty loader on the division. */
  function MeanScore(score: (nat, nat) -> real, model: nat, n: nat, interval: int): (r: Result<Metric>)
    ensures r.Failure? <==> n == 0 || interval == 0
    ensures r.Failure? ==> r.error == ZeroDivisionError
    ensures r.Success? ==> r.value.Finite?
  {
    if n == 0 || interval == 0 then Failure(ZeroDivisionError) else Success(Finite(ScoreSum(score, model, n) / n as real))
  }

  // ---------------------------------------------------------------------
  // fit

  /** The bookkeeping after validation: a strictly better metric becomes the
      best, its epoch the best epoch, and is saved to "best"; "latest" is
      saved every time, after "best". */
  function Bookkeep(st: State, best: Metric, m: Metric): (r: (State, Metric))
    ensures Below(m, best) ==> r.1 == m && r.0.bestEpoch == st.epoch
    ensures !Below(m, best) ==> r.1 == best && r.0.bestEpoch == st.bestEpoch
  {
    if Below(m, best) then
      var improved := st.(bestEpoch := st.epoch);
      (Save(Save(improved, "best", m, map[]), "latest", m, map[]), m)
    else
      (Save(st, "latest", best, map[]), best)
  }

  /** Early stopping after an epoch that has been booked. */
  predicate StopsEarly(cfg: Config, st: State) {
    cfg.earlyStopping.Some? && st.epoch as int - st.bestEpoch as int > cfg.earlyStopping.value
  }

  function StepScheduler(st: State): State {
    st.(scheduler := if st.scheduler.Some? then Some(st.scheduler.value + 1) else None)
  }

  datatype Status = Completed | EarlyStopped | Raised(error: Error)

  /** Where the epoch loop leaves the trainer and its local best metric. */
  datatype Run = Run(st: State, best: Metric, status: Status)

  /** One pass of the epoch loop body, up to the early-stopping check:
      train, validate, step the scheduler, book the result. */
  function EpochStep(cfg: Config, st: State, best: Metric, score: (nat, nat) -> real): (r: Run)
    ensures r.status.Raised? <==> Batches(cfg.trainLoader) == 0 || Batches(cfg.valLoader) == 0 || cfg.logImageInterval == 0
    ensures r.status.Raised? ==> r.status.error == ZeroDivisionError
    ensures r.st.epoch == st.epoch && r.st.maxIteration == st.maxIteration && r.st.maxEpoch == st.maxEpoch
    ensures r.st.name == st.name && r.st.initData == st.initData
  {
    match TrainSpec(st, Batches(cfg.trainLoader), cfg.logImageInterval)
    case Failure(e) => Run(st, best, Raised(e))
    case Success((trained, _)) =>
      match MeanScore(score, trained.model, Batches(cfg.valLoader), cfg.logImageInterval)
      case Failure(e) => Run(trained, best, Raised(e))
      case Success(m) =>
        var (booked, best') := Bookkeep(StepScheduler(trained), best, m);
        Run(booked, best', if StopsEarly(cfg, booked) then EarlyStopped else Completed)
  }

  /** The epoch counter advanced at the end of an epoch that did not stop
      the loop. */
  function NextEpoch(st: State): State {
    st.(epoch := st.epoch + 1)
  }

  /** The epoch loop of `fit` with `n` epochs to go; the epoch counter
      advances after an epoch that did not stop the loop. */
  function Loop(cfg: Config, st: State, best: Metric, n: nat, score: (nat, nat) -> real): (r: Run)
    ensures r.status.Raised? ==> r.status.error == ZeroDivisionError
    decreases n
  {
    if n == 0 then Run(st, best, Completed)
    else
      var e := EpochStep(cfg, st, best, score);
      if e.status != Completed then e
      else Loop(cfg, NextEpoch(e.st), e.best, n - 1, score)
  }

  lemma LoopContinues(cfg: Config, st: State, best: Metric, n: nat, score: (nat, nat) -> real)
    requires n > 0 && EpochStep(cfg, st, best, score).status == Completed
    ensures var e := EpochStep(cfg, st, best, score);
            Loop(cfg, st, best, n, score) == Loop(cfg, NextEpoch(e.st), e.best, n - 1, score)
  {
  }

  lemma LoopLeaves(cfg: Config, st: State, best: Metric, n: nat, score: (nat, nat) -> real)
    requires n > 0 && EpochStep(cfg, st, best, score).status != Completed
    ensures Loop(cfg, st, best, n, score) == EpochStep(cfg, st, best, score)
  {
  }

  /** The loop keeps the budgets, advances the epoch counter by at most
      `n`, and completes exactly when it has run all `n` epochs. */
  lemma {:induction false} LoopBounds(cfg: Config, st: State, best: Metric, n: nat, score: (nat, nat) -> real)
    ensures var r := Loop(cfg, st, best, n, score);
            r.st.maxIteration == st.maxIteration && r.st.maxEpoch == st.maxEpoch
            && r.st.name == st.name && r.st.initData == st.initData
    ensures var r := Loop(cfg, st, best, n, score);
            st.epoch <= r.st.epoch <= st.epoch + n
    ensures var r := Loop(cfg, st, best, n, score);
            r.status == Completed <==> r.st.epoch == st.epoch + n
    decreases n
  {
    if n > 0 {
      var e := EpochStep(cfg, st, best, score);
      if e.status == Completed {
        LoopContinues(cfg, st, best, n, score);
        LoopBounds(cfg, NextEpoch(e.st), e.best, n - 1, score);
      } else {
        LoopLeaves(cfg, st, best, n, score);
      }
    }
  }

  /** What `fit` returns once the loop has ended: only an exception fails. */
  function Finish(run: Run): Outcome {
    if run.status.Raised? then Fail(run.status.error) else Pass
  }

  /** The number of epochs `range(max_epoch - epoch)` runs. */
  function EpochsLeft(st: State): nat {
    if st.maxEpoch >= st.epoch then st.maxEpoch - st.epoch else 0
  }

  /** The end of `fit`: a name that the logger generated is dropped, so
      that the next `fit` generates a new one. An exception skips this. */
  function Finished(cfg: Config, run: Run): State {
    if !run.status.Raised? && cfg.name.None? then run.st.(name := None) else run.st
  }

  /** `fit`: initialise, then run the remaining epochs. */
  function FitSpec(cfg: Config, st: State, iterations: nat, load: Option<CheckpointArg>,
                   score: (nat, nat) -> real): (r: (State, Outcome))
    ensures !Complete(cfg) ==> r == (st, Fail(AssertionError))
    ensures var init := InitSpec(cfg, st, iterations, load).0;
            InitSpec(cfg, st, iterations, load).1.Success? ==>
              && r.0.maxIteration == init.maxIteration && r.0.maxEpoch == init.maxEpoch
              && init.epoch <= r.0.epoch <= init.epoch + EpochsLeft(init)
              && (r.1.Fail? ==> r.1.error == ZeroDivisionError && r.0.name == init.name)
              && (r.1.Pass? ==> r.0.name == if cfg.name.None? then None else init.name)
  {
    var (init, best) := InitSpec(cfg, st, iterations, load);
    if best.Failure? then (init, Fail(best.error))
    else
      var run := Loop(cfg, init, best.value, EpochsLeft(init), score);
      LoopBounds(cfg, init, best.value, EpochsLeft(init), score);
      (Finished(cfg, run), Finish(run))
  }

  // ---------------------------------------------------------------------
  // The trainer object

  class DefaultTrainer {
    const config: Config
    var iteration: nat
    var epoch: nat
    var bestEpoch: nat
    var bestMetric: Option<Metric>
    var maxIteration: nat
    var maxEpoch: nat
    var initData: map<string, Value>
    var modelState: nat
    var optimizerState: nat
    var scalerState: Option<nat>
    var schedulerState: Option<nat>
    var checkpoints: map<string, Snapshot>
    var name: Option<string>

    ghost function St(): State
      reads this
    {
      State(iteration, epoch, bestEpoch, bestMetric, maxIteration, maxEpoch, initData,
            modelState, optimizerState, scalerState, schedulerState, checkpoints, name)
    }

    /** `__init__` once its checks have passed, next to a checkpoint folder
        that holds `folder`. */
    constructor (cfg: Config, folder: map<string, Snapshot>)
      requires InitCheck(cfg) == Pass
      ensures config == cfg && St() == Fresh(cfg, folder)
    {
      config := cfg;
      iteration, epoch, bestEpoch := 0, 0, 0;
      bestMetric := None;
      maxIteration, maxEpoch := 0, 0;
      initData := map[];
      modelState, optimizerState := 0, 0;
      scalerState := if cfg.mixedPrecision then Some(0) else None;
      schedulerState := if cfg.lrScheduler.Some? then Some(0) else None;
      checkpoints := folder;
      name := cfg.name;
    }

    /** `__init__` with its checks: a trainer with counters at zero, or the
        exception. */
    static method Create(cfg: Config, folder: map<string, Snapshot>) returns (r: Result<DefaultTrainer>)
      ensures r.Failure? <==> InitCheck(cfg).Fail?
      ensures r.Failure? ==> InitCheck(cfg) == Fail(r.error)
      ensures r.Success? ==> fresh(r.value) && r.value.config == cfg && r.value.St() == Fresh(cfg, folder)
    {
      var check := InitCheck(cfg);
      if check.Fail? {
        return Failure(check.error);
      }
      var t := new DefaultTrainer(cfg, folder);
      return Success(t);
    }

    method SaveCheckpoint(name: string, best: Metric, extras: SaveDict)
      modifies this
      ensures St() == Save(old(St()), name, best, extras)
    {
      var snapshot := Snapshot(iteration, epoch, bestEpoch, best, modelState, optimizerState, initData,
                               scalerState, schedulerState, extras);
      checkpoints := checkpoints[name := snapshot];
    }

    /** One statement of `load_checkpoint`. */
    method LoadPart(d: SaveDict, p: Part) returns (o: Outcome)
      modifies this
      ensures (St(), o) == LoadOne(old(St()), d, p)
    {
      var key := Key(p);
      if key !in d {
        return Fail(KeyError(key));
      }
      o := AssignPart(p, d[key]);
    }

    /** The assignment of one statement of `load_checkpoint`, once its
        key is found. */
    method AssignPart(p: Part, f: Field) returns (o: Outcome)
      modifies this
      ensures o.Fail? ==> St() == old(St()) && Assign(old(St()), p, f) == Failure(o.error)
      ensures o.Pass? ==> Assign(old(St()), p, f) == Success(St())
    {
      match (p, f) {
        case (IterationPart, Count(n)) => iteration := n;
        case (EpochPart, Count(n)) => epoch := n;
        case (BestEpochPart, Count(n)) => bestEpoch := n;
        case (BestMetricPart, Score(m)) => bestMetric := Some(m);
        case (ModelPart, Token(t)) => modelState := t;
        case (OptimizerPart, Token(t)) => optimizerState := t;
        case (ScalerPart, Token(t)) => scalerState := Some(t);
        case (SchedulerPart, Token(t)) => schedulerState := Some(t);
        case _ => return Fail(TypeError);
      }
      return Pass;
    }

    /** `load_checkpoint`: pick the dictionary, then read it. */
    method LoadCheckpoint(arg: CheckpointArg) returns (o: Outcome)
      modifies this
      ensures (St(), o) == LoadSpec(old(St()), arg)
    {
      match arg {
        case Slot(slot) =>
          if name.None? {
            return Fail(AssertionError);
          }
          if slot !in checkpoints {
            return Pass;
          }
          o := LoadDict(AsDict(checkpoints[slot]));
        case Dict(d) => o := LoadDict(d);
        case Unsupported => return Fail(RuntimeError);
      }
    }

    /** The statements of `load_checkpoint` that read the dictionary `d`. */
    method LoadDict(d: SaveDict) returns (o: Outcome)
      modifies this
      ensures (St(), o) == LoadParts(old(St()), d, LoadOrder(old(St())))
    {
      ghost var tail := [ModelPart, OptimizerPart] + OptionalParts(St());
      assert LoadOrder(St()) == [IterationPart, EpochPart, BestEpochPart, BestMetricPart] + tail;
      ghost var goal := LoadParts(St(), d, LoadOrder(St()));
      o := LoadCounters(d, tail, goal);
      if o.Fail? { return; }
      o := LoadStates(d, goal);
    }

    /** The four counter statements of `load_checkpoint`, on the way to
        `goal`. */
    method LoadCounters(d: SaveDict, ghost rest: seq<Part>, ghost goal: (State, Outcome)) returns (o: Outcome)
      requires goal == LoadParts(St(), d, [IterationPart, EpochPart, BestEpochPart, BestMetricPart] + rest)
      modifies this
      ensures scalerState.Some? == old(scalerState.Some?) && schedulerState.Some? == old(schedulerState.Some?)
      ensures o.Fail? ==> goal == (St(), o)
      ensures o.Pass? ==> goal == LoadParts(St(), d, rest)
    {
      ghost var r3 := [BestMetricPart] + rest;
      ghost var r2 := [BestEpochPart] + r3;
      ghost var r1 := [EpochPart] + r2;
      assert [IterationPart, EpochPart, BestEpochPart, BestMetricPart] + rest == [IterationPart] + r1;
      o := LoadStep(d, IterationPart, r1, goal);
      if o.Fail? { return; }
      o := LoadStep(d, EpochPart, r2, goal);
      if o.Fail? { return; }
      o := LoadStep(d, BestEpochPart, r3, goal);
      if o.Fail? { return; }
      o := LoadStep(d, BestMetricPart, rest, goal);
    }

    /** The statements of `load_checkpoint` that restore model, optimizer,
        scaler and scheduler state, on the way to `goal`. */
    method LoadStates(d: SaveDict, ghost goal: (State, Outcome)) returns (o: Outcome)
      requires goal == LoadParts(St(), d, [ModelPart, OptimizerPart] + OptionalParts(St()))
      modifies this
      ensures goal == (St(), o)
    {
      ghost var last: seq<Part> := if schedulerState.Some? then [SchedulerPart] else [];
      ghost var optional := OptionalParts(St());
      assert [ModelPart, OptimizerPart] + optional == [ModelPart] + ([OptimizerPart] + optional);
      o := LoadStep(d, ModelPart, [OptimizerPart] + optional, goal);
      if o.Fail? { return; }
      o := LoadStep(d, OptimizerPart, optional, goal);
      if o.Fail? { return; }
      if scalerState.Some? {
        o := LoadStep(d, ScalerPart, last, goal);
        if o.Fail? { return; }
      }
      if schedulerState.Some? {
        assert last == [SchedulerPart] + [];
        o := LoadStep(d, SchedulerPart, [], goal);
      }
    }

    method LoadStep(d: SaveDict, p: Part, ghost rest: seq<Part>, ghost goal: (State, Outcome)) returns (o: Outcome)
      requires goal == LoadParts(St(), d, [p] + rest)
      modifies this
      ensures scalerState.Some? == old(scalerState.Some?) || p == ScalerPart
      ensures schedulerState.Some? == old(schedulerState.Some?) || p == SchedulerPart
      ensures o.Fail? ==> goal == (St(), o)
      ensures o.Pass? ==> goal == LoadParts(St(), d, rest)
    {
      assert ([p] + rest)[0] == p && ([p] + rest)[1..] == rest;
      o := LoadPart(d, p);
    }

    method Initialize(iterations: nat, load: Option<CheckpointArg>) returns (r: Result<Metric>)
      modifies this
      ensures (St(), r) == InitSpec(config, old(St()), iterations, load)
    {
      if !Complete(config) {
        return Failure(AssertionError);
      }
      if load.Some? {
        var o := LoadCheckpoint(load.value);
        if o.Fail? {
          return Failure(o.error);
        }
      }
      r := SetBudgets(iterations);
    }

    /** The iteration and epoch budgets, the manifest, the name the logger
        may give, and the assertion of `checkpoint_folder`. */
    method SetBudgets(iterations: nat) returns (r: Result<Metric>)
      requires Complete(config)
      modifies this
      ensures St() == Budget(config, old(St()), iterations).0
      ensures r == Budget(config, old(St()), iterations).1
    {
      maxIteration := iteration + iterations;
      var batches := config.trainLoader.value.batches;
      if batches == 0 {
        return Failure(ZeroDivisionError);
      }
      maxEpoch := epoch + CeilDiv(iterations, batches);
      r := Prepare();
    }

    /** `_build_init`, the logger and `os.makedirs(self.checkpoint_folder)`. */
    method Prepare() returns (r: Result<Metric>)
      requires Complete(config)
      modifies this
      ensures (St(), r) == PrepareSpec(config, old(St()))
    {
      initData := BuildInit(AsSetup(config));
      name := LoggerName(config, name);
      if name.None? {
        return Failure(AssertionError);
      }
      return Success(Inf);
    }

    /** `_train_epoch_impl`: one optimisation step per batch until the
        batches run out or the counter reaches the budget; it returns the
        number of steps taken. */
    method TrainEpoch() returns (r: Result<nat>)
      modifies this
      ensures TrainSpec(old(St()), Batches(config.trainLoader), config.logImageInterval).Failure? ==>
                St() == old(St()) && r == Failure(ZeroDivisionError)
      ensures TrainSpec(old(St()), Batches(config.trainLoader), config.logImageInterval).Success? ==>
                (St(), r) == (TrainSpec(old(St()), Batches(config.trainLoader), config.logImageInterval).value.0,
                              Success(TrainSpec(old(St()), Batches(config.trainLoader), config.logImageInterval).value.1))
    {
      var batches := Batches(config.trainLoader);
      var nIter := 0;
      while nIter < batches
        invariant nIter <= batches
        invariant St() == Trained(old(St()), nIter)
        invariant nIter > 0 ==> old(iteration) + nIter < maxIteration
        invariant nIter > 0 ==> config.logImageInterval != 0
      {
        if config.logImageInterval == 0 {
          return Failure(ZeroDivisionError);
        }
        TrainStep();
        TrainedTwice(old(St()), nIter);
        nIter := nIter + 1;
        if iteration >= maxIteration {
          break;
        }
      }
      if nIter == 0 {
        return Failure(ZeroDivisionError);
      }
      return Success(nIter);
    }

    /** One optimisation step: model, optimizer and scaler are updated and
        the iteration counter advances. */
    method TrainStep()
      modifies this
      ensures St() == Trained(old(St()), 1)
    {
      modelState := modelState + 1;
      optimizerState := optimizerState + 1;
      if scalerState.Some? {
        scalerState := Some(scalerState.value + 1);
      }
      iteration := iteration + 1;
    }

    /** `_validate_impl`: the mean of the batch metrics. */
    method Validate(score: (nat, nat) -> real) returns (r: Result<Metric>)
      ensures r == MeanScore(score, modelState, Batches(config.valLoader), config.logImageInterval)
    {
      var batches := Batches(config.valLoader);
      var metricVal := 0.0;
      for b := 0 to batches
        invariant metricVal == ScoreSum(score, modelState, b)
        invariant b > 0 ==> config.logImageInterval != 0
      {
        if config.logImageInterval == 0 {
          return Failure(ZeroDivisionError);
        }
        metricVal := metricVal + score(modelState, b);
      }
      if batches == 0 {
        return Failure(ZeroDivisionError);
      }
      return Success(Finite(metricVal / batches as real));
    }

    /** One pass of the body of `fit`'s epoch loop up to the early-stopping
        check; it returns the new local best metric. */
    method Epoch(best: Metric, score: (nat, nat) -> real) returns (best': Metric, status: Status)
      modifies this
      ensures EpochStep(config, old(St()), best, score) == Run(St(), best', status)
    {
      best' := best;
      var t := TrainEpoch();
      if t.Failure? {
        return best, Raised(t.error);
      }
      var m := Validate(score);
      if m.Failure? {
        return best, Raised(m.error);
      }
      if schedulerState.Some? {
        schedulerState := Some(schedulerState.value + 1);
      }
      if Below(m.value, best) {
        best' := m.value;
        bestEpoch := epoch;
        SaveCheckpoint("best", best', map[]);
      }
      SaveCheckpoint("latest", best', map[]);
      if config.earlyStopping.Some? && epoch as int - bestEpoch as int > config.earlyStopping.value {
        return best', EarlyStopped;
      }
      return best', Completed;
    }

    /** One pass of the body of `fit`'s epoch loop, the epoch increment
        included, on the way to `goal`, the outcome of the `n` epochs still
        to go. */
    method Advance(best: Metric, score: (nat, nat) -> real, ghost goal: Run, ghost n: nat)
      returns (best': Metric, status: Status)
      requires n > 0 && goal == Loop(config, St(), best, n, score)
      modifies this
      ensures status != Completed ==> goal == Run(St(), best', status)
      ensures status == Completed ==> goal == Loop(config, St(), best', n - 1, score)
    {
      ghost var before := St();
      best', status := Epoch(best, score);
      if status != Completed {
        LoopLeaves(config, before, best, n, score);
        return;
      }
      LoopContinues(config, before, best, n, score);
      ghost var booked := St();
      epoch := epoch + 1;
      assert St() == NextEpoch(booked);
    }

    /** The epoch loop of `fit`, from the local best metric `start`. */
    method RunEpochs(start: Metric, score: (nat, nat) -> real) returns (o: Outcome)
      modifies this
      ensures St() == Loop(config, old(St()), start, EpochsLeft(old(St())), score).st
      ensures o == Finish(Loop(config, old(St()), start, EpochsLeft(old(St())), score))
    {
      ghost var goal := Loop(config, St(), start, EpochsLeft(St()), score);
      var best := start;
      var trainEpochs := if maxEpoch >= epoch then maxEpoch - epoch else 0;
      var k := 0;
      ghost var left := trainEpochs;
      while k < trainEpochs
        invariant k <= trainEpochs && left == trainEpochs - k
        invariant goal == Loop(config, St(), best, left, score)
      {
        var status;
        best, status := Advance(best, score, goal, left);
        if status != Completed {
          assert goal == Run(St(), best, status);
          return if status.Raised? then Fail(status.error) else Pass;
        }
        k, left := k + 1, left - 1;
      }
      assert left == 0;
      assert goal == Run(St(), best, Completed);
      return Pass;
    }

    method Fit(iterations: nat, load: Option<CheckpointArg>, score: (nat, nat) -> real) returns (o: Outcome)
      modifies this
      ensures (St(), o) == FitSpec(config, old(St()), iterations, load, score)
    {
      var init := Initialize(iterations, load);
      if init.Failure? {
        return Fail(init.error);
      }
      ghost var initialized := St();
      o := RunEpochs(init.value, score);
      LoopBounds(config, initialized, init.value, EpochsLeft(initialized), score);
      if o.Pass? && config.name.None? {
        name := None;
      }
    }
  }
}

=== FILE: trainer_props.dfy ===
/** Properties of the trainer model: what a checkpoint restores, the
    iteration and epoch budgets `fit` keeps, when "best" is saved and when
    training stops early. */
module TrainerProps {
  import opened Common
  import opened Manifest
  import opened Trainer

  // ---------------------------------------------------------------------
  // Checkpoints

  /** The value `save_checkpoint` records for one entry that
      `load_checkpoint` reads. */
  function Saved(src: State, best: Metric, p: Part): Field {
    match p
    case IterationPart => Count(src.iteration)
    case EpochPart => Count(src.epoch)
    case BestEpochPart => Count(src.bestEpoch)
    case BestMetricPart => Score(best)
    case ModelPart => Token(src.model)
    case OptimizerPart => Token(src.optimizer)
    case ScalerPart => Token(if src.scaler.Some? then src.scaler.value else 0)
    case SchedulerPart => Token(if src.scheduler.Some? then src.scheduler.value else 0)
  }

  /** `st` after taking over the recorded value of one entry. */
  function CopyPart(st: State, src: State, best: Metric, p: Part): State {
    match p
    case IterationPart => st.(iteration := src.iteration)
    case EpochPart => st.(epoch := src.epoch)
    case BestEpochPart => st.(bestEpoch := src.bestEpoch)
    case BestMetricPart => st.(bestMetric := Some(best))
    case ModelPart => st.(model := src.model)
    case OptimizerPart => st.(optimizer := src.optimizer)
    case ScalerPart => st.(scaler := Some(if src.scaler.Some? then src.scaler.value else 0))
    case SchedulerPart => st.(scheduler := Some(if src.scheduler.Some? then src.scheduler.value else 0))
  }

  function CopyParts(st: State, src: State, best: Metric, parts: seq<Part>): State
    decreases |parts|
  {
    if parts == [] then st else CopyParts(CopyPart(st, src, best, parts[0]), src, best, parts[1..])
  }

  /** `dst` with every entry named in `parts` taken over from `src`. */
  function Overlay(dst: State, src: State, best: Metric, parts: seq<Part>): State {
    dst.(iteration := if IterationPart in parts then src.iteration else dst.iteration,
         epoch := if EpochPart in parts then src.epoch else dst.epoch,
         bestEpoch := if BestEpochPart in parts then src.bestEpoch else dst.bestEpoch,
         bestMetric := if BestMetricPart in parts then Some(best) else dst.bestMetric,
         model := if ModelPart in parts then src.model else dst.model,
         optimizer := if OptimizerPart in parts then src.optimizer else dst.optimizer,
         scaler := if ScalerPart in parts then Some(if src.scaler.Some? then src.scaler.value else 0) else dst.scaler,
         scheduler := if SchedulerPart in parts then Some(if src.scheduler.Some? then src.scheduler.value else 0)
                      else dst.scheduler)
  }

  /** Taking the entries over one by one is taking them over all at once:
      each entry always receives the same recorded value. */
  lemma {:induction false} CopyPartsOverlay(dst: State, src: State, best: Metric, parts: seq<Part>)
    ensures CopyParts(dst, src, best, parts) == Overlay(dst, src, best, parts)
    decreases |parts|
  {
    if parts != [] {
      var p, rest := parts[0], parts[1..];
      var mid := CopyPart(dst, src, best, p);
      CopyPartsOverlay(mid, src, best, rest);
      assert forall q :: q in parts <==> q == p || q in rest by {
        assert parts == [p] + rest;
      }
      OverlayStep(dst, src, best, p, rest, parts);
    }
  }

  /** Taking over `p` first, then the entries of `rest`, is taking over the
      entries of `parts`. */
  lemma OverlayStep(dst: State, src: State, best: Metric, p: Part, rest: seq<Part>, parts: seq<Part>)
    requires forall q :: q in parts <==> q == p || q in rest
    ensures Overlay(CopyPart(dst, src, best, p), src, best, rest) == Overlay(dst, src, best, parts)
  {
    match p
    case IterationPart =>
    case EpochPart =>
    case BestEpochPart =>
    case BestMetricPart =>
    case ModelPart =>
    case OptimizerPart =>
    case ScalerPart =>
    case SchedulerPart =>
  }

  /** A dictionary that holds the recorded value of every entry in `parts`. */
  predicate Provides(d: SaveDict, parts: seq<Part>, src: State, best: Metric) {
    forall i :: 0 <= i < |parts| ==> Key(parts[i]) in d && d[Key(parts[i])] == Saved(src, best, parts[i])
  }

  /** Loading entries that are all present with the recorded kind assigns
      each of them in turn and succeeds. */
  lemma {:induction false} LoadProvided(dst: State, d: SaveDict, parts: seq<Part>, src: State, best: Metric)
    requires Provides(d, parts, src, best)
    ensures LoadParts(dst, d, parts) == (CopyParts(dst, src, best, parts), Pass)
    decreases |parts|
  {
    if parts != [] {
      var p := parts[0];
      assert Key(p) in d && d[Key(p)] == Saved(src, best, p);
      assert Assign(dst, p, Saved(src, best, p)) == Success(CopyPart(dst, src, best, p));
      assert Provides(d, parts[1..], src, best) by {
        forall i | 0 <= i < |parts[1..]|
          ensures Key(parts[1..][i]) in d && d[Key(parts[1..][i])] == Saved(src, best, parts[1..][i])
        {
          assert parts[1..][i] == parts[i + 1];
        }
      }
      LoadProvided(CopyPart(dst, src, best, p), d, parts[1..], src, best);
    }
  }

  /** Extra entries that leave the counters, the best metric and the model
      and optimizer state alone. */
  predicate KeepsBase(extras: SaveDict) {
    forall q: Part :: !q.ScalerPart? && !q.SchedulerPart? ==> Key(q) !in extras
  }

  lemma BaseEntry(src: State, best: Metric, extras: SaveDict, p: Part)
    requires !p.ScalerPart? && !p.SchedulerPart? && KeepsBase(extras)
    ensures Key(p) in MakeSaveDict(src, best, extras) && MakeSaveDict(src, best, extras)[Key(p)] == Saved(src, best, p)
  {
    assert Key(p) !in extras;
    assert Key(p) != "scaler_state" && Key(p) != "scheduler_state";
    BaseHas(src, best, p);
    BaseKept(Snap(src, best, extras), Key(p));
  }

  /** An entry of the dictionary literal that neither the extra entries nor
      the scaler and scheduler entries override is written as it is. */
  lemma BaseKept(s: Snapshot, k: string)
    requires k !in s.extras && k != "scaler_state" && k != "scheduler_state"
    requires k in BaseSaveDict(s.iteration, s.epoch, s.bestEpoch, s.best, s.model, s.optimizer, s.init)
    ensures k in AsDict(s)
    ensures AsDict(s)[k] == BaseSaveDict(s.iteration, s.epoch, s.bestEpoch, s.best, s.model, s.optimizer, s.init)[k]
  {
  }

  /** The dictionary literal holds each of the six leading entries. */
  lemma BaseHas(src: State, best: Metric, p: Part)
    requires !p.ScalerPart? && !p.SchedulerPart?
    ensures var base := BaseSaveDict(src.iteration, src.epoch, src.bestEpoch, best, src.model, src.optimizer, src.initData);
            Key(p) in base && base[Key(p)] == Saved(src, best, p)
  {
    match p
    case IterationPart =>
    case EpochPart =>
    case BestEpochPart =>
    case BestMetricPart =>
    case ModelPart =>
    case OptimizerPart =>
  }

  lemma OptionalEntry(src: State, best: Metric, extras: SaveDict, p: Part)
    requires p == ScalerPart ==> src.scaler.Some?
    requires p == SchedulerPart ==> src.scheduler.Some?
    requires p.ScalerPart? || p.SchedulerPart?
    ensures Key(p) in MakeSaveDict(src, best, extras) && MakeSaveDict(src, best, extras)[Key(p)] == Saved(src, best, p)
  {
    var s := Snap(src, best, extras);
    if p.ScalerPart? {
      assert "scaler_state" != "scheduler_state";
      assert AsDict(s)["scaler_state"] == Token(src.scaler.value);
    } else {
      assert AsDict(s)["scheduler_state"] == Token(src.scheduler.value);
    }
  }

  lemma SaveProvides(src: State, best: Metric, extras: SaveDict)
    requires KeepsBase(extras)
    ensures Provides(MakeSaveDict(src, best, extras), LoadOrder(src), src, best)
  {
    var order := LoadOrder(src);
    forall i | 0 <= i < |order|
      ensures Key(order[i]) in MakeSaveDict(src, best, extras)
              && MakeSaveDict(src, best, extras)[Key(order[i])] == Saved(src, best, order[i])
    {
      var p := order[i];
      if p.ScalerPart? || p.SchedulerPart? {
        OptionalEntry(src, best, extras, p);
      } else {
        BaseEntry(src, best, extras, p);
      }
    }
  }

  /** What loading a checkpoint of `src` into `dst` leaves: the counters,
      the best metric passed to `save_checkpoint` and the state tokens of
      `src`, everything else of `dst`. */
  function Restored(dst: State, src: State, best: Metric): State {
    dst.(iteration := src.iteration, epoch := src.epoch, bestEpoch := src.bestEpoch, bestMetric := Some(best),
         model := src.model, optimizer := src.optimizer, scaler := src.scaler, scheduler := src.scheduler)
  }

  /** Saving then loading into a trainer with the same scaler and scheduler
      restores iteration, epoch, best epoch, best metric and every state. */
  lemma SaveLoadRoundTrip(src: State, best: Metric, extras: SaveDict, dst: State)
    requires KeepsBase(extras)
    requires dst.scaler.Some? == src.scaler.Some? && dst.scheduler.Some? == src.scheduler.Some?
    ensures LoadParts(dst, MakeSaveDict(src, best, extras), LoadOrder(dst)) == (Restored(dst, src, best), Pass)
  {
    assert LoadOrder(dst) == LoadOrder(src);
    SaveProvides(src, best, extras);
    LoadProvided(dst, MakeSaveDict(src, best, extras), LoadOrder(dst), src, best);
    CopyPartsOverlay(dst, src, best, LoadOrder(dst));
    OverlayAll(dst, src, best);
  }

  lemma OverlayAll(dst: State, src: State, best: Metric)
    requires dst.scaler.Some? == src.scaler.Some? && dst.scheduler.Some? == src.scheduler.Some?
    ensures Overlay(dst, src, best, LoadOrder(dst)) == Restored(dst, src, best)
  {
    var order := LoadOrder(dst);
    assert order[0] == IterationPart && order[1] == EpochPart && order[2] == BestEpochPart;
    assert order[3] == BestMetricPart && order[4] == ModelPart && order[5] == OptimizerPart;
    assert ScalerPart in order <==> dst.scaler.Some?;
    assert SchedulerPart in order <==> dst.scheduler.Some?;
  }

  /** Loading the slot just saved changes nothing but the `best_metric`
      attribute, which becomes the saved best metric. */
  lemma SaveThenLoad(st: State, name: string, best: Metric, extras: SaveDict)
    requires KeepsBase(extras) && st.name.Some?
    ensures LoadSpec(Save(st, name, best, extras), Slot(name))
            == (Save(st, name, best, extras).(bestMetric := Some(best)), Pass)
  {
    var saved := Save(st, name, best, extras);
    SaveLoadRoundTrip(st, best, extras, saved);
    assert Restored(saved, st, best) == saved.(bestMetric := Some(best));
  }

  /** The scaler and scheduler entries are present iff those objects exist. */
  lemma OptionalKeys(st: State, best: Metric, extras: SaveDict)
    requires "scaler_state" !in extras && "scheduler_state" !in extras
    ensures "scaler_state" in MakeSaveDict(st, best, extras) <==> st.scaler.Some?
    ensures "scheduler_state" in MakeSaveDict(st, best, extras) <==> st.scheduler.Some?
  {
    assert "scaler_state" != "scheduler_state";
    assert "scaler_state" !in BaseSaveDict(st.iteration, st.epoch, st.bestEpoch, best, st.model, st.optimizer, st.initData) && "scheduler_state" !in BaseSaveDict(st.iteration, st.epoch, st.bestEpoch, best, st.model, st.optimizer, st.initData);
  }

  /** A checkpoint written without a scaler, loaded into a trainer with one,
      raises `KeyError` after the six earlier entries have been assigned. */
  lemma MissingScalerState(src: State, best: Metric, dst: State)
    requires src.scaler.None? && dst.scaler.Some?
    ensures LoadParts(dst, MakeSaveDict(src, best, map[]), LoadOrder(dst))
            == (Restored(dst, src, best).(scaler := dst.scaler, scheduler := dst.scheduler), Fail(KeyError("scaler_state")))
  {
    BaseProvided(src, best);
    NoScalerEntry(src, best);
    MissingEntryAfterBase(dst, MakeSaveDict(src, best, map[]), src, best);
  }

  /** A dictionary holding the six leading entries of `src` but no scaler
      state, loaded into a trainer with a scaler. */
  lemma MissingEntryAfterBase(dst: State, d: SaveDict, src: State, best: Metric)
    requires dst.scaler.Some? && Provides(d, BaseOrder(), src, best) && "scaler_state" !in d
    ensures LoadParts(dst, d, LoadOrder(dst))
            == (Restored(dst, src, best).(scaler := dst.scaler, scheduler := dst.scheduler), Fail(KeyError("scaler_state")))
  {
    var base := BaseOrder();
    var tail := if dst.scheduler.Some? then [SchedulerPart] else [];
    assert LoadOrder(dst) == base + ([ScalerPart] + tail);
    LoadPrefix(dst, d, base, [ScalerPart] + tail, src, best);
    BaseOverlay(dst, src, best);
    ScalerKey();
    LoadMissing(CopyParts(dst, src, best, base), d, ScalerPart, tail);
  }

  lemma ScalerKey()
    ensures Key(ScalerPart) == "scaler_state"
  {
  }

  /** A missing entry stops the loading where it is. */
  lemma LoadMissing(st: State, d: SaveDict, p: Part, rest: seq<Part>)
    requires Key(p) !in d
    ensures LoadParts(st, d, [p] + rest) == (st, Fail(KeyError(Key(p))))
  {
    assert ([p] + rest)[0] == p;
  }

  function BaseOrder(): seq<Part> {
    [IterationPart, EpochPart, BestEpochPart, BestMetricPart, ModelPart, OptimizerPart]
  }

  lemma BaseProvided(src: State, best: Metric)
    ensures Provides(MakeSaveDict(src, best, map[]), BaseOrder(), src, best)
  {
    assert KeepsBase(map[]);
    SaveProvides(src, best, map[]);
    assert LoadOrder(src)[..6] == BaseOrder();
  }

  lemma BaseOverlay(dst: State, src: State, best: Metric)
    ensures CopyParts(dst, src, best, BaseOrder()) == Restored(dst, src, best).(scaler := dst.scaler, scheduler := dst.scheduler)
  {
    CopyPartsOverlay(dst, src, best, BaseOrder());
    BaseMembers();
  }

  lemma BaseMembers()
    ensures var b := BaseOrder();
            && IterationPart in b && EpochPart in b && BestEpochPart in b && BestMetricPart in b
            && ModelPart in b && OptimizerPart in b && ScalerPart !in b && SchedulerPart !in b
  {
  }

  lemma NoScalerEntry(src: State, best: Metric)
    requires src.scaler.None?
    ensures "scaler_state" !in MakeSaveDict(src, best, map[])
  {
    assert "scaler_state" !in BaseSaveDict(src.iteration, src.epoch, src.bestEpoch, best, src.model, src.optimizer, src.initData);
    assert "scaler_state" != "scheduler_state";
  }

  /** A provided prefix is loaded before the rest is looked at. */
  lemma {:induction false} LoadPrefix(dst: State, d: SaveDict, pre: seq<Part>, rest: seq<Part>, src: State, best: Metric)
    requires Provides(d, pre, src, best)
    ensures LoadParts(dst, d, pre + rest) == LoadParts(CopyParts(dst, src, best, pre), d, rest)
    decreases |pre|
  {
    if pre != [] {
      var p := pre[0];
      assert (pre + rest)[0] == p && (pre + rest)[1..] == pre[1..] + rest;
      assert Assign(dst, p, Saved(src, best, p)) == Success(CopyPart(dst, src, best, p));
      assert Provides(d, pre[1..], src, best) by {
        forall i | 0 <= i < |pre[1..]|
          ensures Key(pre[1..][i]) in d && d[Key(pre[1..][i])] == Saved(src, best, pre[1..][i])
        {
          assert pre[1..][i] == pre[i + 1];
        }
      }
      LoadPrefix(CopyPart(dst, src, best, p), d, pre[1..], rest, src, best);
    } else {
      assert pre + rest == rest;
    }
  }

  /** `_initialize` resuming from a checkpoint takes over its counters and
      budgets from them, but still starts from a best metric of `inf`. */
  lemma ResumeRestartsBest(cfg: Config, st: State, name: string, best: Metric, iterations: nat)
    requires Complete(cfg) && Batches(cfg.trainLoader) > 0 && st.name.Some?
    ensures var saved := Save(st, name, best, map[]);
            var r := InitSpec(cfg, saved, iterations, Some(Slot(name)));
            && r.1 == Success(Inf)
            && r.0.iteration == st.iteration && r.0.epoch == st.epoch && r.0.bestMetric == Some(best)
            && r.0.maxIteration == st.iteration + iterations
            && r.0.maxEpoch == st.epoch + CeilDiv(iterations, Batches(cfg.trainLoader))
  {
    assert KeepsBase(map[]);
    SaveThenLoad(st, name, best, map[]);
  }

  /** A trainer without a name cannot resume from a slot: the checkpoint
      folder asserts a name before the logger has had the chance to give
      one, and nothing changes. */
  lemma NamelessResume(cfg: Config, st: State, slot: string, iterations: nat)
    requires Complete(cfg) && st.name.None?
    ensures InitSpec(cfg, st, iterations, Some(Slot(slot))) == (st, Failure(AssertionError))
  {
  }

  /** A `fit` whose name was generated ends without a name, so resuming
      from a slot in the next `fit` fails the assertion. */
  lemma RefitNameless(cfg: Config, st: State, iterations: nat, load: Option<CheckpointArg>,
                      score: (nat, nat) -> real, slot: string, more: nat)
    requires cfg.name.None? && InitSpec(cfg, st, iterations, load).1.Success?
    requires FitSpec(cfg, st, iterations, load, score).1.Pass?
    ensures var after := FitSpec(cfg, st, iterations, load, score).0;
            FitSpec(cfg, after, more, Some(Slot(slot)), score) == (after, Fail(AssertionError))
  {
    var after := FitSpec(cfg, st, iterations, load, score).0;
    NamelessResume(cfg, after, slot, more);
  }

  // ---------------------------------------------------------------------
  // Epochs

  /** An epoch that starts under the budget adds between one and `b`
      iterations and never passes the budget; it stops short of the budget
      only when the batches run out. One that starts at or over the budget
      still runs one batch. */
  lemma TrainEpochBounds(st: State, b: nat, interval: int)
    requires b > 0 && interval != 0
    ensures var (after, k) := TrainSpec(st, b, interval).value;
            && after.iteration == st.iteration + k
            && (st.iteration < st.maxIteration ==> 1 <= k <= b && after.iteration <= st.maxIteration)
            && (after.iteration < st.maxIteration ==> k == b)
            && (st.iteration >= st.maxIteration ==> k == 1)
  {
  }

  /** Without early stopping and with non-empty loaders, an epoch that
      starts under the budget completes, advances the counter to
      `min(iteration + b, budget)` and changes neither epoch nor budget. */
  lemma EpochBudget(cfg: Config, st: State, best: Metric, score: (nat, nat) -> real)
    requires cfg.earlyStopping.None? && cfg.logImageInterval != 0
    requires Batches(cfg.trainLoader) > 0 && Batches(cfg.valLoader) > 0
    requires st.iteration < st.maxIteration
    ensures var e := EpochStep(cfg, st, best, score);
            && e.status == Completed
            && e.st.iteration == Min(st.iteration + Batches(cfg.trainLoader), st.maxIteration)
            && e.st.epoch == st.epoch && e.st.maxIteration == st.maxIteration
  {
  }

  /** With no early stopping and non-empty loaders, `n` epochs that each
      start under the budget run to completion and use up
      `min(n * b, budget left)` iterations. */
  lemma {:induction false} LoopBudget(cfg: Config, st: State, best: Metric, n: nat, score: (nat, nat) -> real)
    requires cfg.earlyStopping.None? && cfg.logImageInterval != 0
    requires Batches(cfg.trainLoader) > 0 && Batches(cfg.valLoader) > 0
    requires st.iteration <= st.maxIteration
    requires n > 0 ==> st.iteration + (n - 1) * Batches(cfg.trainLoader) < st.maxIteration
    ensures var r := Loop(cfg, st, best, n, score);
            && r.status == Completed
            && r.st.iteration == Min(st.iteration + n * Batches(cfg.trainLoader), st.maxIteration)
            && r.st.epoch == st.epoch + n
    decreases n
  {
    if n > 0 {
      var b := Batches(cfg.trainLoader);
      EpochBudget(cfg, st, best, score);
      var e := EpochStep(cfg, st, best, score);
      LoopContinues(cfg, st, best, n, score);
      BudgetStep(st.iteration, st.maxIteration, b, n);
      LoopBudget(cfg, NextEpoch(e.st), e.best, n - 1, score);
    }
  }

  /** The arithmetic of one step of `LoopBudget`: an epoch that starts under
      the budget and is not the last runs all `b` batches. */
  lemma BudgetStep(it: nat, max: nat, b: nat, n: nat)
    requires b > 0 && n > 0 && it <= max && it + (n - 1) * b < max
    ensures it + b <= max || n == 1
    ensures n > 1 ==> Min(it + b, max) + (n - 2) * b < max
    ensures Min(Min(it + b, max) + (n - 1) * b, max) == Min(it + n * b, max)
  {
    assert (n - 1) * b + b == n * b;
    if n > 1 {
      assert (n - 2) * b + b == (n - 1) * b;
    }
  }

  /** Without early stopping, `fit(iterations)` ends with exactly
      `iterations` more iterations and `ceil(iterations / b)` more epochs than
      the trainer had after `_initialize`, and raises nothing. */
  lemma FitBudget(cfg: Config, st: State, iterations: nat, load: Option<CheckpointArg>, score: (nat, nat) -> real)
    requires cfg.earlyStopping.None? && cfg.logImageInterval != 0 && Batches(cfg.valLoader) > 0
    requires InitSpec(cfg, st, iterations, load).1.Success?
    ensures var init := InitSpec(cfg, st, iterations, load).0;
            var r := FitSpec(cfg, st, iterations, load, score);
            && r.1 == Pass
            && r.0.iteration == init.iteration + iterations
            && r.0.epoch == init.epoch + CeilDiv(iterations, Batches(cfg.trainLoader))
  {
    var init := InitSpec(cfg, st, iterations, load).0;
    LoopUsesBudget(cfg, init, iterations, score);
    FitRuns(cfg, st, iterations, load, score);
  }

  /** The epoch loop from a trainer whose budgets `_initialize` has just set
      for `iterations` runs them all. */
  lemma LoopUsesBudget(cfg: Config, init: State, iterations: nat, score: (nat, nat) -> real)
    requires cfg.earlyStopping.None? && cfg.logImageInterval != 0
    requires Batches(cfg.trainLoader) > 0 && Batches(cfg.valLoader) > 0
    requires init.maxIteration == init.iteration + iterations
    requires init.maxEpoch == init.epoch + CeilDiv(iterations, Batches(cfg.trainLoader))
    ensures var run := Loop(cfg, init, Inf, EpochsLeft(init), score);
            && run.status == Completed
            && run.st.iteration == init.iteration + iterations
            && run.st.epoch == init.epoch + CeilDiv(iterations, Batches(cfg.trainLoader))
  {
    var b := Batches(cfg.trainLoader);
    var n := CeilDiv(iterations, b);
    assert n * b >= iterations && (n > 0 ==> (n - 1) * b < iterations);
    LoopBudget(cfg, init, Inf, n, score);
  }

  /** After a successful `_initialize`, `fit` is the epoch loop from `inf`
      over the epochs left, and then the end of `fit`. */
  lemma FitRuns(cfg: Config, st: State, iterations: nat, load: Option<CheckpointArg>, score: (nat, nat) -> real)
    requires InitSpec(cfg, st, iterations, load).1.Success?
    ensures var init := InitSpec(cfg, st, iterations, load).0;
            var run := Loop(cfg, init, Inf, EpochsLeft(init), score);
            FitSpec(cfg, st, iterations, load, score) == (Finished(cfg, run), Finish(run))
  {
  }

  /** From the folder `before` to the folder `after`, no slot disappears
      and every slot either stays as it was or is written with the
      manifest `init`. */
  predicate WritesManifest(before: map<string, Snapshot>, after: map<string, Snapshot>, init: map<string, Value>) {
    && before.Keys <= after.Keys
    && forall k :: k in after ==> (k in before && after[k] == before[k]) || after[k].init == init
  }

  /** The slot "latest" holds the manifest `init`. */
  predicate LatestHolds(folder: map<string, Snapshot>, init: map<string, Value>) {
    "latest" in folder && folder["latest"].init == init
  }

  lemma WritesTrans(a: map<string, Snapshot>, b: map<string, Snapshot>, c: map<string, Snapshot>, init: map<string, Value>)
    requires WritesManifest(a, b, init) && WritesManifest(b, c, init)
    ensures WritesManifest(a, c, init)
  {
  }

  /** A save writes slot `name` with the trainer's manifest and leaves the
      other slots. */
  lemma SaveSavesManifest(st: State, name: string, best: Metric)
    ensures var after := Save(st, name, best, map[]);
            WritesManifest(st.checkpoints, after.checkpoints, st.initData)
            && name in after.checkpoints && after.checkpoints[name].init == st.initData
            && after.initData == st.initData
  {
  }

  /** The bookkeeping writes "best" (on improvement) and "latest" with the
      trainer's manifest. */
  lemma BookkeepSavesManifest(st: State, best: Metric, m: Metric)
    ensures var after := Bookkeep(st, best, m).0;
            WritesManifest(st.checkpoints, after.checkpoints, st.initData)
            && LatestHolds(after.checkpoints, st.initData)
  {
    if Below(m, best) {
      var improved := st.(bestEpoch := st.epoch);
      SaveSavesManifest(improved, "best", m);
      var saved := Save(improved, "best", m, map[]);
      SaveSavesManifest(saved, "latest", m);
      WritesTrans(st.checkpoints, saved.checkpoints, Save(saved, "latest", m, map[]).checkpoints, st.initData);
    } else {
      SaveSavesManifest(st, "latest", best);
    }
  }

  /** Training, validation, the scheduler step and the bookkeeping of one
      epoch write only slots that hold the trainer's manifest, and an epoch
      that raises nothing has written "latest". */
  lemma EpochSavesManifest(cfg: Config, st: State, best: Metric, score: (nat, nat) -> real)
    ensures var e := EpochStep(cfg, st, best, score);
            WritesManifest(st.checkpoints, e.st.checkpoints, st.initData)
            && (!e.status.Raised? ==> LatestHolds(e.st.checkpoints, st.initData))
  {
    match TrainSpec(st, Batches(cfg.trainLoader), cfg.logImageInterval)
    case Failure(_) =>
    case Success((trained, _)) =>
      match MeanScore(score, trained.model, Batches(cfg.valLoader), cfg.logImageInterval)
      case Failure(_) =>
      case Success(m) =>
        BookkeepSavesManifest(StepScheduler(trained), best, m);
  }

  /** The same over `n` epochs: if the loop raises nothing and runs at
      least one epoch, "latest" holds the manifest. */
  lemma {:induction false} LoopSavesManifest(cfg: Config, st: State, best: Metric, n: nat, score: (nat, nat) -> real)
    ensures var r := Loop(cfg, st, best, n, score);
            WritesManifest(st.checkpoints, r.st.checkpoints, st.initData)
            && (n > 0 && !r.status.Raised? ==> LatestHolds(r.st.checkpoints, st.initData))
    decreases n
  {
    if n > 0 {
      var e := EpochStep(cfg, st, best, score);
      EpochSavesManifest(cfg, st, best, score);
      if e.status == Completed {
        LoopContinues(cfg, st, best, n, score);
        var next := NextEpoch(e.st);
        assert next.checkpoints == e.st.checkpoints && next.initData == st.initData;
        var r := Loop(cfg, next, e.best, n - 1, score);
        assert Loop(cfg, st, best, n, score) == r;
        LoopSavesManifest(cfg, next, e.best, n - 1, score);
        WritesTrans(st.checkpoints, next.checkpoints, r.st.checkpoints, st.initData);
        if n == 1 {
          assert r.st == next;
        }
      } else {
        LoopLeaves(cfg, st, best, n, score);
      }
    }
  }

  /** `fit` writes checkpoints only after `_initialize` has set
      `init_data`: every slot it writes holds the manifest `_build_init`
      made, the slots already in the folder that it does not write stay as
      they were, and a `fit` that runs an epoch and raises nothing leaves
      "latest" holding that manifest. */
  lemma FitSavesManifest(cfg: Config, st: State, iterations: nat, load: Option<CheckpointArg>, score: (nat, nat) -> real)
    requires InitSpec(cfg, st, iterations, load).1.Success?
    ensures var (init, best) := InitSpec(cfg, st, iterations, load);
            var r := FitSpec(cfg, st, iterations, load, score);
            && r.0.initData == BuildInit(AsSetup(cfg))
            && WritesManifest(st.checkpoints, r.0.checkpoints, BuildInit(AsSetup(cfg)))
            && (r.1.Pass? && EpochsLeft(init) > 0 ==> LatestHolds(r.0.checkpoints, BuildInit(AsSetup(cfg))))
  {
    var init := InitSpec(cfg, st, iterations, load).0;
    var best := InitSpec(cfg, st, iterations, load).1.value;
    InitKeepsFolder(cfg, st, iterations, load);
    var run := Loop(cfg, init, best, EpochsLeft(init), score);
    LoopSavesManifest(cfg, init, best, EpochsLeft(init), score);
    LoopBounds(cfg, init, best, EpochsLeft(init), score);
    assert FitSpec(cfg, st, iterations, load, score) == (Finished(cfg, run), Finish(run));
  }

  /** `_initialize` reads the checkpoint folder but writes no slot; once it
      succeeds, the trainer holds the manifest `_build_init` made. */
  lemma InitKeepsFolder(cfg: Config, st: State, iterations: nat, load: Option<CheckpointArg>)
    ensures InitSpec(cfg, st, iterations, load).0.checkpoints == st.checkpoints
    ensures InitSpec(cfg, st, iterations, load).1.Success? ==>
              InitSpec(cfg, st, iterations, load).0.initData == BuildInit(AsSetup(cfg))
  {
    if Complete(cfg) {
      var (loaded, _) := if load.Some? then LoadSpec(st, load.value) else (st, Pass);
      assert loaded.checkpoints == st.checkpoints;
    }
  }

  /** With `log_image_interval = 0`, `fit` raises `ZeroDivisionError` on the
      `iteration % log_image_interval` of its first batch, before anything is
      trained, whenever there is an iteration to run. */
  lemma ZeroIntervalRaises(cfg: Config, st: State, iterations: nat, load: Option<CheckpointArg>,
                           score: (nat, nat) -> real)
    requires cfg.logImageInterval == 0 && iterations > 0
    requires InitSpec(cfg, st, iterations, load).1.Success?
    ensures FitSpec(cfg, st, iterations, load, score)
            == (InitSpec(cfg, st, iterations, load).0, Fail(ZeroDivisionError))
  {
    var init := InitSpec(cfg, st, iterations, load).0;
    assert EpochsLeft(init) > 0;
    LoopLeaves(cfg, init, Inf, EpochsLeft(init), score);
  }

  /** An epoch stops the loop early exactly when it ends more than
      `early_stopping` epochs after the best one; never without
      `early_stopping`. */
  lemma EpochStopsEarly(cfg: Config, st: State, best: Metric, score: (nat, nat) -> real)
    ensures var e := EpochStep(cfg, st, best, score);
            && (e.status == EarlyStopped <==> !e.status.Raised? && StopsEarly(cfg, e.st))
            && e.st.epoch == st.epoch
  {
  }

  /** Early stopping leaves the loop at an epoch more than `early_stopping`
      epochs after the best one, before the epoch counter advances; with
      `early_stopping = None` it never happens. */
  lemma {:induction false} EarlyStopping(cfg: Config, st: State, best: Metric, n: nat, score: (nat, nat) -> real)
    ensures var r := Loop(cfg, st, best, n, score);
            && (r.status == EarlyStopped ==> StopsEarly(cfg, r.st) && r.st.epoch >= st.epoch)
            && (cfg.earlyStopping.None? ==> r.status != EarlyStopped)
    decreases n
  {
    if n > 0 {
      var e := EpochStep(cfg, st, best, score);
      EpochStopsEarly(cfg, st, best, score);
      if e.status == Completed {
        EarlyStopping(cfg, NextEpoch(e.st), e.best, n - 1, score);
      }
    }
  }

  /** The bookkeeping of one epoch: "best" is saved, with the current epoch
      as best epoch, only on strict improvement and is otherwise left as it
      was; "latest" is always saved with the best metric so far. */
  lemma BookkeepSaves(st: State, best: Metric, m: Metric)
    ensures var (after, best') := Bookkeep(st, best, m);
            && "latest" in after.checkpoints
            && (Below(m, best) ==> best' == m && after.bestEpoch == st.epoch
                                   && after.checkpoints["latest"] == Snap(st.(bestEpoch := st.epoch), m, map[])
                                   && "best" in after.checkpoints
                                   && after.checkpoints["best"] == Snap(st.(bestEpoch := st.epoch), m, map[]))
            && (!Below(m, best) ==> best' == best && after.bestEpoch == st.bestEpoch
                                    && after.checkpoints["latest"] == Snap(st, best, map[])
                                    && ("best" in after.checkpoints <==> "best" in st.checkpoints)
                                    && ("best" in st.checkpoints ==> after.checkpoints["best"] == st.checkpoints["best"]))
  {
    assert "best" != "latest";
  }

  /** "best" holds the current best metric and best epoch once the best
      metric is finite. */
  predicate BestSaved(st: State, best: Metric) {
    best.Finite? ==> && "best" in st.checkpoints
                     && "best_metric" in AsDict(st.checkpoints["best"])
                     && AsDict(st.checkpoints["best"])["best_metric"] == Score(best)
                     && "best_epoch" in AsDict(st.checkpoints["best"])
                     && AsDict(st.checkpoints["best"])["best_epoch"] == Count(st.bestEpoch)
  }

  lemma SavedBest(st: State, best: Metric)
    ensures var d := MakeSaveDict(st, best, map[]);
            && "best_metric" in d && d["best_metric"] == Score(best)
            && "best_epoch" in d && d["best_epoch"] == Count(st.bestEpoch)
  {
    assert KeepsBase(map[]);
    BaseEntry(st, best, map[], BestMetricPart);
    BaseEntry(st, best, map[], BestEpochPart);
  }

  /** One epoch's bookkeeping keeps "best" holding the best metric, which
      never gets worse. */
  lemma BookkeepKeepsBest(st: State, best: Metric, m: Metric)
    requires BestSaved(st, best)
    ensures var (after, best') := Bookkeep(st, best, m);
            && BestSaved(after, best') && BestSaved(NextEpoch(after), best')
            && (best' == best || Below(best', best))
  {
    BookkeepSaves(st, best, m);
    assert "best" != "latest";
    if Below(m, best) {
      SavedBest(st.(bestEpoch := st.epoch), m);
    }
  }

  lemma EpochKeepsBest(cfg: Config, st: State, best: Metric, score: (nat, nat) -> real)
    requires BestSaved(st, best)
    ensures var e := EpochStep(cfg, st, best, score);
            && BestSaved(e.st, e.best) && BestSaved(NextEpoch(e.st), e.best)
            && (e.best == best || Below(e.best, best))
  {
    match TrainSpec(st, Batches(cfg.trainLoader), cfg.logImageInterval)
    case Failure(_) =>
    case Success((trained, _)) =>
      match MeanScore(score, trained.model, Batches(cfg.valLoader), cfg.logImageInterval)
      case Failure(_) =>
      case Success(m) =>
        var stepped := StepScheduler(trained);
        assert BestSaved(stepped, best);
        BookkeepKeepsBest(stepped, best, m);
  }

  // ---------------------------------------------------------------------
  // Validation

  lemma {:induction false} ScoreSumBounds(score: (nat, nat) -> real, model: nat, n: nat, lo: real, hi: real)
    requires forall i :: 0 <= i < n ==> lo <= score(model, i) <= hi
    ensures n as real * lo <= ScoreSum(score, model, n) <= n as real * hi
  {
    if n > 0 {
      ScoreSumBounds(score, model, n - 1, lo, hi);
      assert (n - 1) as real * lo + lo == n as real * lo;
      assert (n - 1) as real * hi + hi == n as real * hi;
    }
  }

  /** The validation metric is a mean: it lies within the bounds of the
      batch metrics. */
  lemma MeanBounds(score: (nat, nat) -> real, model: nat, n: nat, interval: int, lo: real, hi: real)
    requires n > 0 && interval != 0
    requires forall i :: 0 <= i < n ==> lo <= score(model, i) <= hi
    ensures lo <= MeanScore(score, model, n, interval).value.value <= hi
  {
    ScoreSumBounds(score, model, n, lo, hi);
    var s := ScoreSum(score, model, n);
    var k := n as real;
    assert s / k * k == s;
    if s / k < lo {
      assert s / k * k < lo * k;
    }
    if s / k > hi {
      assert s / k * k > hi * k;
    }
  }
}

=== FILE: transforms.dfy ===
/** Generic transforms: `Tile` repeats an input along each axis, `Compose`
    chains transforms, and `Rescale` resizes every input, per channel where
    asked. Only shapes are tracked for `Tile`; the resizing function of
    `Rescale` is a parameter. */
module Transforms {
  import opened Common
  import opened Arrays

  // ---------------------------------------------------------------------
  // Tile

  /** What `Tile.forward` is given: a tensor, a numpy array, or another
      object that may or may not have a `shape` attribute. */
  datatype Input =
    | Tensor(shape: seq<nat>)
    | Ndarray(shape: seq<nat>)
    | Other(maybeShape: Option<seq<nat>>)

  /** The repetitions are Python integers and may be negative. */
  datatype Tile = Tile(reps: seq<int>, matchShapeExactly: bool)

  /** `s` left-padded with ones to length `m`. */
  function PadTo(s: seq<int>, m: nat): (r: seq<int>)
    ensures |r| == Max(|s|, m)
  {
    if |s| >= m then s else Ones(m - |s|) + s
  }

  predicate NonNegative(s: seq<int>) {
    forall i :: 0 <= i < |s| ==> s[i] >= 0
  }

  /** The sizes `input.repeat(*reps)` and `np.tile(input, reps)` ask for:
      shape and repetitions, padded to the same length, multiplied. A
      negative size is refused by both. */
  function TileShape(shape: seq<nat>, reps: seq<int>): (r: seq<int>)
    ensures |r| == Max(|shape|, |reps|)
  {
    var m := Max(|shape|, |reps|);
    var s, p := PadTo(shape, m), PadTo(reps, m);
    seq(m, i requires 0 <= i < m => s[i] * p[i])
  }

  /** `input.shape`, if the input has one. */
  function ShapeOf(input: Input): (r: Option<seq<nat>>)
    ensures !input.Other? ==> r == Some(input.shape)
  {
    if input.Other? then input.maybeShape else Some(input.shape)
  }

  /** The branch on the kind of input: tensors and arrays are tiled, and a
      negative size raises `RuntimeError` in `repeat` and `ValueError` in
      `np.tile`; anything else raises `NotImplementedError`. */
  function TileKind(reps: seq<int>, input: Input): (r: Result<Input>)
    ensures r.Success? <==> !input.Other? && NonNegative(TileShape(input.shape, reps))
    ensures input.Other? ==> r == Failure(NotImplementedError)
    ensures input.Tensor? && r.Failure? ==> r.error == RuntimeError
    ensures input.Ndarray? && r.Failure? ==> r.error == ValueError
  {
    match input
    case Tensor(s) =>
      var out := TileShape(s, reps);
      if NonNegative(out) then Success(Tensor(out)) else Failure(RuntimeError)
    case Ndarray(s) =>
      var out := TileShape(s, reps);
      if NonNegative(out) then Success(Ndarray(out)) else Failure(ValueError)
    case Other(_) => Failure(NotImplementedError)
  }

  /** `Tile.forward`: with `match_shape_exactly` the rank must equal the
      number of repetitions, and an input without `shape` raises
      `AttributeError` there. */
  function TileSpec(t: Tile, input: Input): (r: Result<Input>)
    ensures r.Success? ==> r.value.Tensor? == input.Tensor? && r.value.Ndarray? == input.Ndarray?
  {
    if t.matchShapeExactly then
      match ShapeOf(input)
      case None => Failure(AttributeError)
      case Some(shape) => if |shape| != |t.reps| then Failure(AssertionError) else TileKind(t.reps, input)
    else TileKind(t.reps, input)
  }

  method TileForward(t: Tile, input: Input) returns (r: Result<Input>)
    ensures r == TileSpec(t, input)
  {
    if t.matchShapeExactly {
      var shape := ShapeOf(input);
      if shape.None? {
        return Failure(AttributeError);
      }
      if |shape.value| != |t.reps| {
        return Failure(AssertionError);
      }
    }
    match input {
      case Tensor(shape) =>
        var out := Repeat(shape, t.reps);
        if NonNegative(out) {
          r := Success(Tensor(out));
        } else {
          r := Failure(RuntimeError);
        }
      case Ndarray(shape) =>
        var out := TileShape(shape, t.reps);
        if NonNegative(out) {
          r := Success(Ndarray(out));
        } else {
          r := Failure(ValueError);
        }
      case Other(_) =>
        r := Failure(NotImplementedError);
    }
  }

  /** The tensor path: the repetitions gain leading ones up to the rank,
      the tensor gains leading axes up to the number of repetitions, and
      `repeat` multiplies axis by axis. */
  method Repeat(shape0: seq<nat>, reps0: seq<int>) returns (out: seq<int>)
    ensures out == TileShape(shape0, reps0)
  {
    var reps := reps0;
    for k := 0 to Max(0, |shape0| - |reps0|)
      invariant reps == Ones(k) + reps0
    {
      reps := [1] + reps;
      assert Ones(k + 1) == [1] + Ones(k);
    }
    var shape := shape0;
    for k := 0 to Max(0, |reps| - |shape0|)
      invariant shape == Ones(k) + shape0
    {
      shape := [1] + shape;
      assert Ones(k + 1) == [1] + Ones(k);
    }
    var m := Max(|shape0|, |reps0|);
    assert |reps| == m && |shape| == m;
    assert reps == PadTo(reps0, m);
    assert shape == PadTo(shape0, m);
    out := seq(m, i requires 0 <= i < m => shape[i] * reps[i]);
  }

  /** What the assertion demands: with `match_shape_exactly` an input of
      the wrong rank fails, whatever its kind; so does one of another kind,
      and one whose tiled size would be negative. */
  lemma TileRankChecked(t: Tile, input: Input)
    requires t.matchShapeExactly && !(input.Other? && input.maybeShape.None?)
    ensures var shape := if input.Other? then input.maybeShape.value else input.shape;
            TileSpec(t, input).Failure? <==>
              |shape| != |t.reps| || input.Other? || !NonNegative(TileShape(shape, t.reps))
    ensures var shape := if input.Other? then input.maybeShape.value else input.shape;
            |shape| != |t.reps| ==> TileSpec(t, input) == Failure(AssertionError)
  {
  }

  /** Tiling a tensor or an array succeeds exactly when the rank check
      passes and no tiled size is negative, and output axis `i` is padded
      input axis `i` times padded repetition `i`. */
  lemma TileSucceeds(t: Tile, input: Input)
    requires !input.Other?
    ensures TileSpec(t, input).Success? <==>
              (!t.matchShapeExactly || |input.shape| == |t.reps|) && NonNegative(TileShape(input.shape, t.reps))
    ensures TileSpec(t, input).Success? ==>
              var m := Max(|input.shape|, |t.reps|);
              var out := TileSpec(t, input).value.shape;
              |out| == m && forall i :: 0 <= i < m ==> out[i] == PadTo(input.shape, m)[i] * PadTo(t.reps, m)[i]
  {
  }

  /** With matching ranks nothing is padded: axis `i` is multiplied by
      repetition `i`. */
  lemma TileExact(shape: seq<nat>, reps: seq<int>)
    requires |shape| == |reps|
    ensures |TileShape(shape, reps)| == |shape|
    ensures forall i :: 0 <= i < |shape| ==> TileShape(shape, reps)[i] == shape[i] * reps[i]
  {
  }

  /** Repetition counts that are all non-negative never ask for a negative
      size. */
  lemma NaturalRepsTile(shape: seq<nat>, reps: seq<int>)
    requires NonNegative(reps)
    ensures NonNegative(TileShape(shape, reps))
  {
    var m := Max(|shape|, |reps|);
    var p := PadTo(reps, m);
    assert NonNegative(p) by { PadKeeps(reps, m); }
    forall i | 0 <= i < m
      ensures TileShape(shape, reps)[i] >= 0
    {
      var x: nat, y: nat := PadTo(shape, m)[i], p[i];
      assert TileShape(shape, reps)[i] == x * y;
    }
  }

  /** A negative count against a non-empty axis fails in either library,
      each with its own error. */
  lemma TileNegative(shape: seq<nat>, reps: seq<int>, exact: bool, i: nat)
    requires |shape| == |reps| && i < |reps| && shape[i] > 0 && reps[i] < 0
    ensures TileSpec(Tile(reps, exact), Tensor(shape)) == Failure(RuntimeError)
    ensures TileSpec(Tile(reps, exact), Ndarray(shape)) == Failure(ValueError)
  {
    TileExact(shape, reps);
    assert TileShape(shape, reps)[i] < 0;
  }

  /** Padding adds leading axes of length one and keeps the rest. */
  lemma {:induction false} PadKeeps(s: seq<int>, m: nat)
    ensures var p := PadTo(s, m);
            (forall i :: 0 <= i < |p| - |s| ==> p[i] == 1) &&
            (forall i :: 0 <= i < |s| ==> p[|p| - |s| + i] == s[i])
  {
  }

  /** Repeating every axis once keeps the element count. */
  lemma TileOnce(shape: seq<nat>, k: nat)
    ensures NonNegative(TileShape(shape, Ones(k))) && Size(TileShape(shape, Ones(k))) == Size(shape)
  {
    var m := Max(|shape|, k);
    var t := TileShape(shape, Ones(k));
    assert t == PadTo(shape, m) by {
      forall i | 0 <= i < m
        ensures t[i] == PadTo(shape, m)[i]
      {
        assert PadTo(Ones(k), m)[i] == 1;
      }
    }
    if |shape| < m {
      SizeOnes(m - |shape|, shape);
    }
  }

  // ---------------------------------------------------------------------
  // Compose

  /** A transform takes the unpacked outputs of the previous one and may
      raise. */
  type Transform<!V> = seq<V> -> Result<seq<V>>

  datatype Compose<!V> = Compose(transforms: seq<Transform<V>>)

  /** `transforms[0](*inputs)`, then each later transform on the unpacked
      previous outputs; no transforms at all raise `IndexError`, and the
      first exception raised ends the chain. */
  function Chain<V>(transforms: seq<Transform<V>>, inputs: seq<V>): (r: Result<seq<V>>)
    ensures transforms == [] ==> r == Failure(IndexError)
    ensures |transforms| == 1 ==> r == transforms[0](inputs)
    decreases |transforms|
  {
    if transforms == [] then Failure(IndexError)
    else if |transforms| == 1 then transforms[0](inputs)
    else
      match Chain(transforms[..|transforms| - 1], inputs)
      case Failure(e) => Failure(e)
      case Success(outputs) => transforms[|transforms| - 1](outputs)
  }

  method ComposeCall<V>(c: Compose<V>, inputs: seq<V>) returns (r: Result<seq<V>>)
    ensures r == Chain(c.transforms, inputs)
  {
    if c.transforms == [] {
      return Failure(IndexError);
    }
    var outputs := c.transforms[0](inputs);
    if outputs.Failure? {
      ChainFails(c.transforms, inputs, 1);
      return outputs;
    }
    for i := 1 to |c.transforms|
      invariant Chain(c.transforms[..i], inputs) == outputs && outputs.Success?
    {
      assert c.transforms[..i + 1][..i] == c.transforms[..i];
      outputs := c.transforms[i](outputs.value);
      if outputs.Failure? {
        ChainFails(c.transforms, inputs, i + 1);
        return outputs;
      }
    }
    assert c.transforms[..|c.transforms|] == c.transforms;
    r := outputs;
  }

  /** Once a prefix of the chain fails, the whole chain fails the same way. */
  lemma {:induction false} ChainFails<V>(transforms: seq<Transform<V>>, inputs: seq<V>, n: nat)
    requires 0 < n <= |transforms| && Chain(transforms[..n], inputs).Failure?
    ensures Chain(transforms, inputs) == Chain(transforms[..n], inputs)
    decreases |transforms| - n
  {
    if n < |transforms| {
      var longer := transforms[..n + 1];
      assert longer[..n] == transforms[..n];
      ChainFails(transforms, inputs, n + 1);
    } else {
      assert transforms[..n] == transforms;
    }
  }

  /** Composing two non-empty chains runs the first, then the second on
      its outputs. */
  lemma {:induction false} ChainAppend<V>(first: seq<Transform<V>>, second: seq<Transform<V>>, inputs: seq<V>)
    requires first != [] && second != []
    ensures Chain(first + second, inputs) ==
            match Chain(first, inputs)
            case Failure(e) => Failure(e)
            case Success(outputs) => Chain(second, outputs)
    decreases |second|
  {
    var all := first + second;
    if |second| == 1 {
      assert all[..|all| - 1] == first;
    } else {
      var init := second[..|second| - 1];
      assert all[..|all| - 1] == first + init;
      ChainAppend(first, init, inputs);
    }
  }

  // ---------------------------------------------------------------------
  // Rescale

  /** `with_channels`: absent, one flag per input, or one flag for all. */
  datatype WithChannels = NoChannels | PerInput(flags: seq<bool>) | Every(flag: bool)

  /** A resizing function, `rescale(inp, scale=scale, preserve_range=True)`. */
  type Resize = (NdArray, seq<real>) -> NdArray

  datatype Rescale = Rescale(scale: seq<real>, withChannels: WithChannels)

  /** What `Rescale.__call__` returns: one output unwrapped, or a tuple. */
  datatype Outputs = Single(output: NdArray) | Tuple(outputs: seq<NdArray>)

  /** `_rescale_with_channels`: each channel along the leading axis resized
      and the results stacked again. A 0-d input cannot be iterated
      (`TypeError`); no channels, or channels resized to different shapes,
      make the concatenation raise `ValueError`. */
  function RescaleChannels(resize: Resize, a: NdArray, scale: seq<real>): (r: Result<NdArray>)
    ensures |a.shape| == 0 ==> r == Failure(TypeError)
    ensures |a.shape| > 0 && a.shape[0] == 0 ==> r == Failure(ValueError)
    ensures r.Success? ==> |r.value.shape| > 0 && r.value.shape[0] == a.shape[0] &&
                           forall c :: 0 <= c < a.shape[0] ==> At(r.value, c) == resize(At(a, c), scale)
  {
    if |a.shape| == 0 then Failure(TypeError)
    else
      var channels := seq<NdArray>(a.shape[0], c requires 0 <= c < a.shape[0] => resize(At(a, c), scale));
      var r := Stack(channels);
      if r.Success? then
        forall c | 0 <= c < a.shape[0]
          ensures At(r.value, c) == resize(At(a, c), scale)
        {
          StackAt(channels, c);
        }
        r
      else r
  }

  /** One input resized, per channel or as a whole. */
  function RescaleOne(resize: Resize, inp: NdArray, scale: seq<real>, perChannel: bool): Result<NdArray> {
    if perChannel then RescaleChannels(resize, inp, scale) else Success(resize(inp, scale))
  }

  /** The flag each input gets: a list or tuple must have one per input
      (`AssertionError` otherwise), a single value is used for every
      input, and no value means no input is treated per channel. */
  function ChannelFlags(wc: WithChannels, n: nat): (r: Result<seq<bool>>)
    ensures r.Failure? <==> wc.PerInput? && |wc.flags| != n
    ensures r.Failure? ==> r.error == AssertionError
    ensures r.Success? ==> |r.value| == n
    ensures r.Success? && wc.PerInput? ==> r.value == wc.flags
    ensures r.Success? && wc.Every? ==> forall k :: 0 <= k < n ==> r.value[k] == wc.flag
    ensures r.Success? && wc.NoChannels? ==> forall k :: 0 <= k < n ==> !r.value[k]
  {
    match wc
    case NoChannels => Success(seq(n, _ => false))
    case PerInput(flags) => if |flags| != n then Failure(AssertionError) else Success(flags)
    case Every(flag) => Success(seq(n, _ => flag))
  }

  /** The inputs resized in order; the first failure is raised. */
  function RescaleAll(resize: Resize, inputs: seq<NdArray>, scale: seq<real>, flags: seq<bool>): (r: Result<seq<NdArray>>)
    requires |flags| == |inputs|
    ensures r.Success? <==> forall k :: 0 <= k < |inputs| ==> RescaleOne(resize, inputs[k], scale, flags[k]).Success?
    ensures r.Success? ==>
              |r.value| == |inputs| &&
              forall k :: 0 <= k < |inputs| ==> r.value[k] == RescaleOne(resize, inputs[k], scale, flags[k]).value
    decreases |inputs|
  {
    if inputs == [] then Success([])
    else
      match RescaleOne(resize, inputs[0], scale, flags[0])
      case Failure(e) => Failure(e)
      case Success(out) =>
        match RescaleAll(resize, inputs[1..], scale, flags[1..])
        case Failure(e) => Failure(e)
        case Success(rest) => Success([out] + rest)
  }

  /** `Rescale.__call__`. */
  function RescaleCall(resize: Resize, t: Rescale, inputs: seq<NdArray>): (r: Result<Outputs>)
    ensures t.withChannels.PerInput? && |t.withChannels.flags| != |inputs| ==> r == Failure(AssertionError)
    ensures r.Success? ==> (|inputs| == 1 <==> r.value.Single?)
  {
    match ChannelFlags(t.withChannels, |inputs|)
    case Failure(e) => Failure(e)
    case Success(flags) =>
      match RescaleAll(resize, inputs, t.scale, flags)
      case Failure(e) => Failure(e)
      case Success(outputs) => if |outputs| == 1 then Success(Single(outputs[0])) else Success(Tuple(outputs))
  }

  /** A single flag behaves like the same flag listed once per input. */
  lemma EveryIsBroadcast(resize: Resize, scale: seq<real>, flag: bool, inputs: seq<NdArray>)
    ensures RescaleCall(resize, Rescale(scale, Every(flag)), inputs) ==
            RescaleCall(resize, Rescale(scale, PerInput(seq(|inputs|, _ => flag))), inputs)
  {
    assert ChannelFlags(Every(flag), |inputs|) == ChannelFlags(PerInput(seq(|inputs|, _ => flag)), |inputs|);
  }

  /** Without `with_channels` every input is resized whole, as with the
      flag `False`. */
  lemma NoChannelsIsFalse(resize: Resize, scale: seq<real>, inputs: seq<NdArray>)
    ensures RescaleCall(resize, Rescale(scale, NoChannels), inputs) == RescaleCall(resize, Rescale(scale, Every(false)), inputs)
    ensures RescaleCall(resize, Rescale(scale, NoChannels), inputs).Success?
  {
    assert ChannelFlags(NoChannels, |inputs|) == ChannelFlags(Every(false), |inputs|);
  }

  /** Without channel flags, output `k` is input `k` resized; one input is
      returned on its own. */
  lemma RescaleWhole(resize: Resize, scale: seq<real>, inputs: seq<NdArray>)
    ensures var r := RescaleCall(resize, Rescale(scale, NoChannels), inputs);
            r.Success? &&
            (|inputs| == 1 ==> r.value == Single(resize(inputs[0], scale))) &&
            (|inputs| != 1 ==>
               r.value.Tuple? && |r.value.outputs| == |inputs| &&
               forall k :: 0 <= k < |inputs| ==> r.value.outputs[k] == resize(inputs[k], scale))
  {
  }
}
